=== FILE: README.md ===
# Task tracker core in Dafny

This project models the core of a single-process task tracker written in Java. The modelled parts are:

- **The task manager (`TaskManager`).** It keeps a user registry, an undo stack and a redo stack, a priority ranking (a `PriorityQueue` that serves the highest priority first), a history log (most recent first), a FIFO schedule and a due-date search tree. `registerUser`, `addTaskToUser`, `undoLastTask`, `redoLastTask` and `editTask` keep these in step. `getTotalTasks`, `getTasksByPriority`, `getTasksInDateRange` and `printPriorityTasks` read them.
- **The due-date tree (`BTree`).** A binary search tree ordered by date, with ties going right. Search and removal go by task name.
- **The dependency graph (`Graph`, `GraphManager`).** An adjacency list over task names, with DFS, BFS and DFS-based cycle detection.
- **The hand-written collections underneath.** These are `Stack` (linked through the tasks' own `next` field), `QueueInterface`, `SinglyLinkedList`, `DLinkedList`, `CircularLinkedList` and `DynamicArray`, together with the `Task` and `User` records.

## How the model is built

- **Objects.** Task objects are shared by reference between the user lists, both stacks and the ranking, and `editTask` changes them in place. They are therefore handles into an arena: a map from handle to task record (`Tasks.Arena`).
- **Stacks.** A stack is a head handle plus a counter. The chain runs through each record's `next` link, as in `Stack.java`.
- **Ranking.** The ranking is the multiset of ranked handles. A drain lists them by their current priority, highest first; among equal priorities the order is left open.
- **Dates.** A date is an integer day number, because the code only compares dates.
- **The manager.** `TaskManagers.Manager` is one record. Its invariant is `TaskManagers.Valid`: user ids match the user map, every handle in use is live, and the tree is ordered.
- **Operations.** Every operation is a pure function from a manager to a new manager, plus the Java return value.
- **Linked lists.** `SinglyLinkedList`, `QueueInterface` and `CircularLinkedList` keep their nodes as a sequence. Their contracts name the head, tail and link positions that the Java references denote.
- **The doubly linked list.** Two of `DLinkedList`'s operations break its links. So the list is a heap of node objects, and `DLinkedLists.Models(l, s)` says when the links from `head` spell the reference sequence `s`.
- **HashMap order.** The queries over all users walk `HashMap.values()`. The model takes that iteration order as a parameter that lists each user id once (`TaskQueries.Enumerates`). Lemmas show that the results do not depend on the order chosen.

### Undo looks the owner up by task id

`undoLastTask` and `redoLastTask` look the owner up under the *task's* id, not a user id (`src/managers/TaskManager.java:107`, `:122`). An undone task whose id is not also a registered user id is popped and dropped: it stays in its user's list and never reaches the redo stack. `TaskManagerLaws.AddThenUndo` states this outcome in general. In `Main.java` the undo pops "Test Module" (id 103), so Alice keeps all three tasks (`MainScenario.RunMain`).

### The edit's tree steps use the corrected removal

`editTask` removes from the due-date tree by name before each re-insert (`src/managers/TaskManager.java:209`, `:221`). The model's manager uses the corrected removal from the findings below, which deletes only the pair search finds first. With one pair per name the two agree (`TaskManagerLaws.EditTreeAsWrittenAgrees`). When two tasks share a name, the code as written can also lose the other task's pair (`TaskManagerLaws.EditTreeAsWrittenDiffers`).

## Model

| member | source | states |
|---|---|---|
| Tasks.NewTask | src/tasks/Task.java:28-32 | a new task has the given id, name and priority, and no due date or link |
| Tasks.SetId | src/tasks/Task.java:87-89 | setId changes the id and no other field |
| Tasks.SetName | src/tasks/Task.java:95-97 | setName changes the name and no other field |
| Tasks.SetPriority | src/tasks/Task.java:103-105 | setPriority accepts any integer and changes no other field |
| Tasks.SetDueDate | src/tasks/Task.java:129-131 | setDueDate changes the due date and no other field |
| Tasks.SetNext | src/tasks/Task.java:44 | setNext changes the link and no other field |
| Tasks.NextSurvivesOtherSetters | src/tasks/Task.java:38-44 | getNext returns what setNext stored last, whatever other setters ran afterwards |
| Tasks.Details | src/tasks/Task.java:50-57 | the details text starts with the id/name/priority header and is longer exactly when a due date is set, in which case a `::DueDate::` part follows the header |
| Tasks.DetailsIdRoundTrip | src/tasks/Task.java:50-57 | the task id can be read back from the details text after its `::ID::` marker |
| Tasks.IntToStringRoundTrip | src/tasks/Task.java:51 | an integer printed in decimal and read back, followed by any non-digit text, is the same integer |
| Users.NewUser | src/user/User.java:23-27 | a new user has the given id and name and an empty task list |
| Users.SetId | src/user/User.java:41-43 | setId changes only the id |
| Users.SetName | src/user/User.java:57-59 | setName changes only the name |
| Users.AddTask | src/user/User.java:73-75 | addTask appends at the end; the tasks already there keep their places |
| Users.RemoveTask | src/user/User.java:82-84 | removeTask deletes every task with that id and keeps the rest in order as a subsequence; the kept and deleted tasks make up the old list; the answer is true iff some task had the id |
| Users.GetTaskById | src/user/User.java:91-96 | getTaskById returns null iff no task has the id; otherwise it returns a listed task with that id |
| Users.WithoutIdSubsequence | src/user/User.java:82-84 | deleting by id keeps the remaining tasks in their order |
| Users.WithoutIdPartition | src/user/User.java:82-84 | the kept tasks and the deleted tasks together are the whole list, as a multiset |
| Users.WithoutIdShrinks | src/user/User.java:82-84 | deleting by id shortens the list exactly when some task has that id |
| Users.RemoveThenGet | src/user/User.java:82-96 | after removeTask(id), getTaskById(id) finds nothing |
| Users.AddThenRemove | src/user/User.java:73-84 | adding a task and then removing its id gives the same list as removing the id alone, and the answer is true |
| TaskStack.Push | src/data_structures/Stack.java:19-27 | push makes the task the top and links it to the old top; the size grows by one; no other object changes |
| TaskStack.Pop | src/data_structures/Stack.java:34-46 | pop on an empty stack returns null and changes nothing; otherwise it returns the top, the top's link becomes the new top, the popped task's link is cleared and the size drops by one |
| TaskStack.Peek | src/data_structures/Stack.java:53-55 | peek returns the top and changes nothing |
| TaskStack.PushHolds | src/data_structures/Stack.java:19-27 | as a sequence, push puts the task in front of the stack's contents and the counter still counts them |
| TaskStack.PopHolds | src/data_structures/Stack.java:34-46 | as a sequence, pop on a non-empty stack returns the first element and leaves the rest |
| TaskStack.PopEmptyHolds | src/data_structures/Stack.java:34-36 | pop on an empty stack returns null and leaves it empty |
| TaskStack.IsEmptyIffNoTop | src/data_structures/Stack.java:62-64 | under push and pop, isEmpty (size is 0) holds iff there is no top iff the stack holds nothing |
| TaskStack.IsEmpty | src/data_structures/Stack.java:62-64 | no contract of its own: isEmpty tests the size counter, and TaskStack.IsEmptyIffNoTop states that under push and pop it holds iff there is no top |
| TaskStack.PushThenPop | src/data_structures/Stack.java:19-46 | LIFO: push then pop returns the pushed task and restores the top and size; only the task's link is cleared |
| TaskStack.SpellsUnique | src/data_structures/Stack.java:19-46 | the chain of tasks below a top is determined by the links |
| Queues.Enqueue | src/data_structures/QueueInterface.java:22-31 | enqueue makes the node the back; on an empty queue it is also the front; otherwise the front stays and the old back links to the node both ways; the old entries keep their places |
| Queues.Dequeue | src/data_structures/QueueInterface.java:38-49 | dequeue on an empty queue returns null and changes nothing; otherwise it returns the front, the next entry becomes the front with no prev link, and the back is cleared when the queue empties |
| Queues.IsEmpty | src/data_structures/QueueInterface.java:83-85 | isEmpty holds iff there is no front, and iff there is no back |
| Queues.Peek | src/data_structures/QueueInterface.java:56-67 | peek and getFront return the entry dequeue would hand out next, and null exactly when the queue is empty |
| Queues.Clear | src/data_structures/QueueInterface.java:91-94 | clear leaves no front and no back |
| Queues.EnqueueDequeueCommute | src/data_structures/QueueInterface.java:22-49 | on a non-empty queue, enqueue and dequeue commute and dequeue returns the same node |
| Queues.DrainIsOrder | src/data_structures/QueueInterface.java:38-49 | dequeuing until empty yields the entries front first |
| Queues.Fifo | src/data_structures/QueueInterface.java:22-49 | entries enqueued come out after the queue's entries, in the order they went in |
| SinglyLinkedLists.Clear | src/data_structures/SinglyLinkedList.java:18-21 | clear gives an empty list of size 0 |
| SinglyLinkedLists.GetFirst | src/data_structures/SinglyLinkedList.java:28-30 | getFirst is null iff the list has no nodes |
| SinglyLinkedLists.GetLast | src/data_structures/SinglyLinkedList.java:37-44 | getLast walks the links to the final node; it is null exactly on an empty list |
| SinglyLinkedLists.RemoveFirst | src/data_structures/SinglyLinkedList.java:62-69 | removeFirst on an empty list returns null; otherwise it returns the old head, the list becomes its tail and the size drops by one |
| SinglyLinkedLists.AddFirst | src/data_structures/SinglyLinkedList.java:76-80 | addFirst makes the node the head, the old nodes follow it and the size grows by one |
| SinglyLinkedLists.AddLast | src/data_structures/SinglyLinkedList.java:87-95 | addLast makes the node the last one after the old nodes and the size grows by one |
| SinglyLinkedLists.AddFirstThenRemoveFirst | src/data_structures/SinglyLinkedList.java:62-80 | addFirst then removeFirst returns the node and restores the list |
| SinglyLinkedLists.AddLastAppends | src/data_structures/SinglyLinkedList.java:87-95 | addLast appends, and on an empty list it gives the same list as addFirst |
| SinglyLinkedLists.RemoveById | src/data_structures/SinglyLinkedList.java:103-124 | removeById returns null and changes nothing iff no node has the id; otherwise it removes and returns the first node with the id, keeps the others in order and drops the size by one |
| SinglyLinkedLists.IsEmptyIffNoNodes | src/data_structures/SinglyLinkedList.java:152-154 | when the counter counts the nodes, isEmpty holds iff there are no nodes, iff getFirst is null |
| SinglyLinkedLists.IsEmpty | src/data_structures/SinglyLinkedList.java:152-154 | no contract of its own: isEmpty tests the size counter, and SinglyLinkedLists.IsEmptyIffNoNodes states that it holds iff there are no nodes while the counter counts them |
| CircularLists.Add | src/data_structures/CircularLinkedList.java:22-32 | add on an empty ring makes the node the tail, linked to itself; otherwise it is linked after the old tail and before the oldest node, and becomes the tail; the size grows by one |
| CircularLists.RemoveNext | src/data_structures/CircularLinkedList.java:39-46 | removeNext empties a ring of one node, drops the oldest node of a longer ring and keeps the rest in order; the size always drops by one |
| CircularLists.RemoveNextOnEmpty | src/data_structures/CircularLinkedList.java:39-46 | removeNext on an empty ring leaves the counter at -1, so it no longer counts nodes |
| CircularLists.Display | src/data_structures/CircularLinkedList.java:53-60 | display visits every node once, starting at tail.next |
| CircularLists.AddAllOrder | src/data_structures/CircularLinkedList.java:22-32 | a run of adds appends the nodes, so traversal from tail.next yields insertion order |
| CircularLists.RemoveNextAfterAdds | src/data_structures/CircularLinkedList.java:22-46 | on a ring built by adds, removeNext drops the first node added and the counter still counts nodes |
| DLinkedLists.Getters | src/data_structures/DLinkedList.java:219-234 | on a well-linked list, isEmpty holds iff there are no nodes, and getFirst and getLast are the first and last nodes, or null |
| DLinkedLists.IsEmpty | src/data_structures/DLinkedList.java:124-126 | no contract of its own: isEmpty tests the size counter; DLinkedLists.Getters states that on a well-linked list it holds iff there are no nodes, and DLinkedLists.ClearAsWrittenHoldsNoList shows it failing to after clear as written |
| DLinkedLists.GetFirst | src/data_structures/DLinkedList.java:219-223 | no contract of its own: DLinkedLists.Getters states that on a well-linked list getFirst is null iff there are no nodes and otherwise the first node |
| DLinkedLists.GetLast | src/data_structures/DLinkedList.java:231-234 | no contract of its own: DLinkedLists.Getters states that on a well-linked list getLast is null iff there are no nodes and otherwise the last node |
| DLinkedLists.AddFirstAsWritten | src/data_structures/DLinkedList.java:37-44 | addFirst as written makes the node the head, links the old head back to it and grows the size, but leaves tail alone |
| DLinkedLists.AddFirstAsWrittenHoldsNoList | src/data_structures/DLinkedList.java:37-44 | after addFirst as written on a well-linked list, the links spell no list at all |
| DLinkedLists.AddFirstAsWrittenExample | src/data_structures/DLinkedList.java:37-44 | adding a second node at the front as written leaves it without a next link while the size says 2 |
| DLinkedLists.AddFirst | src/data_structures/DLinkedList.java:37-44 | corrected addFirst makes the node the head with no prev link and the old head as its next; the size grows by one; no payload changes |
| DLinkedLists.AddFirstModels | src/data_structures/DLinkedList.java:37-44 | corrected addFirst on a list spelling s gives a list spelling the node followed by s |
| DLinkedLists.ClearAsWritten | src/data_structures/DLinkedList.java:209-212 | clear as written drops head and tail but keeps the size |
| DLinkedLists.ClearAsWrittenHoldsNoList | src/data_structures/DLinkedList.java:209-212 | after clear as written on a non-empty list, isEmpty is false while getFirst is null, and the links spell no list |
| DLinkedLists.Clear | src/data_structures/DLinkedList.java:209-212 | corrected clear gives an empty list for which isEmpty holds |
| DLinkedLists.RemoveFirst | src/data_structures/DLinkedList.java:104-116 | removeFirst on an empty list returns null; otherwise it returns the head, the next node becomes the head without a prev link, tail is cleared when the list empties, and the size drops by one |
| DLinkedLists.RemoveFirstModels | src/data_structures/DLinkedList.java:104-116 | on a list spelling s, removeFirst returns s's first node and leaves a list spelling the rest |
| DLinkedLists.RemoveLast | src/data_structures/DLinkedList.java:133-146 | removeLast on an empty list returns null; otherwise it returns the tail, the previous node becomes the tail without a next link, head is cleared when the list empties, and the size drops by one |
| DLinkedLists.RemoveLastModels | src/data_structures/DLinkedList.java:133-146 | on a list spelling s, removeLast returns s's last node and leaves a list spelling the others |
| DLinkedLists.AddFirstThenRemoveFirst | src/data_structures/DLinkedList.java:37-116 | corrected addFirst then removeFirst returns the node and leaves a list spelling the old sequence |
| DLinkedLists.LinkAfterChained | src/data_structures/DLinkedList.java:57-62 | linking a node without successor after the last node of a `next` chain spelling s gives a chain spelling s followed by the node |
| DLinkedLists.LinkAfterModels | src/data_structures/DLinkedList.java:57-62 | linking a node after the last one, when links, head and counter agree with s, gives a list spelling s followed by the node, whatever the old tail was |
| DLinkedLists.AddLast | src/data_structures/DLinkedList.java:52-67 | addLast, reading only the head and the `next` links, makes the node the tail (and the head of an empty list) and grows the counter; an unlinked node extends the `next` chain, and the whole list when its back links and counter were right |
| DLinkedLists.AddFirstThenAddLast | src/data_structures/DLinkedList.java:240-246 | addFirst as written on an empty list leaves the tail null, yet the following addLast gives a list spelling both nodes |
| DLinkedLists.SpliceModels | src/data_structures/DLinkedList.java:163-168 | splicing out a middle node links its neighbours to each other and leaves a list spelling the sequence without it |
| DLinkedLists.Unlink | src/data_structures/DLinkedList.java:160-168 | unlinking the node at any position, through removeFirst, removeLast or the splice, returns it and leaves a list spelling the others |
| DLinkedLists.RemoveById | src/data_structures/DLinkedList.java:154-172 | removeById returns null and changes nothing iff no node has the id; otherwise it removes and returns the first node with the id and leaves a list spelling the others |
| DynamicArrays.New | src/data_structures/DynamicArray.java:20-24 | a new array has size 0 and the given capacity of null slots; it is usable iff the capacity is positive |
| DynamicArrays.Resize | src/data_structures/DynamicArray.java:78-85 | resize gives newCapacity slots, the first size of them copied at their indices and the rest null |
| DynamicArrays.ResizedElements | src/data_structures/DynamicArray.java:78-85 | after resize the array holds the same elements |
| DynamicArrays.Add | src/data_structures/DynamicArray.java:32-35 | add stores the element after the old ones and grows the size; the capacity doubles exactly when the array was full |
| DynamicArrays.Get | src/data_structures/DynamicArray.java:58-61 | get returns null for an index outside [0, size), otherwise the element there |
| DynamicArrays.Remove | src/data_structures/DynamicArray.java:43-50 | remove with an index out of range changes nothing; otherwise it deletes that element, shifts the later ones left and shrinks the size; the capacity halves exactly when the new size is positive and a quarter of the capacity |
| DueDateTree.Insert | src/data_structures/BTree.java:38-54 | insert adds exactly one (name, date) pair to the tree's pairs |
| DueDateTree.InsertBst | src/data_structures/BTree.java:38-54 | insert keeps the order: left dates are earlier than the node's, right dates are the same or later |
| DueDateTree.InsertDirection | src/data_structures/BTree.java:49-54 | a strictly earlier date goes into the left subtree, an equal or later one into the right |
| DueDateTree.InsertNames | src/data_structures/BTree.java:38-54 | insert adds the name to the names held |
| DueDateTree.InOrderSorted | src/data_structures/BTree.java:60-73 | the in-order traversal of an ordered tree lists its pairs by non-decreasing date |
| DueDateTree.InOrder | src/data_structures/BTree.java:60-73 | the in-order walk lists every pair of the tree exactly as often as the tree holds it; DueDateTree.InOrderSorted states its order |
| DueDateTree.SearchNode | src/data_structures/BTree.java:128-134 | searchRecursive finds a node iff some node holds the name, and what it finds holds that name |
| DueDateTree.Search | src/data_structures/BTree.java:118-120 | search holds iff some node holds the name, whatever its date |
| DueDateTree.SearchIffPair | src/data_structures/BTree.java:118-134 | search finds a name exactly when some pair carries it |
| DueDateTree.FindMin | src/data_structures/BTree.java:192-197 | findMin returns a pair held in the tree |
| DueDateTree.FindMinIsLeast | src/data_structures/BTree.java:192-197 | in an ordered tree, findMin's date is the least date |
| DueDateTree.RemoveRoot | src/data_structures/BTree.java:168-184 | removing a matched node deletes exactly its pair in the leaf, one-child and successor-copy cases |
| DueDateTree.RemoveMin | src/data_structures/BTree.java:178-183 | the corrected removal's successor step: in place of removing the successor by name at :183, it deletes exactly the pair findMin returns from the right subtree |
| DueDateTree.RemoveNamed | src/data_structures/BTree.java:153-185 | corrected removal deletes exactly the pair search finds first, and changes nothing when the name is absent |
| DueDateTree.RemoveNamedBst | src/data_structures/BTree.java:153-185 | corrected removal keeps the order |
| DueDateTree.Remove | src/data_structures/BTree.java:141-145 | remove is false and changes nothing iff the name is absent; otherwise it deletes exactly one pair carrying the name |
| DueDateTree.RemoveBst | src/data_structures/BTree.java:141-185 | remove keeps the order |
| DueDateTree.RemoveUnique | src/data_structures/BTree.java:141-185 | with unique names, remove of a held name returns true and deletes exactly its pair |
| DueDateTree.RemoveAsWrittenAbsent | src/data_structures/BTree.java:153-165 | removeRecursive as written changes nothing for an absent name |
| DueDateTree.RemoveAsWritten | src/data_structures/BTree.java:153-185 | removeRecursive as written never introduces a name and changes nothing when the name is absent; DueDateTree.RemoveAsWrittenDeletesTwo shows it deleting two pairs |
| DueDateTree.RemoveAsWrittenUnique | src/data_structures/BTree.java:153-185 | with unique names, removeRecursive as written agrees with the corrected removal |
| DueDateTree.RemoveTaskAsWritten | src/data_structures/BTree.java:141-145 | remove as written is false and changes nothing iff the name is absent |
| DueDateTree.RemoveTaskAsWrittenUnique | src/data_structures/BTree.java:141-185 | with unique names, remove as written gives the same tree and answer as the corrected remove |
| DueDateTree.OnePairPerNameUnique | src/data_structures/BTree.java:141-185 | when each name carries one pair, held once, every node's name is unique in the tree, so both removals agree |
| DueDateTree.RemoveAsWrittenDeletesTwo | src/data_structures/BTree.java:158-164 | on an ordered tree holding two pairs named "X" in different subtrees, remove("X") as written deletes both |
| DueDateTree.RemoveAsWrittenLosesBoth | src/data_structures/BTree.java:158-164 | counted in pairs, that one removal loses both ("X", 1) and ("X", 7) |
| DueDateTree.RemoveDeletesFirstFound | src/data_structures/BTree.java:141-185 | on the same tree the corrected remove("X") deletes only the pair search finds first |
| Graphs.AddEdge | src/data_structures/Graph.java:28-30 | addEdge appends the target to the source's list, creating the entry if needed; every other list is unchanged |
| Graphs.AddEdgeEdges | src/data_structures/Graph.java:28-30 | after addEdge the edges are the old ones plus the new one |
| Graphs.AddEdgeKeepsDuplicates | src/data_structures/Graph.java:29 | adding the same edge twice lists it twice |
| Graphs.DfsSound | src/data_structures/Graph.java:69-76 | every name dfsHelper marks is reachable from the name it starts on |
| Graphs.Dfs | src/data_structures/Graph.java:69-76 | dfsHelper only adds to the visited set and stays among the names closed under edges; Graphs.DfsSound and Graphs.DfsFromVisitsReachable state what it visits and in what order |
| Graphs.DfsList | src/data_structures/Graph.java:73-75 | the loop over a name's successors only adds to the visited set and stays among the names closed under edges; its visits are stated through Graphs.DfsFromVisitsReachable |
| Graphs.DfsFrom | src/data_structures/Graph.java:58-61 | dfs starts from an empty visited set and visits start first; Graphs.DfsFromVisitsReachable states the rest of the order |
| Graphs.DfsFromVisitsReachable | src/data_structures/Graph.java:58-76 | dfs visits start first, then every name reachable from it, each exactly once, and nothing else |
| Graphs.DfsFromSink | src/data_structures/Graph.java:58-76 | dfs from a name with no edges visits only that name |
| Graphs.DfsExample | src/data_structures/Graph.java:90-98 | on the example graph, dfs from Task A goes down through Task B to Task D before Task C |
| Graphs.EnqueueUnseen | src/data_structures/Graph.java:47-49 | the neighbour loop enqueues, in list order, the targets not yet visited |
| Graphs.Bfs | src/data_structures/Graph.java:37-51 | bfs visits start first, then every reachable name exactly once and nothing else, by non-decreasing distance from start; from a name with no edges only that name |
| Dependencies.AddDependency | src/managers/GraphManager.java:29-31 | addDependency(task, dependsOn) adds exactly the edge from dependsOn to task |
| Dependencies.HasCycle | src/managers/GraphManager.java:67-80 | a name on the stack gives true at once; a visited name off the stack gives false at once; a false answer restores the stack, and visited only grows |
| Dependencies.HasCycleList | src/managers/GraphManager.java:74-76 | the loop over a name's successors only adds to the visited set, keeps the stacked names among the visited ones, and leaves the stack as it found it when no successor reports a cycle |
| Dependencies.DetectCycle | src/managers/GraphManager.java:47-56 | a start with no outgoing edge reports no cycle; Dependencies.DetectCycleIffReachableCycle states the full meaning, a cycle reported iff one is reachable from start |
| Dependencies.HasCycleSound | src/managers/GraphManager.java:67-80 | hasCycle reports a cycle only when one is reachable from the start |
| Dependencies.HasCycleComplete | src/managers/GraphManager.java:67-80 | a call that finds no cycle leaves its name fully explored, and no fully explored name lies on a cycle |
| Dependencies.DetectCycleIffReachableCycle | src/managers/GraphManager.java:47-56 | detectCircularDependencies reports a cycle iff some directed cycle is reachable from start |
| Dependencies.DetectFromAbsentName | src/managers/GraphManager.java:74 | checking from a name with no adjacency entry reports no cycle |
| Dependencies.MainScenarioNoCycle | src/Main.java:36-40 | with Implement depending on Design and Test on Implement, the check from "Test Module" reports no cycle |
| Dependencies.MainScenarioWithLoop | src/Main.java:36-40 | adding that Design depends on Test makes the same check report a cycle |
| Rankings.Add | src/managers/TaskManager.java:94 | add ranks one more occurrence of the task and nothing else changes |
| Rankings.RemoveOne | src/managers/TaskManager.java:215 | remove takes out one occurrence of that very object, and answers whether there was one |
| Rankings.RemoveThenAdd | src/managers/TaskManager.java:215-217 | removing a ranked task and adding it back restores the ranking |
| Rankings.Poll | src/managers/TaskManager.java:165 | poll returns a ranked task of highest priority and removes one occurrence of it |
| Rankings.Drain | src/managers/TaskManager.java:163-166 | polling a copy until empty lists every ranked task once per occurrence, highest priority first |
| Rankings.DrainPrioritiesDetermined | src/managers/TaskManager.java:163-166 | whatever the heap does with ties, every drain of the same ranking lists the same priorities in the same order |
| TaskManagers.New | src/managers/TaskManager.java:55-66 | a new manager has no users, no tasks and every structure empty |
| TaskManagers.CreateTask | src/tasks/Task.java:28-32 | a new task object with the given fields and a due date under a fresh handle; no other object changes |
| TaskManagers.RegisterUser | src/managers/TaskManager.java:74-79 | an id already registered gives false and no change; otherwise true, and a new user with that id and name and no tasks is filed under the id, keeping the id set equal to the map's keys |
| TaskManagers.Record | src/managers/TaskManager.java:93-96 | the history gains (id, name) at the front, the ranking gains the task, the schedule gains (id, name, "Scheduled") at the back and the tree gains (name, due date); nothing else changes |
| TaskManagers.AddTaskToUser | src/managers/TaskManager.java:87-98 | an unknown user gives false and no change; otherwise true: the task is appended to the user's list, becomes the undo top linked to the old top, the redo stack is empty, the task is recorded as above, and no other user or object changes |
| TaskManagers.UndoLastTask | src/managers/TaskManager.java:104-113 | an empty undo stack means no change; otherwise exactly one task is popped; only when a user is filed under the task's id does that user lose the tasks with that id and the task go on redo; history, ranking, schedule and tree are untouched |
| TaskManagers.RedoTop | src/managers/TaskManager.java:120-130 | with the owner lookup succeeding, the task is appended to its owner, pushed on undo while the rest of redo stays, and recorded again |
| TaskManagers.RedoLastTask | src/managers/TaskManager.java:119-132 | an empty redo stack means no change; otherwise one task is popped, and it is re-added as above only when a user is filed under its id, else dropped |
| TaskManagers.EditTarget | src/managers/TaskManager.java:195-199 | the task editTask finds exists iff the user is known and has a task with that id, and it carries that id |
| TaskManagers.Snapshot | src/managers/TaskManager.java:202-205 | a fresh task with the pre-edit id, name, priority and due date becomes the undo top and the redo stack is empty; nothing else changes |
| TaskManagers.Rekeyed | src/managers/TaskManager.java:209-211 | remove by name then insert: when the name is held, the pair search finds first under it leaves, otherwise nothing leaves; the new pair enters; the order is kept |
| TaskManagers.Rename | src/managers/TaskManager.java:208-212 | on a new name the task is renamed, and in the tree the pair found under the old name gives way to (new name, due date), or that pair is simply added when the old name is not held; no name means no change |
| TaskManagers.Reprioritise | src/managers/TaskManager.java:214-218 | unless the priority is -1 the task leaves the ranking, takes the priority and rejoins |
| TaskManagers.Redate | src/managers/TaskManager.java:220-224 | on a new date the task is redated, and in the tree the pair found under its name gives way to (name, new date), or that pair is simply added when the name is not held; no date means no change |
| TaskManagers.EditFields | src/managers/TaskManager.java:208-224 | the three steps leave the new name, priority and date where given and the old ones for null, -1 and null; the ranking is re-keyed only on a priority change; the tree goes through both re-keying steps; nothing else changes |
| TaskManagers.ApplyEdit | src/managers/TaskManager.java:208-227 | the field steps and then exactly one history entry with the post-edit name |
| TaskManagers.EditTask | src/managers/TaskManager.java:194-230 | an unknown user or task id gives false and no change; otherwise true, with the snapshot pushed, redo emptied, the first task with the id edited and one history entry added |
| TaskManagerLaws.AddThenUndo | src/managers/TaskManager.java:87-113 | add then undo restores the undo stack but keeps the task in history, ranking, schedule and tree; the user loses the tasks with that id only when the task's id is that user's id; with no user under the task's id the task stays in the list and is dropped |
| TaskManagerLaws.UndoThenRedo | src/managers/TaskManager.java:104-132 | undo then redo, when the owner lookup succeeds, restores both stacks and every object; the owner has lost the tasks with that id and regained the task at the end; the ranking holds it once more and the history has one more entry |
| TaskManagerLaws.AddUndoRedo | src/managers/TaskManager.java:87-132 | a task added to the user its id names is taken out by undo and put back by redo: users, stacks and objects end as after the add, but the ranking holds the task twice |
| TaskManagerLaws.EditThenUndo | src/managers/TaskManager.java:104-230 | editTask then undo restores the undo stack, but the edited task keeps its new fields: undo never copies the snapshot back |
| TaskManagerLaws.EditRekeysTree | src/managers/TaskManager.java:208-224 | when the task's pair is the only one under its old and new names, a new name or date replaces that pair with the post-edit pair; with neither the tree is unchanged |
| TaskManagerLaws.TreeAfterEditPairs | src/managers/TaskManager.java:208-224 | the same for the two re-keying steps applied to any tree |
| TaskManagerLaws.TreeAfterEditBounds | src/managers/TaskManager.java:208-224 | whatever names the tree holds, after a new name or date the post-edit pair is in the tree, the number of pairs is kept when the task's name was held, and every new pair carries the post-edit name with the old or the new date |
| TaskManagerLaws.TreeAfterEditAsWritten | src/managers/TaskManager.java:208-224 | the two re-keying steps with BTree's remove as written; with no new name and no new date the tree is unchanged |
| TaskManagerLaws.EditTreeAsWrittenAgrees | src/managers/TaskManager.java:208-224 | when each name carries one pair and the new name is not another task's, the steps as written build exactly the model's tree |
| TaskManagerLaws.EditTreeAsWrittenDiffers | src/managers/TaskManager.java:208-212 | with two tasks named "X" due on days 1 and 7, renaming the first to "Y" keeps ("X", 7) in the model's tree but loses it in the steps as written |
| TaskQueries.GetTotalTasks | src/managers/TaskManager.java:236-242 | getTotalTasks is the number of tasks on all users' lists, walked in the given order |
| TaskQueries.TotalIndependentOfOrder | src/managers/TaskManager.java:236-242 | the total does not depend on the iteration order |
| TaskQueries.AllTasksPermutation | src/managers/TaskManager.java:238-239 | any two iteration orders walk the same tasks, each as often |
| TaskQueries.AddRaisesTotal | src/managers/TaskManager.java:87-98 | a successful addTaskToUser raises the total by one |
| TaskQueries.UndoLowersTotal | src/managers/TaskManager.java:104-113 | an undo lowers the total by the number of tasks with the undone id in the owner's list, or not at all when the lookup fails |
| TaskQueries.GetTasksByPriority | src/managers/TaskManager.java:248-257 | for each priority the count is how many walked tasks carry it; a priority no task carries has no entry |
| TaskQueries.CountPriorities | src/managers/TaskManager.java:251-254 | the counting loop tallies each priority's occurrences |
| TaskQueries.PriorityCountsIndependentOfOrder | src/managers/TaskManager.java:248-257 | the priorities counted do not depend on the iteration order |
| TaskQueries.GetTasksInDateRange | src/managers/TaskManager.java:265-276 | exactly the walked tasks with a due date d, start <= d <= end, each as often as walked, in walking order |
| TaskQueries.SelectInRange | src/managers/TaskManager.java:268-273 | the selection loop keeps exactly the tasks in range, in order |
| TaskQueries.PrintPriorityTasks | src/managers/TaskManager.java:162-167 | every ranked task is printed once per occurrence, highest priority first, as its details line; the ranking is left as it was |
| MainScenario.Setup | src/Main.java:9-22 | after registering Alice and Bob and creating the three tasks, both users have no tasks and every structure is empty |
| MainScenario.AddToFirst | src/managers/TaskManager.java:87-98 | addTaskToUser(1, h) with users 1 and 2 appends h to user 1 only and records its id, name and date everywhere |
| MainScenario.AddTwo | src/Main.java:25-26 | after two adds to user 1 from an empty state, user 1 holds both tasks in order, the second is the undo top, and history, ranking, schedule and tree hold both |
| MainScenario.AddThree | src/Main.java:25-27 | after the three adds Alice holds all three tasks in order, Test is the undo top, and history, ranking, schedule and tree hold all three |
| MainScenario.UndoDropped | src/managers/TaskManager.java:104-113 | undo of a task whose id names no user pops and drops it; users, redo and bookkeeping stay |
| MainScenario.ListedByPriority | src/managers/TaskManager.java:162-167 | any listing of tasks with priorities 8, 6 and 9, highest first, lists Test, Design, Implement |
| MainScenario.RunMain | src/Main.java:9-50 | the priority listing is Test, Design, Implement; the undo pops Test and drops it, so Alice keeps all three tasks, the redo stack is empty and Implement is the undo top |

## Left out

- Console output and input: `ConsoleUI`, `ReportManager`, `Test.java` and the printing methods (`displayUserTasks`, `printScheduledTasks`, `printTaskHistory`, `printDueDateTree`, `printAdjacencyList`, `displayEntries`, `printList`, the pre- and post-order traversals). Traversals that matter return their visit order instead of printing.
- `java.util.Date`: a date is an integer day number and only its order is used; `Date.toString` inside `getDetails` is not modelled, so `Tasks.Details` fixes the header and the `::DueDate::` marker but not the date text.
- `java.util.PriorityQueue` heap layout: the ranking is a multiset and ties are left open.
- Rankings.Drain: assumes the heap orders by current priorities. In Java, a task ranked twice whose priority is then edited keeps its second occurrence at a stale heap position, so the printed order can differ from the model's.
- TaskQueries.PrintPriorityTasks: its highest-first order rests on `Rankings.Drain`, which assumes the heap orders by current priorities. `printPriorityTasks` drains a copy of the live heap array (`src/managers/TaskManager.java:163`), so when a task ranked twice (redo ranks it again) has its priority edited, the copy keeps the stale occurrence's position and the printed order can break highest-first.
- HashMap iteration order: it is a parameter of the queries, and lemmas show the results do not depend on it.
- TaskQueries.GetTasksByPriority: states each priority's count, not separately that the counts add up to the total. The sum follows, because each count is that priority's multiplicity among the walked tasks.
- Java's 32-bit integer overflow of counters, sizes and `capacity * 2` is not modelled.
- Tasks without a due date: the model requires every task handed to the manager to carry one, as a choice of scope; the code does not. In the code, `BTree.insert` puts a dateless task into an empty tree or an empty slot without complaint (`src/data_structures/BTree.java:50`). It fails only when it compares the missing date with a node's date (`:51`). That happens at `src/managers/TaskManager.java:96`, after lines 90-95 have already updated the user, both stacks, the history, the ranking and the schedule.
- The unused `categories` and `recurringTasks` fields of `TaskManager`, and the aliasing of the live lists `getTaskList`/`getAdjList` return.
- `DLinkedList.insert`: it walks to the node before `index` and links the new node back to it and forward to its successor, but never sets that node's `next` to the new node (`src/data_structures/DLinkedList.java:84-85`) and never raises the size, so the forward walk skips the inserted node. Only `DLinkedList.main` calls it (`:247`); nothing else in the system does.
- `DLinkedList.remove(int)`: for `index > 0` it walks only `index - 1` steps, so it unlinks the node at `index - 1` rather than the one at `index` (`src/data_structures/DLinkedList.java:188`); it relinks that node's predecessor forward (`:195`) but never resets the successor's `prev`, the size or the tail. Nothing in the system calls it.
- `setHead` of `Stack` and `SinglyLinkedList`: it bypasses the size counter and nothing in the system calls it.
- The non-`Task` branch of `Stack.pop`: the manager's stacks hold only tasks.
- DynamicArrays.Get, DynamicArrays.Remove: both require `Valid`, which excludes capacity 0 for every operation because `add` cannot grow it: doubling 0 gives 0 and the store at `src/data_structures/DynamicArray.java:34` falls outside the array. Java's `get` and `remove` compare only against the size and behave on capacity 0; the model does not cover that case.
- `DynamicArray.add(null)`: a null element would make a slot look empty; elements are never null in the model.
- Node carriers `Node`, `DNode` and `QueueNode` are folded into the list models; `Node.getData`'s runtime type formatting is not modelled.
- Graphs.Dfs, Dependencies.HasCycle: the recursion runs over a finite set of names closed under edges, which bounds it; `DfsFrom` and `DetectCycle` take all names of the graph.
- TaskManagers.Rename: the tree step uses the corrected removal, whereas `src/managers/TaskManager.java:209` runs the removal as written, which can also drop a same-named pair in the other subtree. The two agree when each name carries one pair (`TaskManagerLaws.EditTreeAsWrittenAgrees`) and differ otherwise (`TaskManagerLaws.EditTreeAsWrittenDiffers`).
- TaskManagers.Redate: the same corrected-removal substitution for `src/managers/TaskManager.java:221`.
- TaskManagers.EditFields: inherits the corrected removal of the name and date steps, so its tree differs from the code's only when two tree pairs share a name.
- TaskManagers.ApplyEdit: the same difference, through `EditFields`.
- TaskManagers.EditTask: the same difference, through `ApplyEdit`. When two tasks share the edited name, the code's tree can lose the other task's pair and the model's tree keeps it.
- TaskManagerLaws.EditRekeysTree: states the exact pairs only when the task's pair is the only one under its old and new names. With shared names, removal by name may take another task's pair, and only the facts of `TaskManagerLaws.TreeAfterEditBounds` are stated.
- TaskManagerLaws.TreeAfterEditPairs: the same premise as `EditRekeysTree`, over the corrected removal.
- TaskManagerLaws.AddUndoRedo: takes the state after the add through the effect `Added`, which `AddTaskToUser` guarantees, rather than through the call itself.

## Findings

| source | as written | input that shows it | evidently intended | confidence | as-written member | corrected member |
|---|---|---|---|---|---|---|
| src/data_structures/BTree.java:158-164 | after removing from the left subtree, the search goes on into the right subtree unless the left child node itself was replaced | an ordered tree with root ("R", 5), left child ("L", 3) over leaf ("X", 1), right child ("X", 7); remove("X") | delete only the pair search finds first, ("X", 1) | not executed | DueDateTree.RemoveAsWrittenDeletesTwo | DueDateTree.RemoveDeletesFirstFound |
| src/data_structures/DLinkedList.java:37-44 | addFirst never sets the new node's next link and never sets tail on an empty list | a list holding one node; addFirst of a second node | the new head links to the old head, and an empty list gets the node as its tail too | not executed | DLinkedLists.AddFirstAsWrittenExample | DLinkedLists.AddFirstModels |
| src/data_structures/DLinkedList.java:209-212 | clear drops head and tail but keeps the size | a list holding one node; clear, then isEmpty and getFirst | size 0, so that isEmpty holds and getFirst is null | not executed | DLinkedLists.ClearAsWrittenHoldsNoList | DLinkedLists.Clear |

=== FILE: circular_list.dfy ===
/**
 * data_structures/CircularLinkedList: a ring of Node objects reached through
 * `tail`, whose `next` is the oldest node, with a separate size counter.
 *
 * The ring is held as the sequence of its nodes starting at `tail.next`; the
 * tail is the last entry. A node's `next` is the entry after it, and the
 * tail's `next` wraps round to the first entry.
 */
module CircularLists {
  import opened Wrappers
  import opened Nodes

  datatype CList<E, T> = CList(ring: seq<Node<E, T>>, size: int)

  /** new CircularLinkedList(): no tail, size 0. */
  function Empty<E, T>(): CList<E, T> {
    CList([], 0)
  }

  /** The size counter agrees with the number of nodes on the ring. */
  predicate Valid<E, T>(l: CList<E, T>) {
    l.size == |l.ring|
  }

  /** The tail reference: the last entry, or null. */
  function Tail<E, T>(l: CList<E, T>): Option<Node<E, T>> {
    if l.ring == [] then None else Some(l.ring[|l.ring| - 1])
  }

  /** The position the `next` link of entry i points at. */
  function NextOf<E, T>(l: CList<E, T>, i: nat): (j: nat)
    requires i < |l.ring|
    ensures j < |l.ring|
    ensures i + 1 < |l.ring| ==> j == i + 1
    ensures i + 1 == |l.ring| ==> j == 0
  {
    (i + 1) % |l.ring|
  }

  /**
   * add: into an empty ring the node becomes the tail and links to itself;
   * otherwise it is spliced in after the tail and before the oldest node and
   * becomes the tail. The counter grows by one either way.
   */
  function Add<E, T>(l: CList<E, T>, n: Node<E, T>): (r: CList<E, T>)
    ensures Tail(r) == Some(n) && r.size == l.size + 1
    ensures |r.ring| == |l.ring| + 1 && r.ring[..|l.ring|] == l.ring
    ensures l.ring == [] ==> NextOf(r, 0) == 0
    ensures l.ring != [] ==> NextOf(r, |l.ring| - 1) == |l.ring| && NextOf(r, |l.ring|) == 0 && r.ring[0] == l.ring[0]
    ensures Valid(l) ==> Valid(r)
  {
    CList(l.ring + [n], l.size + 1)
  }

  /**
   * removeNext: on an empty or one-node ring the tail becomes null; otherwise
   * the oldest node is unlinked. The counter goes down by one in every case,
   * the empty ring included.
   */
  function RemoveNext<E, T>(l: CList<E, T>): (r: CList<E, T>)
    ensures r.size == l.size - 1
    ensures |l.ring| <= 1 ==> r.ring == []
    ensures |l.ring| > 1 ==> r.ring == l.ring[1..] && Tail(r) == Tail(l)
    ensures Valid(l) && l.ring != [] ==> Valid(r)
  {
    if l.ring == [] || |l.ring| == 1 then CList([], l.size - 1)
    else CList(l.ring[1..], l.size - 1)
  }

  /** On an empty ring, removeNext leaves a negative counter, so the counter no longer counts nodes. */
  lemma RemoveNextOnEmpty<E, T>()
    ensures RemoveNext(Empty<E, T>()).size == -1
    ensures !Valid(RemoveNext(Empty<E, T>()))
  {
  }

  /**
   * display: starting at tail.next, visits entries along the links until it
   * is back at tail.next; the visit order is returned.
   */
  method Display<E, T>(l: CList<E, T>) returns (out: seq<Node<E, T>>)
    ensures out == l.ring
  {
    out := [];
    if l.ring == [] {
      return;
    }
    var start := NextOf(l, |l.ring| - 1);
    var current := start;
    out := out + [l.ring[current]];
    current := NextOf(l, current);
    ghost var k := 1;
    while current != start
      invariant 1 <= k <= |l.ring|
      invariant current == (if k == |l.ring| then 0 else k)
      invariant out == l.ring[..k]
      decreases |l.ring| - k
    {
      out := out + [l.ring[current]];
      assert l.ring[..k + 1] == l.ring[..k] + [l.ring[k]];
      current := NextOf(l, current);
      k := k + 1;
    }
  }

  /** Adds each node of xs in turn. */
  function AddAll<E, T>(l: CList<E, T>, xs: seq<Node<E, T>>): CList<E, T>
    decreases |xs|
  {
    if xs == [] then l else AddAll(Add(l, xs[0]), xs[1..])
  }

  /** Adding nodes to a ring appends them, so traversal from tail.next yields insertion order. */
  lemma {:induction false} AddAllOrder<E, T>(l: CList<E, T>, xs: seq<Node<E, T>>)
    ensures AddAll(l, xs).ring == l.ring + xs
    ensures AddAll(l, xs).size == l.size + |xs|
    decreases |xs|
  {
    if xs != [] {
      AddAllOrder(Add(l, xs[0]), xs[1..]);
      assert l.ring + [xs[0]] + xs[1..] == l.ring + xs;
    }
  }

  /** On a ring built by adds, removeNext drops the first node added and the counter still counts nodes. */
  lemma RemoveNextAfterAdds<E, T>(xs: seq<Node<E, T>>)
    requires xs != []
    ensures RemoveNext(AddAll(Empty(), xs)).ring == xs[1..]
    ensures Valid(RemoveNext(AddAll(Empty(), xs)))
  {
    var l := AddAll(Empty(), xs);
    AddAllOrder(Empty(), xs);
    assert Empty<E, T>().ring + xs == xs;
    assert l.ring == xs && Valid(l);
  }
}

=== FILE: dependencies.dfy ===
/**
 * managers/GraphManager: task dependencies over names, stored in a Graph
 * with an edge from each prerequisite to the task that depends on it, and
 * a depth-first cycle check that keeps a visited set and a recursion-stack
 * set.
 *
 * `detectCircularDependencies` prints its verdict; here it returns it.
 * `printDependencies` and `printAdjacencyList` only print and are not
 * modelled.
 */
module Dependencies {
  import opened Graphs

  /** addDependency(task, dependsOn): exactly the edge dependsOn -> task is added. */
  function AddDependency(g: Graph, task: string, dependsOn: string): (r: Graph)
    ensures forall v, w :: w in Succ(r, v) <==> w in Succ(g, v) || (v == dependsOn && w == task)
    ensures Succ(r, dependsOn) == Succ(g, dependsOn) + [task]
  {
    AddEdgeEdges(g, dependsOn, task);
    AddEdge(g, dependsOn, task)
  }

  /** Some name reachable from start lies on a directed cycle. */
  ghost predicate CycleFrom(g: Graph, start: string) {
    exists c :: Reach(g, start, c) && ReachPlus(g, c, c)
  }

  /** The verdict of a call together with the visited and recursion-stack sets it leaves behind. */
  datatype Search = Search(found: bool, visited: set<string>, stack: set<string>)

  /**
   * hasCycle(node, visited, stack): a name on the stack closes a cycle; a
   * name visited before and off the stack has been fully explored; any
   * other name is marked visited, pushed on the stack, and its targets are
   * checked in list order, stopping at the first cycle. When no cycle is
   * found the name comes off the stack again. Names are drawn from a finite
   * universe U closed under edges, which bounds the recursion.
   */
  function HasCycle(g: Graph, U: set<string>, node: string, visited: set<string>, stack: set<string>): (r: Search)
    requires Closed(g, U) && node in U && visited <= U && stack <= visited
    ensures visited <= r.visited <= U && r.stack <= r.visited
    ensures !r.found ==> r.stack == stack
    ensures node in stack ==> r == Search(true, visited, stack)
    ensures node !in stack && node in visited ==> r == Search(false, visited, stack)
    decreases |U - visited|, 0, 0
  {
    if node in stack then Search(true, visited, stack)
    else if node in visited then Search(false, visited, stack)
    else
      var marked := visited + {node};
      assert U - visited == (U - marked) + {node};
      var l := HasCycleList(g, U, Succ(g, node), marked, stack + {node});
      if l.found then l else Search(false, l.visited, l.stack - {node})
  }

  /** The loop of hasCycle over a list of targets. */
  function HasCycleList(g: Graph, U: set<string>, ns: seq<string>, visited: set<string>, stack: set<string>): (r: Search)
    requires Closed(g, U) && visited <= U && stack <= visited
    requires forall i :: 0 <= i < |ns| ==> ns[i] in U
    ensures visited <= r.visited <= U && r.stack <= r.visited
    ensures !r.found ==> r.stack == stack
    decreases |U - visited|, 1, |ns|
  {
    if ns == [] then Search(false, visited, stack)
    else
      var a := HasCycle(g, U, ns[0], visited, stack);
      if a.found then a
      else
        SubsetCard(U - a.visited, U - visited);
        HasCycleList(g, U, ns[1..], a.visited, a.stack)
  }

  /** detectCircularDependencies(start): hasCycle from start with nothing visited and an empty stack. */
  function DetectCycle(g: Graph, start: string): (r: bool)
    ensures Succ(g, start) == [] ==> !r
  {
    VertsClosed(g, start);
    var U := Verts(g) + {start};
    assert Succ(g, start) == [] ==> !HasCycleList(g, U, Succ(g, start), {} + {start}, {} + {start}).found;
    HasCycle(g, U, start, {}, {}).found
  }

  /**
   * A call on a name reachable from start, where every stacked name leads
   * to that name in one or more steps, reports a cycle only when a cycle is
   * reachable from start.
   */
  lemma {:induction false} HasCycleSound(g: Graph, U: set<string>, start: string, node: string,
                                         visited: set<string>, stack: set<string>)
    requires Closed(g, U) && node in U && visited <= U && stack <= visited
    requires Reach(g, start, node)
    requires forall s :: s in stack ==> ReachPlus(g, s, node)
    ensures HasCycle(g, U, node, visited, stack).found ==> CycleFrom(g, start)
    decreases |U - visited|, 0, 0
  {
    if node !in stack && node !in visited {
      var marked := visited + {node};
      assert U - visited == (U - marked) + {node};
      HasCycleListSound(g, U, start, node, Succ(g, node), marked, stack + {node});
    }
  }

  /** The same for the loop over the targets of `parent`, which is on the stack. */
  lemma {:induction false} HasCycleListSound(g: Graph, U: set<string>, start: string, parent: string, ns: seq<string>,
                                             visited: set<string>, stack: set<string>)
    requires Closed(g, U) && visited <= U && stack <= visited
    requires forall i :: 0 <= i < |ns| ==> ns[i] in U && ns[i] in Succ(g, parent)
    requires Reach(g, start, parent)
    requires forall s :: s in stack ==> s == parent || ReachPlus(g, s, parent)
    ensures HasCycleList(g, U, ns, visited, stack).found ==> CycleFrom(g, start)
    decreases |U - visited|, 1, |ns|
  {
    if ns != [] {
      var n := ns[0];
      ReachStep(g, start, parent, n);
      forall s | s in stack
        ensures ReachPlus(g, s, n)
      {
        if s == parent {
          ReachRefl(g, parent);
        } else {
          ReachPlusReach(g, s, parent);
        }
        ReachStep(g, s, parent, n);
      }
      HasCycleSound(g, U, start, n, visited, stack);
      var a := HasCycle(g, U, n, visited, stack);
      if !a.found {
        SubsetCard(U - a.visited, U - visited);
        HasCycleListSound(g, U, start, parent, ns[1..], a.visited, a.stack);
      }
    }
  }

  /**
   * The fully explored names (visited and off the stack) have no edge
   * leaving them and none of them lies on a cycle.
   */
  ghost predicate Settled(g: Graph, visited: set<string>, stack: set<string>) {
    && Closed(g, visited - stack)
    && forall b :: b in visited && b !in stack ==> !ReachPlus(g, b, b)
  }

  /** A call that finds no cycle leaves its name fully explored and the explored names settled. */
  lemma {:induction false} HasCycleComplete(g: Graph, U: set<string>, node: string, visited: set<string>, stack: set<string>)
    requires Closed(g, U) && node in U && visited <= U && stack <= visited
    requires Settled(g, visited, stack)
    ensures var r := HasCycle(g, U, node, visited, stack);
      !r.found ==> Settled(g, r.visited, r.stack) && node in r.visited && node !in r.stack
    decreases |U - visited|, 0, 0
  {
    if node !in stack && node !in visited {
      var marked := visited + {node};
      var pushed := stack + {node};
      assert U - visited == (U - marked) + {node};
      assert marked - pushed == visited - stack;
      HasCycleListComplete(g, U, Succ(g, node), marked, pushed);
      var l := HasCycleList(g, U, Succ(g, node), marked, pushed);
      if !l.found {
        FinishNode(g, node, Succ(g, node), l.visited, stack);
      }
    }
  }

  /**
   * Taking a name off the stack once all its targets are fully explored
   * keeps the explored names settled: a cycle through the name would have to
   * come back to it through explored names only.
   */
  lemma FinishNode(g: Graph, node: string, ns: seq<string>, visited: set<string>, stack: set<string>)
    requires node !in stack && ns == Succ(g, node)
    requires Settled(g, visited, stack + {node})
    requires forall i :: 0 <= i < |ns| ==> ns[i] in visited && ns[i] !in stack + {node}
    requires node in visited
    ensures Settled(g, visited, stack)
  {
    var black := visited - (stack + {node});
    assert visited - stack == black + {node};
    if ReachPlus(g, node, node) {
      var s1 := ReachPlusFirst(g, node, node);
      ClosedReach(g, black, s1, node);
      assert false;
    }
  }

  /** A loop that finds no cycle leaves every target fully explored and the explored names settled. */
  lemma {:induction false} HasCycleListComplete(g: Graph, U: set<string>, ns: seq<string>, visited: set<string>, stack: set<string>)
    requires Closed(g, U) && visited <= U && stack <= visited
    requires forall i :: 0 <= i < |ns| ==> ns[i] in U
    requires Settled(g, visited, stack)
    ensures var r := HasCycleList(g, U, ns, visited, stack);
      !r.found ==> Settled(g, r.visited, r.stack) && forall i :: 0 <= i < |ns| ==> ns[i] in r.visited && ns[i] !in r.stack
    decreases |U - visited|, 1, |ns|
  {
    if ns != [] {
      HasCycleComplete(g, U, ns[0], visited, stack);
      var a := HasCycle(g, U, ns[0], visited, stack);
      if !a.found {
        SubsetCard(U - a.visited, U - visited);
        HasCycleListComplete(g, U, ns[1..], a.visited, a.stack);
        var b := HasCycleList(g, U, ns[1..], a.visited, a.stack);
        if !b.found {
          forall i | 0 <= i < |ns|
            ensures ns[i] in b.visited && ns[i] !in b.stack
          {
            if i > 0 {
              assert ns[i] == ns[1..][i - 1];
            }
          }
        }
      }
    }
  }

  /** detectCircularDependencies reports a cycle exactly when some cycle is reachable from start. */
  lemma DetectCycleIffReachableCycle(g: Graph, start: string)
    ensures DetectCycle(g, start) <==> CycleFrom(g, start)
  {
    var U := Verts(g) + {start};
    VertsClosed(g, start);
    ReachRefl(g, start);
    HasCycleSound(g, U, start, start, {}, {});
    HasCycleComplete(g, U, start, {}, {});
    var r := HasCycle(g, U, start, {}, {});
    if !r.found && CycleFrom(g, start) {
      var c :| Reach(g, start, c) && ReachPlus(g, c, c);
      ClosedReach(g, r.visited - r.stack, start, c);
      assert false;
    }
  }

  /** A name with no adjacency entry has no targets, so checking from it reports no cycle. */
  lemma DetectFromAbsentName(g: Graph, start: string)
    requires start !in g
    ensures !DetectCycle(g, start)
  {
    var U := Verts(g) + {start};
    VertsClosed(g, start);
    assert HasCycleList(g, U, Succ(g, start), {} + {start}, {} + {start}).found == false;
  }

  /** The dependencies Main declares: testing needs implementing, and implementing needs designing. */
  function MainDependencies(): Graph {
    AddDependency(AddDependency(map[], "Test Module", "Implement Module"), "Implement Module", "Design Module")
  }

  /** Main's check from "Test Module" finds no cycle: nothing depends on testing. */
  lemma MainScenarioNoCycle()
    ensures !DetectCycle(MainDependencies(), "Test Module")
  {
    var g := MainDependencies();
    assert g.Keys == {"Implement Module", "Design Module"};
    DetectFromAbsentName(g, "Test Module");
  }

  /** Adding that designing depends on testing closes the loop, and the same check now reports a cycle. */
  lemma MainScenarioWithLoop()
    ensures DetectCycle(AddDependency(MainDependencies(), "Design Module", "Test Module"), "Test Module")
  {
    var g := AddDependency(MainDependencies(), "Design Module", "Test Module");
    var t, d, i := "Test Module", "Design Module", "Implement Module";
    assert d in Succ(g, t) && i in Succ(g, d) && t in Succ(g, i);
    var p := [t, d, i, t];
    assert IsPath(g, p);
    ReachRefl(g, t);
    DetectCycleIffReachableCycle(g, t);
  }
}

=== FILE: doubly_linked_list.dfy ===
/**
 * data_structures/DLinkedList: DNode objects linked both ways, with `head`,
 * `tail` and a separate size counter.
 *
 * Two of the list's operations leave the links inconsistent, so the nodes
 * are kept as a heap of objects (a map from reference to node record) and
 * `Models(l, s)` says when the links from `head` spell the sequence s of
 * references. `insert` and `remove(int)` are not modelled.
 */
module DLinkedLists {
  import opened Wrappers

  /** A reference to a DNode object. */
  type Ref = nat

  datatype DNode<E, T> = DNode(id: E, name: T, prev: Option<Ref>, next: Option<Ref>)

  type Heap<E, T> = map<Ref, DNode<E, T>>

  datatype DList<E, T> = DList(heap: Heap<E, T>, head: Option<Ref>, tail: Option<Ref>, size: int)

  /** new DLinkedList(): no nodes, size 0. */
  function Empty<E, T>(): DList<E, T> {
    DList(map[], None, None, 0)
  }

  /** The `next` a node at position i of s ought to have. */
  function NextRef(s: seq<Ref>, i: int): Option<Ref>
    requires 0 <= i < |s|
  {
    if i + 1 < |s| then Some(s[i + 1]) else None
  }

  /** The `prev` a node at position i of s ought to have. */
  function PrevRef(s: seq<Ref>, i: int): Option<Ref>
    requires 0 <= i < |s|
  {
    if i > 0 then Some(s[i - 1]) else None
  }

  /** No reference occurs twice in s. */
  predicate Distinct(s: seq<Ref>) {
    forall i, j :: 0 <= i < j < |s| ==> s[i] != s[j]
  }

  /** The nodes of s are distinct, live, and linked both ways in the order of s. */
  predicate Linked<E, T>(heap: Heap<E, T>, s: seq<Ref>) {
    && Distinct(s)
    && (forall i :: 0 <= i < |s| ==> s[i] in heap)
    && (forall i :: 0 <= i < |s| ==> heap[s[i]].next == NextRef(s, i))
    && (forall i :: 0 <= i < |s| ==> heap[s[i]].prev == PrevRef(s, i))
  }

  /** The nodes of s are distinct and live, and their `next` links follow the order of s. */
  predicate Chained<E, T>(heap: Heap<E, T>, s: seq<Ref>) {
    && Distinct(s)
    && (forall i :: 0 <= i < |s| ==> s[i] in heap)
    && (forall i :: 0 <= i < |s| ==> heap[s[i]].next == NextRef(s, i))
  }

  /** The list holds s, head first: links, head, tail and the counter all agree with s. */
  predicate Models<E, T>(l: DList<E, T>, s: seq<Ref>) {
    && Linked(l.heap, s)
    && l.head == (if s == [] then None else Some(s[0]))
    && l.tail == (if s == [] then None else Some(s[|s| - 1]))
    && l.size == |s|
  }

  /** Only links changed: every node keeps its id and name. */
  ghost predicate SamePayloads<E, T>(h1: Heap<E, T>, h2: Heap<E, T>) {
    forall p :: p in h1 ==> p in h2 && h2[p].id == h1[p].id && h2[p].name == h1[p].name
  }

  /** The facts Linked gives about position i. */
  lemma LinkedAt<E, T>(heap: Heap<E, T>, s: seq<Ref>, i: int)
    requires Linked(heap, s) && 0 <= i < |s|
    ensures s[i] in heap
    ensures heap[s[i]].next == NextRef(s, i) && heap[s[i]].prev == PrevRef(s, i)
    ensures forall j :: 0 <= j < |s| && j != i ==> s[j] != s[i]
  {
  }

  /** isEmpty tests the counter. */
  function IsEmpty<E, T>(l: DList<E, T>): bool {
    l.size == 0
  }

  /** getFirst: null when the counter is zero, otherwise the head reference. */
  function GetFirst<E, T>(l: DList<E, T>): Option<Ref> {
    if IsEmpty(l) then None else l.head
  }

  /** getLast: null when the counter is zero, otherwise the tail reference. */
  function GetLast<E, T>(l: DList<E, T>): Option<Ref> {
    if IsEmpty(l) then None else l.tail
  }

  /** On a list that holds s, isEmpty means s is empty and the getters return its ends. */
  lemma Getters<E, T>(l: DList<E, T>, s: seq<Ref>)
    requires Models(l, s)
    ensures IsEmpty(l) <==> s == []
    ensures GetFirst(l) == (if s == [] then None else Some(s[0]))
    ensures GetLast(l) == (if s == [] then None else Some(s[|s| - 1]))
  {
  }

  // ---------------------------------------------------------------------------
  // addFirst and clear, as written and corrected

  /**
   * addFirst as written: the old head's `prev` is set to the node and the
   * node becomes the head, but the node's own `next` is never set and the
   * tail is left as it was.
   */
  function AddFirstAsWritten<E, T>(l: DList<E, T>, x: Ref, n: DNode<E, T>): (r: DList<E, T>)
    requires x !in l.heap
    requires l.head.Some? ==> l.head.value in l.heap
    ensures r.head == Some(x) && r.size == l.size + 1 && r.tail == l.tail
    ensures x in r.heap && r.heap[x] == n
    ensures l.head.Some? ==> l.head.value in r.heap && r.heap[l.head.value].prev == Some(x)
  {
    var h := l.heap[x := n];
    match l.head
    case None => DList(h, Some(x), l.tail, l.size + 1)
    case Some(oh) => DList(h[oh := h[oh].(prev := Some(x))], Some(x), l.tail, l.size + 1)
  }

  /**
   * After addFirst as written with a node built with null links, the
   * structure holds no list at all: the chain from the head stops at the new
   * node, while the counter (or, from empty, the missing tail) says otherwise.
   */
  lemma AddFirstAsWrittenHoldsNoList<E, T>(l: DList<E, T>, s: seq<Ref>, x: Ref, n: DNode<E, T>)
    requires Models(l, s) && x !in l.heap
    requires n.prev == None && n.next == None
    ensures forall t :: !Models(AddFirstAsWritten(l, x, n), t)
  {
    var r := AddFirstAsWritten(l, x, n);
    forall t | Models(r, t)
      ensures false
    {
      assert t != [] && t[0] == x;
      LinkedAt(r.heap, t, 0);
    }
  }

  /** A concrete instance: adding node 1 to the front of the list holding node 0 leaves a chain of one node with a counter of two. */
  lemma AddFirstAsWrittenExample()
    ensures var l := DList(map[0 := DNode(1, "a", None, None)], Some(0), Some(0), 1);
      && Models(l, [0])
      && var r := AddFirstAsWritten(l, 1, DNode(2, "b", None, None));
      && r.heap[1].next == None && r.size == 2
  {
  }

  /** addFirst, corrected: the node also links to the old head, and becomes the tail of an empty list. */
  function AddFirst<E, T>(l: DList<E, T>, x: Ref, n: DNode<E, T>): (r: DList<E, T>)
    requires x !in l.heap
    requires l.head.Some? ==> l.head.value in l.heap
    ensures r.head == Some(x) && r.size == l.size + 1
    ensures x in r.heap && r.heap[x].id == n.id && r.heap[x].name == n.name
    ensures r.heap[x].prev == None && r.heap[x].next == l.head
    ensures SamePayloads(l.heap, r.heap)
  {
    var h := l.heap[x := n.(prev := None, next := l.head)];
    match l.head
    case None => DList(h, Some(x), Some(x), l.size + 1)
    case Some(oh) => DList(h[oh := h[oh].(prev := Some(x))], Some(x), l.tail, l.size + 1)
  }

  /** The links the corrected addFirst leaves at position i of the longer sequence. */
  lemma AddFirstLinks<E, T>(l: DList<E, T>, s: seq<Ref>, x: Ref, n: DNode<E, T>, i: int)
    requires Models(l, s) && x !in l.heap && s != [] && 0 <= i <= |s|
    ensures var r, s' := AddFirst(l, x, n), [x] + s;
      && s'[i] in r.heap
      && r.heap[s'[i]].next == NextRef(s', i) && r.heap[s'[i]].prev == PrevRef(s', i)
  {
    var r, s' := AddFirst(l, x, n), [x] + s;
    LinkedAt(l.heap, s, 0);
    var h := l.heap[x := n.(prev := None, next := Some(s[0]))];
    assert r.heap == h[s[0] := h[s[0]].(prev := Some(x))];
    if i == 0 {
      assert r.heap[x] == h[x];
    } else if i == 1 {
      assert NextRef(s', 1) == NextRef(s, 0);
    } else {
      LinkedAt(l.heap, s, i - 1);
      assert s'[i] == s[i - 1] && s[i - 1] != s[0] && s[i - 1] != x;
      assert r.heap[s'[i]] == l.heap[s[i - 1]];
      assert NextRef(s', i) == NextRef(s, i - 1) && PrevRef(s', i) == PrevRef(s, i - 1);
    }
  }

  /** The corrected addFirst puts the node in front of the list. */
  lemma AddFirstModels<E, T>(l: DList<E, T>, s: seq<Ref>, x: Ref, n: DNode<E, T>)
    requires Models(l, s) && x !in l.heap
    ensures Models(AddFirst(l, x, n), [x] + s)
  {
    var r := AddFirst(l, x, n);
    var s' := [x] + s;
    if s != [] {
      forall i | 0 <= i < |s'|
        ensures s'[i] in r.heap
        ensures r.heap[s'[i]].next == NextRef(s', i) && r.heap[s'[i]].prev == PrevRef(s', i)
      {
        AddFirstLinks(l, s, x, n, i);
      }
      forall i, j | 0 <= i < j < |s'|
        ensures s'[i] != s'[j]
      {
        LinkedAt(l.heap, s, j - 1);
        if i > 0 {
          LinkedAt(l.heap, s, i - 1);
        }
      }
      assert Linked(r.heap, s');
    }
  }

  /** clear as written: head and tail become null, but the counter keeps its value. */
  function ClearAsWritten<E, T>(l: DList<E, T>): (r: DList<E, T>)
    ensures r.head == None && r.tail == None && r.size == l.size
  {
    l.(head := None, tail := None)
  }

  /** Clearing a non-empty list as written holds no list, and isEmpty still says false. */
  lemma ClearAsWrittenHoldsNoList<E, T>(l: DList<E, T>, s: seq<Ref>)
    requires Models(l, s) && s != []
    ensures forall t :: !Models(ClearAsWritten(l), t)
    ensures !IsEmpty(ClearAsWritten(l)) && GetFirst(ClearAsWritten(l)) == None
  {
  }

  /** clear, corrected: the counter is reset as well. */
  function Clear<E, T>(l: DList<E, T>): (r: DList<E, T>)
    ensures Models(r, []) && IsEmpty(r)
    ensures SamePayloads(l.heap, r.heap)
  {
    l.(head := None, tail := None, size := 0)
  }

  // ---------------------------------------------------------------------------
  // Removal at the ends

  datatype Removed<E, T> = Removed(list: DList<E, T>, node: Option<Ref>)

  /** What removeFirst dereferences when the counter is non-zero. */
  predicate FrontLinked<E, T>(l: DList<E, T>) {
    l.size != 0 ==>
      && l.head.Some? && l.head.value in l.heap
      && (l.heap[l.head.value].next.Some? ==> l.heap[l.head.value].next.value in l.heap)
  }

  /** What removeLast dereferences when the counter is non-zero. */
  predicate BackLinked<E, T>(l: DList<E, T>) {
    l.size != 0 ==>
      && l.tail.Some? && l.tail.value in l.heap
      && (l.heap[l.tail.value].prev.Some? ==> l.heap[l.tail.value].prev.value in l.heap)
  }

  /**
   * removeFirst: null on an empty list. Otherwise the head; the head moves to
   * its successor, whose `prev` is cleared, the tail becomes null when
   * nothing is left, and the counter goes down by one.
   */
  function RemoveFirst<E, T>(l: DList<E, T>): (r: Removed<E, T>)
    requires FrontLinked(l)
    ensures IsEmpty(l) ==> r == Removed(l, None)
    ensures !IsEmpty(l) ==>
      && r.node == l.head
      && r.list.head == l.heap[l.head.value].next
      && (r.list.head.Some? ==>
            r.list.head.value in r.list.heap && r.list.heap[r.list.head.value].prev == None && r.list.tail == l.tail)
      && (r.list.head.None? ==> r.list.tail == None)
      && r.list.size == l.size - 1
    ensures SamePayloads(l.heap, r.list.heap)
  {
    if IsEmpty(l) then Removed(l, None)
    else
      var h := l.head.value;
      match l.heap[h].next
      case Some(nh) => Removed(DList(l.heap[nh := l.heap[nh].(prev := None)], Some(nh), l.tail, l.size - 1), Some(h))
      case None => Removed(DList(l.heap, None, None, l.size - 1), Some(h))
  }

  /** The links of a list are enough for removeFirst and removeLast. */
  lemma ModelsEndsLinked<E, T>(l: DList<E, T>, s: seq<Ref>)
    requires Models(l, s)
    ensures FrontLinked(l) && BackLinked(l)
  {
    if s != [] {
      LinkedAt(l.heap, s, 0);
      LinkedAt(l.heap, s, |s| - 1);
    }
  }

  /** removeFirst returns the first node of the sequence and leaves the rest. */
  lemma RemoveFirstModels<E, T>(l: DList<E, T>, s: seq<Ref>)
    requires Models(l, s)
    ensures FrontLinked(l)
    ensures s == [] ==> RemoveFirst(l) == Removed(l, None)
    ensures s != [] ==> RemoveFirst(l).node == Some(s[0]) && Models(RemoveFirst(l).list, s[1..])
  {
    ModelsEndsLinked(l, s);
    if s != [] {
      var r := RemoveFirst(l).list;
      var s' := s[1..];
      LinkedAt(l.heap, s, 0);
      forall i | 0 <= i < |s'|
        ensures s'[i] in r.heap
        ensures r.heap[s'[i]].next == NextRef(s', i) && r.heap[s'[i]].prev == PrevRef(s', i)
      {
        LinkedAt(l.heap, s, i + 1);
      }
      forall i, j | 0 <= i < j < |s'|
        ensures s'[i] != s'[j]
      {
        LinkedAt(l.heap, s, i + 1);
      }
    }
  }

  /**
   * removeLast: null on an empty list. Otherwise the tail; the tail moves to
   * its predecessor, whose `next` is cleared, the head becomes null when
   * nothing is left, and the counter goes down by one.
   */
  function RemoveLast<E, T>(l: DList<E, T>): (r: Removed<E, T>)
    requires BackLinked(l)
    ensures IsEmpty(l) ==> r == Removed(l, None)
    ensures !IsEmpty(l) ==>
      && r.node == l.tail
      && r.list.tail == l.heap[l.tail.value].prev
      && (r.list.tail.Some? ==>
            r.list.tail.value in r.list.heap && r.list.heap[r.list.tail.value].next == None && r.list.head == l.head)
      && (r.list.tail.None? ==> r.list.head == None)
      && r.list.size == l.size - 1
    ensures SamePayloads(l.heap, r.list.heap)
  {
    if IsEmpty(l) then Removed(l, None)
    else
      var t := l.tail.value;
      match l.heap[t].prev
      case Some(nt) => Removed(DList(l.heap[nt := l.heap[nt].(next := None)], l.head, Some(nt), l.size - 1), Some(t))
      case None => Removed(DList(l.heap, None, None, l.size - 1), Some(t))
  }

  /** removeLast returns the last node of the sequence and leaves the rest. */
  lemma RemoveLastModels<E, T>(l: DList<E, T>, s: seq<Ref>)
    requires Models(l, s)
    ensures BackLinked(l)
    ensures s == [] ==> RemoveLast(l) == Removed(l, None)
    ensures s != [] ==> RemoveLast(l).node == Some(s[|s| - 1]) && Models(RemoveLast(l).list, s[..|s| - 1])
  {
    ModelsEndsLinked(l, s);
    if s != [] {
      var r := RemoveLast(l).list;
      var n := |s| - 1;
      var s' := s[..n];
      LinkedAt(l.heap, s, n);
      forall i | 0 <= i < |s'|
        ensures s'[i] in r.heap
        ensures r.heap[s'[i]].next == NextRef(s', i) && r.heap[s'[i]].prev == PrevRef(s', i)
      {
        LinkedAt(l.heap, s, i);
      }
      forall i, j | 0 <= i < j < |s'|
        ensures s'[i] != s'[j]
      {
        LinkedAt(l.heap, s, i);
      }
    }
  }

  /** addFirst (corrected) followed by removeFirst returns the node and restores the sequence. */
  lemma AddFirstThenRemoveFirst<E, T>(l: DList<E, T>, s: seq<Ref>, x: Ref, n: DNode<E, T>)
    requires Models(l, s) && x !in l.heap
    ensures FrontLinked(AddFirst(l, x, n))
    ensures RemoveFirst(AddFirst(l, x, n)).node == Some(x)
    ensures Models(RemoveFirst(AddFirst(l, x, n)).list, s)
  {
    AddFirstModels(l, s, x, n);
    RemoveFirstModels(AddFirst(l, x, n), [x] + s);
    assert ([x] + s)[1..] == s;
  }

  // ---------------------------------------------------------------------------
  // addLast and removeById walk the links

  /** The list after linking node x, already stored, behind node last. */
  function LinkAfter<E, T>(l: DList<E, T>, last: Ref, x: Ref, n: DNode<E, T>): DList<E, T>
    requires last in l.heap
  {
    var h := l.heap[x := n.(prev := Some(last))];
    DList(h[last := h[last].(next := Some(x))], l.head, Some(x), l.size + 1)
  }

  /** Linking a node with no successor behind the last node appends it to the chain of `next` links. */
  lemma LinkAfterChained<E, T>(l: DList<E, T>, s: seq<Ref>, x: Ref, n: DNode<E, T>)
    requires Chained(l.heap, s) && s != [] && x !in l.heap && n.next == None
    ensures s[|s| - 1] in l.heap
    ensures Chained(LinkAfter(l, s[|s| - 1], x, n).heap, s + [x])
  {
    var r := LinkAfter(l, s[|s| - 1], x, n);
    var s' := s + [x];
    forall i | 0 <= i < |s'|
      ensures s'[i] in r.heap && r.heap[s'[i]].next == NextRef(s', i)
    {
    }
  }

  /**
   * Linking a node with no successor behind the last node of a list whose
   * links, head and counter agree with s appends it to the sequence; the
   * old tail is not read.
   */
  lemma LinkAfterModels<E, T>(l: DList<E, T>, s: seq<Ref>, x: Ref, n: DNode<E, T>)
    requires Linked(l.heap, s) && s != [] && l.head == Some(s[0]) && l.size == |s|
    requires x !in l.heap && n.next == None
    ensures s[|s| - 1] in l.heap
    ensures Models(LinkAfter(l, s[|s| - 1], x, n), s + [x])
  {
    var last := |s| - 1;
    LinkedAt(l.heap, s, last);
    var r := LinkAfter(l, s[last], x, n);
    var s' := s + [x];
    forall i | 0 <= i < |s'|
      ensures s'[i] in r.heap
      ensures r.heap[s'[i]].next == NextRef(s', i) && r.heap[s'[i]].prev == PrevRef(s', i)
    {
      if i < last {
        LinkedAt(l.heap, s, i);
      }
    }
  }

  /** addLast's walk: from the head, follow `next` links while there is one; it stops at the last node of s. */
  method FindLast<E, T>(l: DList<E, T>, ghost s: seq<Ref>) returns (curr: Ref)
    requires Chained(l.heap, s) && s != [] && l.head == Some(s[0])
    ensures curr == s[|s| - 1]
  {
    curr := l.head.value;
    ghost var i := 0;
    while l.heap[curr].next.Some?
      invariant 0 <= i < |s| && curr == s[i]
      decreases |s| - i
    {
      curr := l.heap[curr].next.value;
      i := i + 1;
    }
  }

  /**
   * addLast: on a list with no head the node becomes the head; otherwise the
   * links are followed from the head to the last node and the node is linked
   * behind it. Either way the node becomes the tail and the counter grows by
   * one. Only the head and the `next` links are read, so neither the tail nor
   * the counter need be right beforehand. The node's own `next` is not
   * touched, nor its `prev` on an empty list: when the node was built with
   * null links the `next` chain spells s + [x], and the whole list holds
   * s + [x] when its `prev` links and counter agreed with s.
   */
  method AddLast<E, T>(l: DList<E, T>, x: Ref, n: DNode<E, T>, ghost s: seq<Ref>) returns (r: DList<E, T>)
    requires Chained(l.heap, s) && l.head == (if s == [] then None else Some(s[0])) && x !in l.heap
    ensures r.tail == Some(x) && r.size == l.size + 1
    ensures r.head == (if s == [] then Some(x) else l.head)
    ensures x in r.heap && r.heap[x].id == n.id && r.heap[x].name == n.name
    ensures SamePayloads(l.heap, r.heap)
    ensures n.next == None ==> Chained(r.heap, s + [x])
    ensures n.prev == None && n.next == None && Linked(l.heap, s) && l.size == |s| ==> Models(r, s + [x])
  {
    if l.head.None? {
      r := DList(l.heap[x := n], Some(x), Some(x), l.size + 1);
      return;
    }
    var curr := FindLast(l, s);
    r := LinkAfter(l, curr, x, n);
    if n.next == None {
      LinkAfterChained(l, s, x, n);
      if Linked(l.heap, s) && l.size == |s| {
        LinkAfterModels(l, s, x, n);
      }
    }
  }

  /**
   * DLinkedList.main's first two calls: addFirst as written on an empty list,
   * then addLast. The first call leaves the tail null, yet addLast appends
   * behind the new head and the list holds both nodes.
   */
  method AddFirstThenAddLast<E, T>(x: Ref, nx: DNode<E, T>, y: Ref, ny: DNode<E, T>) returns (r: DList<E, T>)
    requires x != y
    requires nx.prev == None && nx.next == None && ny.prev == None && ny.next == None
    ensures Models(r, [x, y])
  {
    var l := AddFirstAsWritten(Empty(), x, nx);
    assert l.tail == None && Linked(l.heap, [x]);
    r := AddLast(l, y, ny, [x]);
  }

  /** Every node of s is live and none carries the id. */
  ghost predicate NoIdIn<E, T>(heap: Heap<E, T>, s: seq<Ref>, id: E) {
    forall j :: 0 <= j < |s| ==> s[j] in heap && heap[s[j]].id != id
  }

  /** The list after unlinking the middle node c, between p and nx, and clearing its links. */
  function Splice<E, T>(l: DList<E, T>, p: Ref, c: Ref, nx: Ref): DList<E, T>
    requires p in l.heap && c in l.heap && nx in l.heap
  {
    var h := l.heap[p := l.heap[p].(next := Some(nx))];
    var h' := h[nx := h[nx].(prev := Some(p))];
    DList(h'[c := h'[c].(next := None, prev := None)], l.head, l.tail, l.size - 1)
  }

  /** The nodes Splice rewrites, and how. */
  lemma SpliceHeap<E, T>(l: DList<E, T>, p: Ref, c: Ref, nx: Ref, q: Ref)
    requires p in l.heap && c in l.heap && nx in l.heap
    requires p != c && c != nx && p != nx
    requires q in l.heap
    ensures q in Splice(l, p, c, nx).heap
    ensures Splice(l, p, c, nx).heap[q] ==
      if q == p then l.heap[p].(next := Some(nx))
      else if q == nx then l.heap[nx].(prev := Some(p))
      else if q == c then l.heap[c].(next := None, prev := None)
      else l.heap[q]
  {
  }

  /** Position i of s with position k deleted. */
  lemma DeletedAt(s: seq<Ref>, k: int, i: int)
    requires 0 <= k < |s| && 0 <= i < |s| - 1
    ensures |s[..k] + s[k + 1..]| == |s| - 1
    ensures (s[..k] + s[k + 1..])[i] == (if i < k then s[i] else s[i + 1])
  {
  }

  /** Deleting a position from a sequence without repeats leaves one without repeats. */
  lemma DeletedDistinct(s: seq<Ref>, k: int)
    requires 0 <= k < |s|
    requires Distinct(s)
    ensures Distinct(s[..k] + s[k + 1..])
  {
    var s' := s[..k] + s[k + 1..];
    forall i, j | 0 <= i < j < |s'|
      ensures s'[i] != s'[j]
    {
      DeletedAt(s, k, i);
      DeletedAt(s, k, j);
    }
  }

  /** The links Splice leaves on the shortened sequence. */
  lemma SpliceLinks<E, T>(l: DList<E, T>, s: seq<Ref>, k: int, i: int)
    requires Models(l, s) && 0 < k < |s| - 1 && 0 <= i < |s| - 1
    ensures s[k - 1] in l.heap && s[k] in l.heap && s[k + 1] in l.heap
    ensures var r := Splice(l, s[k - 1], s[k], s[k + 1]);
      var s' := s[..k] + s[k + 1..];
      && |s'| == |s| - 1
      && s'[i] in r.heap
      && r.heap[s'[i]].next == NextRef(s', i) && r.heap[s'[i]].prev == PrevRef(s', i)
  {
    var p, c, nx := s[k - 1], s[k], s[k + 1];
    LinkedAt(l.heap, s, k - 1);
    LinkedAt(l.heap, s, k);
    LinkedAt(l.heap, s, k + 1);
    var s' := s[..k] + s[k + 1..];
    var j := if i < k then i else i + 1;
    DeletedNeighbours(s, k, i, s');
    LinkedAt(l.heap, s, j);
    SpliceHeap(l, p, c, nx, s[j]);
  }

  /** The neighbours of position i once position k is deleted, in terms of the old positions. */
  lemma DeletedNeighbours(s: seq<Ref>, k: int, i: int, s': seq<Ref>)
    requires 0 < k < |s| - 1 && 0 <= i < |s| - 1 && s' == s[..k] + s[k + 1..]
    ensures |s'| == |s| - 1
    ensures s'[i] == if i < k then s[i] else s[i + 1]
    ensures NextRef(s', i) ==
      if i == k - 1 then Some(s[k + 1]) else if i < k then NextRef(s, i) else NextRef(s, i + 1)
    ensures PrevRef(s', i) ==
      if i == k then Some(s[k - 1]) else if i < k then PrevRef(s, i) else PrevRef(s, i + 1)
  {
    DeletedAt(s, k, i);
    if i + 1 < |s'| {
      DeletedAt(s, k, i + 1);
    }
    if i > 0 {
      DeletedAt(s, k, i - 1);
    }
  }

  /** Unlinking an inner node deletes it from the sequence. */
  lemma SpliceModels<E, T>(l: DList<E, T>, s: seq<Ref>, k: int)
    requires Models(l, s) && 0 < k < |s| - 1
    ensures s[k - 1] in l.heap && s[k] in l.heap && s[k + 1] in l.heap
    ensures Models(Splice(l, s[k - 1], s[k], s[k + 1]), s[..k] + s[k + 1..])
    ensures SamePayloads(l.heap, Splice(l, s[k - 1], s[k], s[k + 1]).heap)
  {
    var p, c, nx := s[k - 1], s[k], s[k + 1];
    LinkedAt(l.heap, s, k - 1);
    LinkedAt(l.heap, s, k);
    LinkedAt(l.heap, s, k + 1);
    var r := Splice(l, p, c, nx);
    var s' := s[..k] + s[k + 1..];
    forall i | 0 <= i < |s'|
      ensures s'[i] in r.heap
      ensures r.heap[s'[i]].next == NextRef(s', i) && r.heap[s'[i]].prev == PrevRef(s', i)
    {
      SpliceLinks(l, s, k, i);
    }
    DeletedDistinct(s, k);
    forall q | q in l.heap
      ensures q in r.heap && r.heap[q].id == l.heap[q].id && r.heap[q].name == l.heap[q].name
    {
      SpliceHeap(l, p, c, nx, q);
    }
    DeletedAt(s, k, 0);
    DeletedAt(s, k, |s| - 2);
  }

  /**
   * Unlinks the node at position i the way removeById does once it has found
   * it: through removeFirst at the head, through removeLast at the tail, and
   * otherwise by splicing its neighbours together and clearing its links.
   */
  method Unlink<E, T>(l: DList<E, T>, c: Ref, ghost s: seq<Ref>, ghost i: int) returns (r: Removed<E, T>)
    requires Models(l, s) && 0 <= i < |s| && c == s[i]
    ensures r.node == Some(c)
    ensures Models(r.list, s[..i] + s[i + 1..])
    ensures SamePayloads(l.heap, r.list.heap)
  {
    LinkedAt(l.heap, s, i);
    if Some(c) == l.head {
      RemoveFirstModels(l, s);
      r := RemoveFirst(l);
      assert i == 0 && s[..0] + s[1..] == s[1..];
    } else if Some(c) == l.tail {
      RemoveLastModels(l, s);
      r := RemoveLast(l);
      assert i == |s| - 1 && s[..i] + s[i + 1..] == s[..|s| - 1];
    } else {
      SpliceModels(l, s, i);
      var p, nx := l.heap[c].prev.value, l.heap[c].next.value;
      r := Removed(Splice(l, p, c, nx), Some(c));
    }
  }

  /**
   * removeById: null when no node carries the id. Otherwise the first node
   * with the id, unlinked, and the counter one lower.
   */
  method RemoveById<E(==), T>(l: DList<E, T>, id: E, ghost s: seq<Ref>) returns (r: Removed<E, T>)
    requires Models(l, s)
    ensures SamePayloads(l.heap, r.list.heap)
    ensures r.node.None? <==> NoIdIn(l.heap, s, id)
    ensures r.node.None? ==> r.list == l
    ensures r.node.Some? ==> exists k ::
      && 0 <= k < |s| && l.heap[s[k]].id == id && NoIdIn(l.heap, s[..k], id)
      && r.node == Some(s[k])
      && Models(r.list, s[..k] + s[k + 1..])
  {
    if IsEmpty(l) {
      return Removed(l, None);
    }
    var curr := l.head;
    ghost var i := 0;
    while curr.Some?
      invariant 0 <= i <= |s|
      invariant curr == (if i < |s| then Some(s[i]) else None)
      invariant NoIdIn(l.heap, s[..i], id)
      decreases |s| - i
    {
      var c := curr.value;
      LinkedAt(l.heap, s, i);
      if l.heap[c].id == id {
        r := Unlink(l, c, s, i);
        assert !NoIdIn(l.heap, s, id) by {
          assert s[i] in l.heap && l.heap[s[i]].id == id;
        }
        assert l.heap[s[i]].id == id && r.node == Some(s[i]);
        return;
      }
      assert s[..i + 1] == s[..i] + [s[i]];
      curr := l.heap[c].next;
      i := i + 1;
    }
    assert s[..i] == s;
    r := Removed(l, None);
  }
}

=== FILE: due_date_tree.dfy ===
/**
 * data_structures/BTree: a binary search tree of (task name, due date)
 * pairs ordered by due date, with strictly earlier dates on the left and
 * equal or later dates on the right. Search and removal are by name and
 * look at the whole tree.
 *
 * The Java nodes are mutated in place; here a tree is a value and every
 * operation returns the new tree.
 */
module DueDateTree {
  import opened Wrappers
  import opened Tasks

  datatype Tree = Leaf | Node(left: Tree, name: string, date: Date, right: Tree)

  /** A (task name, due date) pair, as one BSTNode holds it. */
  type Entry = (string, Date)

  /** The pairs held in the tree, with their multiplicities. */
  function Pairs(t: Tree): multiset<Entry> {
    match t
    case Leaf => multiset{}
    case Node(l, n, d, r) => Pairs(l) + multiset{(n, d)} + Pairs(r)
  }

  /** The task names held in the tree. */
  function Names(t: Tree): set<string> {
    match t
    case Leaf => {}
    case Node(l, n, d, r) => Names(l) + {n} + Names(r)
  }

  /** The name of every pair held is among the names. */
  lemma {:induction false} PairNamed(t: Tree, e: Entry)
    requires e in Pairs(t)
    ensures e.0 in Names(t)
  {
    match t
    case Leaf =>
    case Node(l, n, d, r) =>
      if e in Pairs(l) {
        PairNamed(l, e);
      } else if e in Pairs(r) {
        PairNamed(r, e);
      }
  }

  /** Every date in the tree is strictly before d. */
  predicate AllBefore(t: Tree, d: Date) {
    match t
    case Leaf => true
    case Node(l, n, e, r) => e < d && AllBefore(l, d) && AllBefore(r, d)
  }

  /** Every date in the tree is d or later. */
  predicate AllFrom(t: Tree, d: Date) {
    match t
    case Leaf => true
    case Node(l, n, e, r) => d <= e && AllFrom(l, d) && AllFrom(r, d)
  }

  /** The bounds speak about every pair held. */
  lemma {:induction false} BoundsOfPairs(t: Tree, d: Date, e: Entry)
    requires e in Pairs(t)
    ensures AllBefore(t, d) ==> e.1 < d
    ensures AllFrom(t, d) ==> d <= e.1
  {
    match t
    case Leaf =>
    case Node(l, n, x, r) =>
      if e in Pairs(l) {
        BoundsOfPairs(l, d, e);
      } else if e in Pairs(r) {
        BoundsOfPairs(r, d, e);
      }
  }

  /** The ordering invariant: left dates < node date <= right dates, at every node. */
  predicate IsBst(t: Tree) {
    match t
    case Leaf => true
    case Node(l, n, d, r) => IsBst(l) && IsBst(r) && AllBefore(l, d) && AllFrom(r, d)
  }

  /** No task name occurs twice in the tree. */
  predicate UniqueNames(t: Tree) {
    match t
    case Leaf => true
    case Node(l, n, d, r) =>
      && UniqueNames(l) && UniqueNames(r)
      && n !in Names(l) && n !in Names(r) && Names(l) !! Names(r)
  }

  // ---------------------------------------------------------------------------
  // insert

  /**
   * insert: a strictly earlier date goes into the left subtree, an equal or
   * later one into the right; the new pair becomes a leaf.
   */
  function Insert(t: Tree, n: string, d: Date): (r: Tree)
    ensures r.Node?
    ensures Pairs(r) == Pairs(t) + multiset{(n, d)}
  {
    match t
    case Leaf => Node(Leaf, n, d, Leaf)
    case Node(l, m, e, rt) =>
      if d < e then Node(Insert(l, n, d), m, e, rt) else Node(l, m, e, Insert(rt, n, d))
  }

  /** Inserting a pair that meets a bound keeps the bound. */
  lemma {:induction false} InsertBounds(t: Tree, n: string, d: Date, b: Date)
    ensures AllBefore(t, b) && d < b ==> AllBefore(Insert(t, n, d), b)
    ensures AllFrom(t, b) && b <= d ==> AllFrom(Insert(t, n, d), b)
  {
    match t
    case Leaf =>
    case Node(l, m, e, rt) =>
      InsertBounds(l, n, d, b);
      InsertBounds(rt, n, d, b);
  }

  /** insert adds the name. */
  lemma {:induction false} InsertNames(t: Tree, n: string, d: Date)
    ensures Names(Insert(t, n, d)) == Names(t) + {n}
  {
    match t
    case Leaf =>
    case Node(l, m, e, rt) =>
      InsertNames(l, n, d);
      InsertNames(rt, n, d);
  }

  /** insert keeps the ordering invariant. */
  lemma {:induction false} InsertBst(t: Tree, n: string, d: Date)
    requires IsBst(t)
    ensures IsBst(Insert(t, n, d))
  {
    match t
    case Leaf =>
    case Node(l, m, e, rt) =>
      InsertBst(l, n, d);
      InsertBst(rt, n, d);
      InsertBounds(l, n, d, e);
      InsertBounds(rt, n, d, e);
  }

  /** Where insert sends a pair: left when strictly earlier than the root, right otherwise. */
  lemma InsertDirection(t: Tree, n: string, d: Date)
    requires t.Node?
    ensures d < t.date ==> Insert(t, n, d).right == t.right && (n, d) in Pairs(Insert(t, n, d).left)
    ensures t.date <= d ==> Insert(t, n, d).left == t.left && (n, d) in Pairs(Insert(t, n, d).right)
  {
  }

  // ---------------------------------------------------------------------------
  // in-order traversal

  /** The in-order traversal, as the sequence of pairs visited. */
  function InOrder(t: Tree): (s: seq<Entry>)
    ensures multiset(s) == Pairs(t)
  {
    match t
    case Leaf => []
    case Node(l, n, d, r) => InOrder(l) + [(n, d)] + InOrder(r)
  }

  predicate SortedByDate(s: seq<Entry>) {
    forall i, j :: 0 <= i < j < |s| ==> s[i].1 <= s[j].1
  }

  /** Every pair the traversal lists meets the tree's bounds. */
  lemma InOrderBounds(t: Tree, d: Date, i: int)
    requires 0 <= i < |InOrder(t)|
    ensures AllBefore(t, d) ==> InOrder(t)[i].1 < d
    ensures AllFrom(t, d) ==> d <= InOrder(t)[i].1
  {
    assert InOrder(t)[i] in multiset(InOrder(t));
    BoundsOfPairs(t, d, InOrder(t)[i]);
  }

  /** Joining two sorted runs around a pivot that separates them gives a sorted run. */
  lemma SortedJoin(a: seq<Entry>, x: Entry, b: seq<Entry>)
    requires SortedByDate(a) && SortedByDate(b)
    requires forall i :: 0 <= i < |a| ==> a[i].1 < x.1
    requires forall i :: 0 <= i < |b| ==> x.1 <= b[i].1
    ensures SortedByDate(a + [x] + b)
  {
    var s := a + [x] + b;
    forall i, j | 0 <= i < j < |s|
      ensures s[i].1 <= s[j].1
    {
      if j < |a| {
        assert s[i] == a[i] && s[j] == a[j];
      } else if i > |a| {
        assert s[i] == b[i - |a| - 1] && s[j] == b[j - |a| - 1];
      } else if i < |a| && j > |a| {
        assert s[i] == a[i] && s[j] == b[j - |a| - 1];
      } else if i < |a| {
        assert s[i] == a[i];
      } else {
        assert s[j] == b[j - |a| - 1];
      }
    }
  }

  /** The in-order traversal of a search tree lists dates in non-decreasing order. */
  lemma {:induction false} InOrderSorted(t: Tree)
    requires IsBst(t)
    ensures SortedByDate(InOrder(t))
  {
    match t
    case Leaf =>
    case Node(l, n, d, r) =>
      InOrderSorted(l);
      InOrderSorted(r);
      forall i | 0 <= i < |InOrder(l)|
        ensures InOrder(l)[i].1 < d
      {
        InOrderBounds(l, d, i);
      }
      forall i | 0 <= i < |InOrder(r)|
        ensures d <= InOrder(r)[i].1
      {
        InOrderBounds(r, d, i);
      }
      SortedJoin(InOrder(l), (n, d), InOrder(r));
  }

  // ---------------------------------------------------------------------------
  // search

  /** searchRecursive: the node itself, then the left subtree, then the right; the first match in preorder. */
  function SearchNode(t: Tree, n: string): (r: Option<Entry>)
    ensures r.Some? <==> n in Names(t)
    ensures r.Some? ==> r.value in Pairs(t) && r.value.0 == n
  {
    match t
    case Leaf => None
    case Node(l, m, d, rt) =>
      if m == n then Some((m, d))
      else
        var found := SearchNode(l, n);
        if found.None? then SearchNode(rt, n) else found
  }

  /** search: some node holds the name, whatever its date. */
  function Search(t: Tree, n: string): (b: bool)
    ensures b <==> n in Names(t)
  {
    SearchNode(t, n).Some?
  }

  /** search finds a name exactly when some pair carries it. */
  lemma SearchIffPair(t: Tree, n: string)
    ensures Search(t, n) <==> exists e :: e in Pairs(t) && e.0 == n
  {
    if exists e :: e in Pairs(t) && e.0 == n {
      var e :| e in Pairs(t) && e.0 == n;
      PairNamed(t, e);
    }
  }

  // ---------------------------------------------------------------------------
  // findMin and removal

  /** findMin: follows left links to the leftmost node. */
  function FindMin(t: Tree): (e: Entry)
    requires t.Node?
    ensures e in Pairs(t)
  {
    if t.left.Leaf? then (t.name, t.date) else FindMin(t.left)
  }

  /** A looser bound follows from a tighter one. */
  lemma {:induction false} AllFromWeaken(t: Tree, d: Date, d': Date)
    requires AllFrom(t, d) && d' <= d
    ensures AllFrom(t, d')
  {
    match t
    case Leaf =>
    case Node(l, n, e, r) =>
      AllFromWeaken(l, d, d');
      AllFromWeaken(r, d, d');
  }

  /** In a search tree, findMin's date is the least date. */
  lemma {:induction false} FindMinIsLeast(t: Tree)
    requires t.Node? && IsBst(t)
    ensures AllFrom(t, FindMin(t).1)
  {
    var m := FindMin(t).1;
    if t.left.Node? {
      FindMinIsLeast(t.left);
      BoundsOfPairs(t.left, t.date, FindMin(t.left));
      AllFromWeaken(t.right, t.date, m);
    }
  }

  /** Removes the leftmost node, whose pair findMin returns. */
  function RemoveMin(t: Tree): (r: Tree)
    requires t.Node?
    ensures Pairs(r) == Pairs(t) - multiset{FindMin(t)}
  {
    if t.left.Leaf? then t.right else Node(RemoveMin(t.left), t.name, t.date, t.right)
  }

  /** Removing the minimum keeps every bound the tree met. */
  lemma {:induction false} RemoveMinBounds(t: Tree, b: Date)
    requires t.Node?
    ensures AllBefore(t, b) ==> AllBefore(RemoveMin(t), b)
    ensures AllFrom(t, b) ==> AllFrom(RemoveMin(t), b)
  {
    if t.left.Node? {
      RemoveMinBounds(t.left, b);
    }
  }

  /** Removing the minimum keeps the ordering invariant. */
  lemma {:induction false} RemoveMinBst(t: Tree)
    requires t.Node? && IsBst(t)
    ensures IsBst(RemoveMin(t))
  {
    if t.left.Node? {
      RemoveMinBst(t.left);
      RemoveMinBounds(t.left, t.date);
    }
  }

  /**
   * Removes the root pair: a leaf goes, a node with one child is replaced by
   * it, and a node with two children takes its successor's pair (the minimum
   * of the right subtree), which is then removed from the right subtree.
   */
  function RemoveRoot(t: Tree): (r: Tree)
    requires t.Node?
    ensures Pairs(r) == Pairs(t) - multiset{(t.name, t.date)}
  {
    if t.left.Leaf? && t.right.Leaf? then Leaf
    else if t.left.Leaf? then t.right
    else if t.right.Leaf? then t.left
    else
      var s := FindMin(t.right);
      Node(t.left, s.0, s.1, RemoveMin(t.right))
  }

  /** A tighter upper bound follows from a looser one. */
  lemma {:induction false} AllBeforeWeaken(t: Tree, d: Date, d': Date)
    requires AllBefore(t, d) && d <= d'
    ensures AllBefore(t, d')
  {
    match t
    case Leaf =>
    case Node(l, n, e, r) =>
      AllBeforeWeaken(l, d, d');
      AllBeforeWeaken(r, d, d');
  }

  /** Removing the root keeps the ordering invariant, in all three cases. */
  lemma RemoveRootBst(t: Tree)
    requires t.Node? && IsBst(t)
    ensures IsBst(RemoveRoot(t))
  {
    if t.left.Node? && t.right.Node? {
      var s := FindMin(t.right);
      FindMinIsLeast(t.right);
      BoundsOfPairs(t.right, t.date, s);
      AllBeforeWeaken(t.left, t.date, s.1);
      RemoveMinBst(t.right);
      RemoveMinBounds(t.right, s.1);
    }
  }

  /** Removing a pair keeps every bound the tree met. */
  lemma {:induction false} RemoveRootBounds(t: Tree, b: Date)
    requires t.Node?
    ensures AllBefore(t, b) ==> AllBefore(RemoveRoot(t), b)
    ensures AllFrom(t, b) ==> AllFrom(RemoveRoot(t), b)
  {
    if t.left.Node? && t.right.Node? {
      var s := FindMin(t.right);
      BoundsOfPairs(t.right, b, s);
      RemoveMinBounds(t.right, b);
    }
  }

  /**
   * Removes the pair that search finds: the first node in preorder holding
   * the name. A tree without the name is returned unchanged.
   */
  function RemoveNamed(t: Tree, n: string): (r: Tree)
    ensures SearchNode(t, n).None? ==> r == t
    ensures SearchNode(t, n).Some? ==> Pairs(r) == Pairs(t) - multiset{SearchNode(t, n).value}
  {
    match t
    case Leaf => Leaf
    case Node(l, m, d, rt) =>
      if m == n then RemoveRoot(t)
      else if Search(l, n) then
        var l' := RemoveNamed(l, n);
        DropOnLeft(Pairs(l), multiset{(m, d)} + Pairs(rt), Pairs(l'), SearchNode(l, n).value);
        Node(l', m, d, rt)
      else
        var rt' := RemoveNamed(rt, n);
        DropOnRight(Pairs(l) + multiset{(m, d)}, Pairs(rt), Pairs(rt'), SearchNode(t, n));
        Node(l, m, d, rt')
  }

  /** Taking one occurrence out of the left part takes it out of the whole. */
  lemma DropOnLeft<T>(a: multiset<T>, b: multiset<T>, a': multiset<T>, e: T)
    requires e in a && a' == a - multiset{e}
    ensures a' + b == a + b - multiset{e}
  {
  }

  /** Taking a found occurrence out of the right part takes it out of the whole. */
  lemma DropOnRight<T>(a: multiset<T>, b: multiset<T>, b': multiset<T>, e: Option<T>)
    requires e.Some? ==> e.value in b && b' == b - multiset{e.value}
    ensures e.Some? ==> a + b' == a + b - multiset{e.value}
  {
  }

  /** Removing by name keeps every bound the tree met. */
  lemma {:induction false} RemoveNamedBounds(t: Tree, n: string, b: Date)
    ensures AllBefore(t, b) ==> AllBefore(RemoveNamed(t, n), b)
    ensures AllFrom(t, b) ==> AllFrom(RemoveNamed(t, n), b)
  {
    match t
    case Leaf =>
    case Node(l, m, d, rt) =>
      if m == n {
        RemoveRootBounds(t, b);
      } else {
        RemoveNamedBounds(l, n, b);
        RemoveNamedBounds(rt, n, b);
      }
  }

  /** Removing by name keeps the ordering invariant. */
  lemma {:induction false} RemoveNamedBst(t: Tree, n: string)
    requires IsBst(t)
    ensures IsBst(RemoveNamed(t, n))
  {
    match t
    case Leaf =>
    case Node(l, m, d, rt) =>
      if m == n {
        RemoveRootBst(t);
      } else {
        RemoveNamedBst(l, n);
        RemoveNamedBst(rt, n);
        RemoveNamedBounds(l, n, d);
        RemoveNamedBounds(rt, n, d);
      }
  }

  /**
   * remove: false and no change when search does not find the name;
   * otherwise true, with the found pair removed.
   */
  function Remove(t: Tree, n: string): (r: (Tree, bool))
    ensures r.1 <==> n in Names(t)
    ensures !r.1 ==> r.0 == t
    ensures r.1 ==> exists e :: e in Pairs(t) && e.0 == n && Pairs(r.0) == Pairs(t) - multiset{e}
  {
    if !Search(t, n) then (t, false) else (RemoveNamed(t, n), true)
  }

  /** remove keeps the ordering invariant. */
  lemma RemoveBst(t: Tree, n: string)
    requires IsBst(t)
    ensures IsBst(Remove(t, n).0)
  {
    RemoveNamedBst(t, n);
  }

  /** With unique names, remove deletes exactly the pair carrying the name, and the name is gone. */
  lemma RemoveUnique(t: Tree, n: string, d: Date)
    requires UniqueNames(t) && (n, d) in Pairs(t)
    ensures Remove(t, n).1
    ensures Pairs(Remove(t, n).0) == Pairs(t) - multiset{(n, d)}
  {
    var e := SearchNode(t, n).value;
    UniqueNamesOnePair(t, n, e, (n, d));
  }

  /** In a tree with unique names, two pairs with the same name are the same pair. */
  lemma {:induction false} UniqueNamesOnePair(t: Tree, n: string, e1: Entry, e2: Entry)
    requires UniqueNames(t)
    requires e1 in Pairs(t) && e2 in Pairs(t) && e1.0 == n && e2.0 == n
    ensures e1 == e2
  {
    match t
    case Leaf =>
    case Node(l, m, d, r) =>
      if e1 in Pairs(l) {
        PairNamed(l, e1);
      }
      if e2 in Pairs(l) {
        PairNamed(l, e2);
      }
      if e1 in Pairs(r) {
        PairNamed(r, e1);
      }
      if e2 in Pairs(r) {
        PairNamed(r, e2);
      }
      if e1 in Pairs(l) && e2 in Pairs(l) {
        UniqueNamesOnePair(l, n, e1, e2);
      } else if e1 in Pairs(r) && e2 in Pairs(r) {
        UniqueNamesOnePair(r, n, e1, e2);
      }
  }

  // ---------------------------------------------------------------------------
  // removeRecursive as written

  /**
   * Whether removeRecursive on subtree t hands back a different node than
   * t: only when t's root holds the name and is a leaf or has one child.
   * A two-child match is overwritten in place, so the same node comes back.
   */
  predicate RootReplaced(t: Tree, n: string) {
    t.Node? && t.name == n && !(t.left.Node? && t.right.Node?)
  }

  /**
   * removeRecursive as written. At a node without the name it removes from
   * the left subtree and goes on into the right subtree unless the left
   * child itself was replaced; the successor is removed from the right
   * subtree by name.
   */
  function RemoveAsWritten(t: Tree, n: string): (r: Tree)
    ensures Names(r) <= Names(t)
    ensures n !in Names(t) ==> r == t
  {
    match t
    case Leaf => Leaf
    case Node(l, m, d, rt) =>
      if m != n then
        var nl := RemoveAsWritten(l, n);
        if RootReplaced(l, n) then Node(nl, m, d, rt) else Node(nl, m, d, RemoveAsWritten(rt, n))
      else if l.Leaf? && rt.Leaf? then Leaf
      else if l.Leaf? then rt
      else if rt.Leaf? then l
      else
        var s := FindMin(rt);
        PairNamed(rt, s);
        Node(l, s.0, s.1, RemoveAsWritten(rt, s.0))
  }

  /** A name that is not in the tree removes nothing. */
  lemma {:induction false} RemoveAsWrittenAbsent(t: Tree, n: string)
    requires n !in Names(t)
    ensures RemoveAsWritten(t, n) == t
  {
    match t
    case Leaf =>
    case Node(l, m, d, rt) =>
      RemoveAsWrittenAbsent(l, n);
      RemoveAsWrittenAbsent(rt, n);
  }

  /** With unique names, removing the minimum's name is removing the minimum. */
  lemma {:induction false} RemoveNamedMin(t: Tree)
    requires t.Node? && UniqueNames(t)
    ensures RemoveNamed(t, FindMin(t).0) == RemoveMin(t)
  {
    if t.left.Node? {
      var mn := FindMin(t.left);
      assert mn == FindMin(t);
      PairNamed(t.left, mn);
      RemoveNamedMin(t.left);
    }
  }

  /** With unique names, removeRecursive as written removes exactly what the corrected removal does. */
  lemma {:induction false} RemoveAsWrittenUnique(t: Tree, n: string)
    requires UniqueNames(t)
    ensures RemoveAsWritten(t, n) == RemoveNamed(t, n)
  {
    match t
    case Leaf =>
    case Node(l, m, d, rt) =>
      if m != n {
        RemoveAsWrittenUnique(l, n);
        if n in Names(l) {
          RemoveAsWrittenAbsent(rt, n);
        } else {
          RemoveAsWrittenAbsent(l, n);
          RemoveAsWrittenUnique(rt, n);
        }
      } else if l.Node? && rt.Node? {
        var s := FindMin(rt);
        RemoveAsWrittenUnique(rt, s.0);
        RemoveNamedMin(rt);
      }
  }

  /** remove as written: false when search fails, otherwise removeRecursive as written. */
  function RemoveTaskAsWritten(t: Tree, n: string): (r: (Tree, bool))
    ensures r.1 <==> n in Names(t)
    ensures !r.1 ==> r.0 == t
  {
    if !Search(t, n) then (t, false) else (RemoveAsWritten(t, n), true)
  }

  /** remove as written and the corrected remove agree on a tree whose names are unique. */
  lemma RemoveTaskAsWrittenUnique(t: Tree, n: string)
    requires UniqueNames(t)
    ensures RemoveTaskAsWritten(t, n) == Remove(t, n)
  {
    RemoveAsWrittenUnique(t, n);
  }

  /** Each name carries at most one pair, and that pair is held once. */
  predicate OnePairPerName(p: multiset<Entry>) {
    && (forall e :: e in p ==> p[e] == 1)
    && (forall e, e' :: e in p && e' in p && e.0 == e'.0 ==> e == e')
  }

  /** One pair per name in a + b: also in a and in b, and no name is shared between them. */
  lemma OnePairPerNameSplit(a: multiset<Entry>, b: multiset<Entry>)
    requires OnePairPerName(a + b)
    ensures OnePairPerName(a) && OnePairPerName(b)
    ensures forall e, e' :: e in a && e' in b ==> e.0 != e'.0
  {
    var p := a + b;
    forall e | e in a
      ensures a[e] == 1
    {
      assert p[e] == a[e] + b[e];
    }
    forall e | e in b
      ensures b[e] == 1
    {
      assert p[e] == a[e] + b[e];
    }
    forall e, e' | e in a && e' in b
      ensures e.0 != e'.0
    {
      assert p[e] == a[e] + b[e];
    }
  }

  /** One pair per name in a + {x} + b: also in a and in b, and no name is shared between x, a and b. */
  lemma OnePairPerNameParts(a: multiset<Entry>, x: Entry, b: multiset<Entry>)
    requires OnePairPerName(a + multiset{x} + b)
    ensures OnePairPerName(a) && OnePairPerName(b)
    ensures forall e :: e in a ==> e.0 != x.0
    ensures forall e :: e in b ==> e.0 != x.0
    ensures forall e, e' :: e in a && e' in b ==> e.0 != e'.0
  {
    OnePairPerNameSplit(a + multiset{x}, b);
    OnePairPerNameSplit(a, multiset{x});
    assert x in multiset{x};
    forall e | e in a
      ensures e in a + multiset{x}
    {
    }
  }

  /** Trading e for x keeps one pair per name when no other pair carries x's name. */
  lemma OnePairPerNameSwap(p: multiset<Entry>, e: Entry, x: Entry)
    requires OnePairPerName(p) && e in p
    requires forall f :: f in p && f != e ==> f.0 != x.0
    ensures OnePairPerName(p - multiset{e} + multiset{x})
  {
    var q := p - multiset{e} + multiset{x};
    forall f | f in q
      ensures q[f] == 1
    {
      assert q[f] == p[f] - multiset{e}[f] + multiset{x}[f] || p[f] < multiset{e}[f];
    }
  }

  /** Adding x keeps one pair per name when no pair carries x's name. */
  lemma OnePairPerNameAdd(p: multiset<Entry>, x: Entry)
    requires OnePairPerName(p)
    requires forall f :: f in p ==> f.0 != x.0
    ensures OnePairPerName(p + multiset{x})
  {
    var q := p + multiset{x};
    forall f | f in q
      ensures q[f] == 1
    {
      assert q[f] == p[f] + multiset{x}[f];
    }
  }

  /** A tree whose pairs have one pair per name has unique names at every node. */
  lemma {:induction false} OnePairPerNameUnique(t: Tree)
    requires OnePairPerName(Pairs(t))
    ensures UniqueNames(t)
  {
    match t
    case Leaf =>
    case Node(l, n, d, r) =>
      OnePairPerNameParts(Pairs(l), (n, d), Pairs(r));
      OnePairPerNameUnique(l);
      OnePairPerNameUnique(r);
      var ol := SearchNode(l, n);
      var or := SearchNode(r, n);
      forall x | x in Names(l)
        ensures x !in Names(r)
      {
        var e := SearchNode(l, x).value;
        var o := SearchNode(r, x);
      }
  }

  /** Two tasks named "X", due on days 1 and 7, in different subtrees of the root. */
  const TwoNamedX: Tree := Node(Node(Node(Leaf, "X", 1, Leaf), "L", 3, Leaf), "R", 5, Node(Leaf, "X", 7, Leaf))

  /**
   * remove("X") as written deletes both pairs named "X": the left subtree's
   * root was not replaced, so the recursion goes on into the right subtree.
   */
  lemma RemoveAsWrittenDeletesTwo()
    ensures IsBst(TwoNamedX)
    ensures RemoveTaskAsWritten(TwoNamedX, "X") == (Node(Node(Leaf, "L", 3, Leaf), "R", 5, Leaf), true)
  {
    var x1, x7 := Node(Leaf, "X", 1, Leaf), Node(Leaf, "X", 7, Leaf);
    var lt := Node(x1, "L", 3, Leaf);
    assert RemoveAsWritten(x1, "X") == Leaf && RootReplaced(x1, "X");
    assert RemoveAsWritten(lt, "X") == Node(Leaf, "L", 3, Leaf) && !RootReplaced(lt, "X");
    assert RemoveAsWritten(x7, "X") == Leaf;
    assert Search(TwoNamedX, "X") by {
      assert "X" in Names(lt);
    }
  }

  /** Counted in pairs: the one removal loses both ("X", 1) and ("X", 7). */
  lemma RemoveAsWrittenLosesBoth()
    ensures Pairs(RemoveTaskAsWritten(TwoNamedX, "X").0) == Pairs(TwoNamedX) - multiset{("X", 1), ("X", 7)}
  {
    RemoveAsWrittenDeletesTwo();
    assert Pairs(TwoNamedX) == multiset{("X", 1), ("L", 3), ("R", 5), ("X", 7)};
    assert Pairs(Node(Node(Leaf, "L", 3, Leaf), "R", 5, Leaf)) == multiset{("L", 3), ("R", 5)};
  }

  /** The corrected remove("X") deletes only the pair search finds first, the one due on day 1. */
  lemma RemoveDeletesFirstFound()
    ensures Remove(TwoNamedX, "X") == (Node(Node(Leaf, "L", 3, Leaf), "R", 5, Node(Leaf, "X", 7, Leaf)), true)
  {
    var x1 := Node(Leaf, "X", 1, Leaf);
    var lt := Node(x1, "L", 3, Leaf);
    assert Search(lt, "X") by {
      assert "X" in Names(x1);
    }
    assert RemoveNamed(lt, "X") == Node(Leaf, "L", 3, Leaf);
  }
}

=== FILE: dynamic_array.dfy ===
/**
 * data_structures/DynamicArray: a growable array with a size counter and an
 * explicit capacity, doubling when full and halving when a quarter full.
 *
 * The backing array is held as the sequence of its slots; an empty slot is
 * null. The element loops of `resize` and `remove` are written as loops over
 * the slots. Java's 32-bit overflow of `capacity * 2` is not modelled.
 */
module DynamicArrays {
  import opened Wrappers

  datatype DynArray<T> = DynArray(slots: seq<Option<T>>, size: int, capacity: int)

  /**
   * The backing array is `capacity` slots long, 0 <= size <= capacity, the
   * first `size` slots hold the elements and the rest are null. A positive
   * capacity is needed for doubling to make room.
   */
  predicate Valid<T>(a: DynArray<T>) {
    && 0 < a.capacity && |a.slots| == a.capacity
    && 0 <= a.size <= a.capacity
    && (forall i :: 0 <= i < a.size ==> a.slots[i].Some?)
    && (forall i :: a.size <= i < a.capacity ==> a.slots[i].None?)
  }

  /** The elements held, in index order. */
  function Elements<T>(a: DynArray<T>): (r: seq<T>)
    requires Valid(a)
    ensures |r| == a.size
    ensures forall i :: 0 <= i < a.size ==> a.slots[i] == Some(r[i])
  {
    seq(a.size, i requires 0 <= i < a.size => a.slots[i].value)
  }

  /** new DynamicArray(capacity): capacity null slots, size 0; usable once the capacity is positive. */
  function New<T>(capacity: nat): (r: DynArray<T>)
    ensures r.size == 0 && r.capacity == capacity && |r.slots| == capacity
    ensures Valid(r) <==> capacity > 0
    ensures capacity > 0 ==> Elements(r) == []
  {
    DynArray(seq(capacity, _ => None), 0, capacity)
  }

  /**
   * resize: a fresh array of the new capacity, null everywhere except the
   * first `size` slots, which are copied over at the same indices.
   */
  method Resize<T>(slots: seq<Option<T>>, size: int, newCapacity: int) returns (r: seq<Option<T>>)
    requires 0 <= size <= |slots| && size <= newCapacity
    ensures |r| == newCapacity
    ensures r[..size] == slots[..size]
    ensures forall i :: size <= i < newCapacity ==> r[i] == None
  {
    r := seq(newCapacity, _ => None);
    var i := 0;
    while i < size
      invariant 0 <= i <= size && |r| == newCapacity
      invariant r[..i] == slots[..i]
      invariant forall j :: i <= j < newCapacity ==> r[j] == None
    {
      r := r[i := slots[i]];
      assert r[..i + 1] == r[..i] + [slots[i]];
      assert slots[..i + 1] == slots[..i] + [slots[i]];
      i := i + 1;
    }
  }

  /** A resized store keeps the elements. */
  lemma ResizedElements<T>(a: DynArray<T>, r: seq<Option<T>>, newCapacity: int)
    requires Valid(a) && a.size <= newCapacity && 0 < newCapacity
    requires |r| == newCapacity && r[..a.size] == a.slots[..a.size]
    requires forall i :: a.size <= i < newCapacity ==> r[i] == None
    ensures Valid(DynArray(r, a.size, newCapacity))
    ensures Elements(DynArray(r, a.size, newCapacity)) == Elements(a)
  {
    forall i | 0 <= i < a.size
      ensures r[i] == a.slots[i]
    {
      assert r[i] == r[..a.size][i];
    }
  }

  /**
   * add: when the array is full the capacity doubles first; the element goes
   * into slot `size` and the counter grows by one.
   */
  method Add<T>(a: DynArray<T>, x: T) returns (r: DynArray<T>)
    requires Valid(a)
    ensures Valid(r)
    ensures Elements(r) == Elements(a) + [x]
    ensures r.size == a.size + 1
    ensures r.capacity == if a.size == a.capacity then 2 * a.capacity else a.capacity
  {
    var b := a;
    if a.size == a.capacity {
      var slots := Resize(a.slots, a.size, a.capacity * 2);
      ResizedElements(a, slots, a.capacity * 2);
      b := DynArray(slots, a.size, a.capacity * 2);
    }
    r := DynArray(b.slots[b.size := Some(x)], b.size + 1, b.capacity);
    assert Elements(r) == Elements(b) + [x];
  }

  /** get: null for an index outside [0, size), otherwise the element there. */
  function Get<T>(a: DynArray<T>, index: int): (r: Option<T>)
    requires Valid(a)
    ensures r.Some? <==> 0 <= index < a.size
    ensures r.Some? ==> r.value == Elements(a)[index]
  {
    if index < 0 || index >= a.size then None else a.slots[index]
  }

  /**
   * remove: an index outside [0, size) changes nothing. Otherwise the later
   * elements move one slot to the left, the vacated last slot becomes null
   * and the counter goes down by one; then, when the array is left a quarter
   * full and not empty, the capacity halves.
   */
  method Remove<T>(a: DynArray<T>, index: int) returns (r: DynArray<T>)
    requires Valid(a)
    ensures Valid(r)
    ensures (index < 0 || index >= a.size) ==> r == a
    ensures 0 <= index < a.size ==>
      && Elements(r) == Elements(a)[..index] + Elements(a)[index + 1..]
      && r.size == a.size - 1
      && r.capacity == if r.size > 0 && r.size == a.capacity / 4 then a.capacity / 2 else a.capacity
  {
    if index < 0 || index >= a.size {
      return a;
    }
    var s := a.slots;
    var i := index;
    while i < a.size - 1
      invariant index <= i <= a.size - 1 && |s| == |a.slots|
      invariant s[..index] == a.slots[..index]
      invariant forall j :: index <= j < i ==> s[j] == a.slots[j + 1]
      invariant s[i..] == a.slots[i..]
    {
      s := s[i := s[i + 1]];
      i := i + 1;
    }
    s := s[a.size - 1 := None];
    var size := a.size - 1;
    var b := DynArray(s, size, a.capacity);
    assert Valid(b) && Elements(b) == Elements(a)[..index] + Elements(a)[index + 1..] by {
      forall j | 0 <= j < size
        ensures s[j] == a.slots[if j < index then j else j + 1]
      {
        if j < index {
          assert s[j] == s[..index][j];
        }
      }
    }
    r := b;
    if size > 0 && size == a.capacity / 4 {
      var slots := Resize(s, size, a.capacity / 2);
      ResizedElements(b, slots, a.capacity / 2);
      r := DynArray(slots, size, a.capacity / 2);
    }
  }
}

=== FILE: graph.dfy ===
/**
 * data_structures/Graph: a directed graph over names, held as an adjacency
 * list from a name to the names its edges lead to, in the order the edges
 * were added. A name with no entry has no outgoing edges.
 *
 * The traversals `dfs` and `bfs` print the names they visit; here they
 * return the visit order instead.
 */
module Graphs {
  type Graph = map<string, seq<string>>

  /** The targets of v's edges in insertion order; none for a name with no entry. */
  function Succ(g: Graph, v: string): (r: seq<string>)
    ensures v !in g ==> r == []
  {
    if v in g then g[v] else []
  }

  /**
   * addEdge: appends `to` to the list of `from`, creating the list when
   * `from` has none. An edge already present is added again.
   */
  function AddEdge(g: Graph, from: string, to: string): (r: Graph)
    ensures r.Keys == g.Keys + {from}
    ensures Succ(r, from) == Succ(g, from) + [to]
    ensures forall v :: v != from ==> Succ(r, v) == Succ(g, v)
  {
    g[from := Succ(g, from) + [to]]
  }

  /** After addEdge the edges are the old ones plus from -> to. */
  lemma AddEdgeEdges(g: Graph, from: string, to: string)
    ensures forall v, w :: w in Succ(AddEdge(g, from, to), v) <==> w in Succ(g, v) || (v == from && w == to)
  {
    assert Succ(AddEdge(g, from, to), from)[|Succ(g, from)|] == to;
  }

  /** Adding an edge twice lists it twice: the adjacency list is not a set. */
  lemma AddEdgeKeepsDuplicates(g: Graph, from: string, to: string)
    ensures |Succ(AddEdge(AddEdge(g, from, to), from, to), from)| == |Succ(g, from)| + 2
  {
  }

  /** Every name that occurs in the graph, as a key or as an edge target. */
  function Verts(g: Graph): (r: set<string>)
    ensures g.Keys <= r
    ensures forall v, w :: v in g && w in g[v] ==> w in r
  {
    g.Keys + (set v, w | v in g && w in g[v] :: w)
  }

  /** No edge leaves S. */
  ghost predicate Closed(g: Graph, S: set<string>) {
    forall v, w :: v in S && w in Succ(g, v) ==> w in S
  }

  /** The names of the graph together with a start name are closed under edges. */
  lemma VertsClosed(g: Graph, start: string)
    ensures Closed(g, Verts(g) + {start})
  {
  }

  /** p is a walk along edges. */
  ghost predicate IsPath(g: Graph, p: seq<string>) {
    |p| > 0 && forall i :: 0 <= i < |p| - 1 ==> p[i + 1] in Succ(g, p[i])
  }

  /** b is reachable from a in zero or more steps. */
  ghost predicate Reach(g: Graph, a: string, b: string) {
    exists p :: IsPath(g, p) && p[0] == a && p[|p| - 1] == b
  }

  /** b is reachable from a in one or more steps. */
  ghost predicate ReachPlus(g: Graph, a: string, b: string) {
    exists p :: IsPath(g, p) && |p| > 1 && p[0] == a && p[|p| - 1] == b
  }

  lemma ReachRefl(g: Graph, a: string)
    ensures Reach(g, a, a)
  {
    assert IsPath(g, [a]);
  }

  lemma ReachPlusReach(g: Graph, a: string, b: string)
    requires ReachPlus(g, a, b)
    ensures Reach(g, a, b)
  {
    var p :| IsPath(g, p) && |p| > 1 && p[0] == a && p[|p| - 1] == b;
  }

  /** Extending a walk by one edge at its end. */
  lemma ReachStep(g: Graph, a: string, b: string, c: string)
    requires Reach(g, a, b) && c in Succ(g, b)
    ensures ReachPlus(g, a, c) && Reach(g, a, c)
  {
    var p :| IsPath(g, p) && p[0] == a && p[|p| - 1] == b;
    var q := p + [c];
    assert IsPath(g, q);
    assert q[|q| - 1] == c;
  }

  /** Extending a walk by one edge at its start. */
  lemma ReachPrepend(g: Graph, a: string, b: string, c: string)
    requires b in Succ(g, a) && Reach(g, b, c)
    ensures ReachPlus(g, a, c) && Reach(g, a, c)
  {
    var p :| IsPath(g, p) && p[0] == b && p[|p| - 1] == c;
    var q := [a] + p;
    assert IsPath(g, q) by {
      forall i | 0 <= i < |q| - 1
        ensures q[i + 1] in Succ(g, q[i])
      {
        if i > 0 {
          assert q[i] == p[i - 1] && q[i + 1] == p[i];
        }
      }
    }
  }

  /** A walk of at least one step starts with an edge. */
  lemma ReachPlusFirst(g: Graph, a: string, c: string) returns (b: string)
    requires ReachPlus(g, a, c)
    ensures b in Succ(g, a) && Reach(g, b, c)
  {
    var p :| IsPath(g, p) && |p| > 1 && p[0] == a && p[|p| - 1] == c;
    b := p[1];
    var q := p[1..];
    assert IsPath(g, q) by {
      forall i | 0 <= i < |q| - 1
        ensures q[i + 1] in Succ(g, q[i])
      {
        assert q[i] == p[i + 1] && q[i + 1] == p[i + 2];
      }
    }
    assert q[0] == b && q[|q| - 1] == c;
  }

  lemma PathEdge(g: Graph, p: seq<string>, i: nat)
    requires IsPath(g, p) && i < |p| - 1
    ensures p[i + 1] in Succ(g, p[i])
  {
  }

  /** From a name with no outgoing edges nothing else is reachable. */
  lemma SinkReach(g: Graph, v: string, x: string)
    requires Succ(g, v) == [] && Reach(g, v, x)
    ensures x == v
  {
    var p :| IsPath(g, p) && p[0] == v && p[|p| - 1] == x;
    if |p| > 1 {
      PathEdge(g, p, 0);
      assert false;
    }
  }

  /** A walk that starts inside a set no edge leaves stays inside it. */
  lemma {:induction false} PathStaysIn(g: Graph, S: set<string>, p: seq<string>, i: nat)
    requires Closed(g, S) && IsPath(g, p) && p[0] in S && i < |p|
    ensures p[i] in S
  {
    if i > 0 {
      PathStaysIn(g, S, p, i - 1);
      assert p[i] in Succ(g, p[i - 1]);
    }
  }

  /** Everything reachable from inside a set no edge leaves is inside it. */
  lemma ClosedReach(g: Graph, S: set<string>, a: string, b: string)
    requires Closed(g, S) && a in S && Reach(g, a, b)
    ensures b in S
  {
    var p :| IsPath(g, p) && p[0] == a && p[|p| - 1] == b;
    PathStaysIn(g, S, p, |p| - 1);
  }

  lemma {:induction false} SubsetCard<T>(a: set<T>, b: set<T>)
    requires a <= b
    ensures |a| <= |b|
    decreases |a|
  {
    if a != {} {
      var x :| x in a;
      SubsetCard(a - {x}, b - {x});
    }
  }

  /** No name occurs twice. */
  predicate Distinct(s: seq<string>) {
    forall i, j :: 0 <= i < j < |s| ==> s[i] != s[j]
  }

  lemma DistinctAt(s: seq<string>, i: nat, j: nat)
    requires Distinct(s) && i < j < |s|
    ensures s[i] != s[j]
  {
  }

  /** A traversal's output so far and the names it has marked visited. */
  datatype Walk = Walk(order: seq<string>, visited: set<string>)

  /**
   * dfsHelper: a visited name is skipped; otherwise it is emitted, marked
   * visited, and each of its edge targets is explored in list order. The
   * names are drawn from a finite universe U closed under edges, which
   * bounds the recursion.
   */
  function Dfs(g: Graph, U: set<string>, v: string, visited: set<string>): (r: Walk)
    requires Closed(g, U) && v in U && visited <= U
    ensures visited <= r.visited <= U
    decreases |U - visited|, 0, 0
  {
    if v in visited then Walk([], visited)
    else
      var marked := visited + {v};
      assert U - visited == (U - marked) + {v};
      var w := DfsList(g, U, Succ(g, v), marked);
      Walk([v] + w.order, w.visited)
  }

  /** The loop of dfsHelper over a list of edge targets. */
  function DfsList(g: Graph, U: set<string>, ns: seq<string>, visited: set<string>): (r: Walk)
    requires Closed(g, U) && visited <= U
    requires forall i :: 0 <= i < |ns| ==> ns[i] in U
    ensures visited <= r.visited <= U
    decreases |U - visited|, 1, |ns|
  {
    if ns == [] then Walk([], visited)
    else
      var a := Dfs(g, U, ns[0], visited);
      SubsetCard(U - a.visited, U - visited);
      var b := DfsList(g, U, ns[1..], a.visited);
      Walk(a.order + b.order, b.visited)
  }

  /** dfs(start): the names dfsHelper prints from an empty visited set. */
  function DfsFrom(g: Graph, start: string): (r: seq<string>)
    ensures r != [] && r[0] == start
  {
    VertsClosed(g, start);
    Dfs(g, Verts(g) + {start}, start, {}).order
  }

  lemma DistinctConcat(a: seq<string>, b: seq<string>)
    requires Distinct(a) && Distinct(b)
    requires forall x :: x in a ==> x !in b
    ensures Distinct(a + b)
  {
    var s := a + b;
    forall i, j | 0 <= i < j < |s|
      ensures s[i] != s[j]
    {
      if i < |a| && j >= |a| {
        assert s[i] in a && s[j] == b[j - |a|];
      }
    }
  }

  /**
   * A call emits exactly the names it marks, each once; the name it is
   * called on (every name of the list, for the loop) is marked afterwards.
   */
  lemma {:induction false} DfsMarks(g: Graph, U: set<string>, v: string, visited: set<string>)
    requires Closed(g, U) && v in U && visited <= U
    ensures var r := Dfs(g, U, v, visited);
      && (forall x :: x in r.order <==> x in r.visited && x !in visited)
      && Distinct(r.order) && v in r.visited
    decreases |U - visited|, 0, 0
  {
    if v !in visited {
      var marked := visited + {v};
      assert U - visited == (U - marked) + {v};
      DfsListMarks(g, U, Succ(g, v), marked);
      var w := DfsList(g, U, Succ(g, v), marked);
      DistinctConcat([v], w.order);
    }
  }

  lemma {:induction false} DfsListMarks(g: Graph, U: set<string>, ns: seq<string>, visited: set<string>)
    requires Closed(g, U) && visited <= U
    requires forall i :: 0 <= i < |ns| ==> ns[i] in U
    ensures var r := DfsList(g, U, ns, visited);
      && (forall x :: x in r.order <==> x in r.visited && x !in visited)
      && Distinct(r.order)
      && (forall i :: 0 <= i < |ns| ==> ns[i] in r.visited)
    decreases |U - visited|, 1, |ns|
  {
    if ns != [] {
      var a := Dfs(g, U, ns[0], visited);
      DfsMarks(g, U, ns[0], visited);
      SubsetCard(U - a.visited, U - visited);
      DfsListMarks(g, U, ns[1..], a.visited);
      var b := DfsList(g, U, ns[1..], a.visited);
      DistinctConcat(a.order, b.order);
      forall i | 0 <= i < |ns|
        ensures ns[i] in b.visited
      {
        if i > 0 {
          assert ns[i] == ns[1..][i - 1];
        }
      }
    }
  }

  /** Every edge out of a name in `after` but not in `before` stays inside `after`. */
  ghost predicate ClosedBeyond(g: Graph, before: set<string>, after: set<string>) {
    forall x, w :: x in after && x !in before && w in Succ(g, x) ==> w in after
  }

  /** Every edge out of a name a call marks leads to a name marked by the end of the call. */
  lemma {:induction false} DfsCloses(g: Graph, U: set<string>, v: string, visited: set<string>)
    requires Closed(g, U) && v in U && visited <= U
    ensures ClosedBeyond(g, visited, Dfs(g, U, v, visited).visited)
    decreases |U - visited|, 0, 0
  {
    if v !in visited {
      var marked := visited + {v};
      assert U - visited == (U - marked) + {v};
      DfsListMarks(g, U, Succ(g, v), marked);
      DfsListCloses(g, U, Succ(g, v), marked);
    }
  }

  lemma {:induction false} DfsListCloses(g: Graph, U: set<string>, ns: seq<string>, visited: set<string>)
    requires Closed(g, U) && visited <= U
    requires forall i :: 0 <= i < |ns| ==> ns[i] in U
    ensures ClosedBeyond(g, visited, DfsList(g, U, ns, visited).visited)
    decreases |U - visited|, 1, |ns|
  {
    if ns != [] {
      var a := Dfs(g, U, ns[0], visited);
      DfsCloses(g, U, ns[0], visited);
      SubsetCard(U - a.visited, U - visited);
      DfsListCloses(g, U, ns[1..], a.visited);
      var b := DfsList(g, U, ns[1..], a.visited);
      forall x, w | x in b.visited && x !in visited && w in Succ(g, x)
        ensures w in b.visited
      {
        if x in a.visited {
          assert ClosedBeyond(g, visited, a.visited);
        }
      }
    }
  }

  /** Every name a call marks is reachable from the name it is called on. */
  lemma {:induction false} DfsSound(g: Graph, U: set<string>, v: string, visited: set<string>)
    requires Closed(g, U) && v in U && visited <= U
    ensures var r := Dfs(g, U, v, visited);
      forall x :: x in r.visited && x !in visited ==> Reach(g, v, x)
    decreases |U - visited|, 0, 0
  {
    if v !in visited {
      var marked := visited + {v};
      assert U - visited == (U - marked) + {v};
      DfsListSound(g, U, Succ(g, v), marked, v);
      ReachRefl(g, v);
    }
  }

  /** For the loop over src's edge targets: every name marked is reachable from src. */
  lemma {:induction false} DfsListSound(g: Graph, U: set<string>, ns: seq<string>, visited: set<string>, src: string)
    requires Closed(g, U) && visited <= U
    requires forall i :: 0 <= i < |ns| ==> ns[i] in U && ns[i] in Succ(g, src)
    ensures var r := DfsList(g, U, ns, visited);
      forall x :: x in r.visited && x !in visited ==> Reach(g, src, x)
    decreases |U - visited|, 1, |ns|
  {
    if ns != [] {
      var a := Dfs(g, U, ns[0], visited);
      DfsSound(g, U, ns[0], visited);
      SubsetCard(U - a.visited, U - visited);
      DfsListSound(g, U, ns[1..], a.visited, src);
      forall x | x in a.visited && x !in visited
        ensures Reach(g, src, x)
      {
        ReachPrepend(g, src, ns[0], x);
      }
    }
  }

  /**
   * dfs visits start first and then every name reachable from it, each
   * exactly once and nothing else.
   */
  lemma DfsFromVisitsReachable(g: Graph, start: string)
    ensures var order := DfsFrom(g, start);
      && |order| > 0 && order[0] == start
      && Distinct(order)
      && (forall x :: x in order <==> Reach(g, start, x))
  {
    var U := Verts(g) + {start};
    VertsClosed(g, start);
    var r := Dfs(g, U, start, {});
    DfsMarks(g, U, start, {});
    DfsCloses(g, U, start, {});
    DfsSound(g, U, start, {});
    assert Closed(g, r.visited);
    forall x | Reach(g, start, x)
      ensures x in r.order
    {
      ClosedReach(g, r.visited, start, x);
    }
  }

  /** A name with no outgoing edges is the only name dfs visits from it. */
  lemma DfsFromSink(g: Graph, v: string)
    requires Succ(g, v) == []
    ensures DfsFrom(g, v) == [v]
  {
    var U := Verts(g) + {v};
    VertsClosed(g, v);
    assert DfsList(g, U, Succ(g, v), {} + {v}).order == [];
    assert Dfs(g, U, v, {}).order == [v];
  }

  /** b is reachable from a along a walk of at most k edges. */
  ghost predicate Within(g: Graph, a: string, b: string, k: int) {
    exists p :: IsPath(g, p) && p[0] == a && p[|p| - 1] == b && |p| <= k + 1
  }

  lemma WithinRefl(g: Graph, a: string)
    ensures Within(g, a, a, 0)
  {
    assert IsPath(g, [a]);
  }

  lemma WithinStep(g: Graph, a: string, b: string, c: string, k: int)
    requires Within(g, a, b, k) && c in Succ(g, b)
    ensures Within(g, a, c, k + 1)
  {
    var p :| IsPath(g, p) && p[0] == a && p[|p| - 1] == b && |p| <= k + 1;
    var q := p + [c];
    assert IsPath(g, q);
    assert q[|q| - 1] == c;
  }

  lemma WithinMono(g: Graph, a: string, b: string, k: int, m: int)
    requires Within(g, a, b, k) && k <= m
    ensures Within(g, a, b, m)
  {
    var p :| IsPath(g, p) && p[0] == a && p[|p| - 1] == b && |p| <= k + 1;
  }

  lemma WithinReach(g: Graph, a: string, b: string, k: int)
    requires Within(g, a, b, k)
    ensures Reach(g, a, b)
  {
    var p :| IsPath(g, p) && p[0] == a && p[|p| - 1] == b && |p| <= k + 1;
  }

  lemma ReachWithin(g: Graph, a: string, b: string) returns (k: nat)
    requires Reach(g, a, b)
    ensures Within(g, a, b, k)
  {
    var p :| IsPath(g, p) && p[0] == a && p[|p| - 1] == b;
    k := |p| - 1;
  }

  /** A walk's prefixes are walks. */
  lemma PrefixPath(g: Graph, p: seq<string>, j: nat)
    requires IsPath(g, p) && 0 < j <= |p|
    ensures IsPath(g, p[..j])
  {
    var q := p[..j];
    forall i | 0 <= i < |q| - 1
      ensures q[i + 1] in Succ(g, q[i])
    {
      assert q[i] == p[i] && q[i + 1] == p[i + 1];
    }
  }

  /** The names of ns not in `seen`, in list order. */
  function Unseen(ns: seq<string>, seen: set<string>): (r: seq<string>)
    ensures forall x :: x in r <==> x in ns && x !in seen
  {
    if ns == [] then []
    else
      var last := ns[|ns| - 1];
      assert ns == ns[..|ns| - 1] + [last];
      Unseen(ns[..|ns| - 1], seen) + (if last in seen then [] else [last])
  }

  /** The loop of bfs over one name's edge targets: each target not yet visited is enqueued. */
  method EnqueueUnseen(queue: seq<string>, ns: seq<string>, visited: set<string>) returns (r: seq<string>)
    ensures r == queue + Unseen(ns, visited)
  {
    r := queue;
    var i := 0;
    while i < |ns|
      invariant 0 <= i <= |ns|
      invariant r == queue + Unseen(ns[..i], visited)
    {
      assert ns[..i + 1][..i] == ns[..i];
      if ns[i] !in visited {
        r := r + [ns[i]];
      }
      i := i + 1;
    }
    assert ns[..|ns|] == ns;
  }

  /** The names bfs handles are drawn from the finite universe U. */
  ghost predicate BfsDomain(U: set<string>, visited: set<string>, queue: seq<string>) {
    visited <= U && forall w :: w in queue ==> w in U
  }

  /** The emitted names are the visited ones, each once, start first. */
  ghost predicate BfsOrder(start: string, visited: set<string>, order: seq<string>, queue: seq<string>, L: nat, cut: nat) {
    && (forall x :: x in order <==> x in visited) && Distinct(order)
    && (order == [] ==> visited == {} && queue == [start] && cut == 1 && L == 0)
    && (order != [] ==> order[0] == start)
  }

  /** Each visited name carries the level it was emitted at; levels never go down along the output. */
  ghost predicate BfsLevels(g: Graph, start: string, visited: set<string>, order: seq<string>, lv: map<string, nat>, L: nat) {
    && lv.Keys == visited
    && (forall x :: x in lv ==> lv[x] <= L && Within(g, start, x, lv[x]))
    && (forall i, j :: 0 <= i < j < |order| && order[i] in lv && order[j] in lv ==> lv[order[i]] <= lv[order[j]])
  }

  /** The first `cut` queue entries are at walk distance at most L from start, the rest at most L + 1. */
  ghost predicate BfsQueue(g: Graph, start: string, queue: seq<string>, L: nat, cut: nat) {
    && cut <= |queue|
    && (forall i :: 0 <= i < cut ==> Within(g, start, queue[i], L))
    && (forall i :: cut <= i < |queue| ==> Within(g, start, queue[i], L + 1))
  }

  /** The level a name was emitted at is its exact walk distance. */
  ghost predicate BfsExact(g: Graph, start: string, lv: map<string, nat>) {
    forall x, m :: x in lv && Within(g, start, x, m) ==> lv[x] <= m
  }

  /**
   * Every edge out of a visited name leads to a visited name at most one
   * level further, or to a queued name whose level is no larger.
   */
  ghost predicate BfsEdges(g: Graph, lv: map<string, nat>, queue: seq<string>, L: nat, cut: nat) {
    && cut <= |queue|
    && (forall x, w :: x in lv && w in Succ(g, x) ==>
          || (w in lv && lv[w] <= lv[x] + 1)
          || (w in queue[..cut] && L <= lv[x] + 1)
          || (w in queue && L <= lv[x]))
  }

  /**
   * What holds at the head of each round of bfs, where L is the level being
   * emitted and lv maps each visited name to its level.
   */
  ghost predicate BfsInv(g: Graph, start: string, U: set<string>, visited: set<string>, order: seq<string>,
                         queue: seq<string>, lv: map<string, nat>, L: nat, cut: nat)
  {
    && BfsDomain(U, visited, queue)
    && BfsOrder(start, visited, order, queue, L, cut)
    && BfsLevels(g, start, visited, order, lv, L)
    && BfsQueue(g, start, queue, L, cut)
    && BfsExact(g, start, lv)
    && BfsEdges(g, lv, queue, L, cut)
  }

  /** A walk from inside S to outside S leaves S at some edge. */
  lemma FirstOutside(p: seq<string>, S: set<string>) returns (j: nat)
    requires |p| > 0 && p[0] in S && p[|p| - 1] !in S
    ensures 0 < j < |p| && p[j - 1] in S && p[j] !in S
  {
    j := 1;
    while p[j] in S
      invariant 1 <= j < |p| && p[j - 1] in S
      decreases |p| - j
    {
      j := j + 1;
    }
  }

  /** A name not yet visited is at walk distance at least the level being emitted. */
  lemma FrontierBound(g: Graph, start: string, visited: set<string>, order: seq<string>,
                      queue: seq<string>, lv: map<string, nat>, L: nat, cut: nat, y: string, m: int)
    requires BfsOrder(start, visited, order, queue, L, cut) && lv.Keys == visited
    requires BfsExact(g, start, lv) && BfsEdges(g, lv, queue, L, cut)
    requires y !in visited && Within(g, start, y, m)
    ensures L <= m
  {
    var p :| IsPath(g, p) && p[0] == start && p[|p| - 1] == y && |p| <= m + 1;
    if order != [] {
      assert start in visited;
      var j := FirstOutside(p, visited);
      PrefixPath(g, p, j);
      assert p[..j][j - 1] == p[j - 1];
      assert Within(g, start, p[j - 1], j - 1);
      assert p[j] in Succ(g, p[j - 1]);
    }
  }

  /** When the current level's entries are used up, the next level begins. */
  lemma BfsShift(g: Graph, start: string, U: set<string>, visited: set<string>, order: seq<string>,
                 queue: seq<string>, lv: map<string, nat>, L: nat)
    requires BfsInv(g, start, U, visited, order, queue, lv, L, 0) && queue != []
    ensures BfsInv(g, start, U, visited, order, queue, lv, L + 1, |queue|)
  {
    assert queue[..|queue|] == queue;
  }

  /** The level the front of the queue is at: the current one, or the next once the current one is used up. */
  lemma BfsLevelFor(g: Graph, start: string, U: set<string>, visited: set<string>, order: seq<string>,
                    queue: seq<string>, lv: map<string, nat>, L: nat, cut: nat) returns (L': nat, cut': nat)
    requires BfsInv(g, start, U, visited, order, queue, lv, L, cut) && queue != []
    ensures BfsInv(g, start, U, visited, order, queue, lv, L', cut') && 0 < cut'
  {
    L', cut' := L, cut;
    if cut == 0 {
      BfsShift(g, start, U, visited, order, queue, lv, L);
      L', cut' := L + 1, |queue|;
    }
  }

  /** A dequeued name that was already visited is dropped. */
  lemma BfsSkip(g: Graph, start: string, U: set<string>, visited: set<string>, order: seq<string>,
                queue: seq<string>, lv: map<string, nat>, L: nat, cut: nat)
    requires BfsInv(g, start, U, visited, order, queue, lv, L, cut)
    requires 0 < cut && queue[0] in visited
    ensures BfsInv(g, start, U, visited, order, queue[1..], lv, L, cut - 1)
  {
    SkipQueue(g, start, queue, queue[1..], L, cut);
    SkipEdges(g, lv, queue, queue[1..], L, cut);
  }

  /** Dropping the head of the queue keeps the distance bounds of the rest. */
  lemma SkipQueue(g: Graph, start: string, queue: seq<string>, rest: seq<string>, L: nat, cut: nat)
    requires BfsQueue(g, start, queue, L, cut) && 0 < cut && rest == queue[1..]
    ensures BfsQueue(g, start, rest, L, cut - 1)
  {
    forall i | 0 <= i < cut - 1
      ensures Within(g, start, rest[i], L)
    {
      assert rest[i] == queue[i + 1];
    }
    forall i | cut - 1 <= i < |rest|
      ensures Within(g, start, rest[i], L + 1)
    {
      assert rest[i] == queue[i + 1];
    }
  }

  /** Dropping a visited head of the queue keeps every edge accounted for. */
  lemma SkipEdges(g: Graph, lv: map<string, nat>, queue: seq<string>, rest: seq<string>, L: nat, cut: nat)
    requires BfsEdges(g, lv, queue, L, cut) && 0 < cut && rest == queue[1..]
    requires queue[0] in lv && lv[queue[0]] <= L
    ensures BfsEdges(g, lv, rest, L, cut - 1)
  {
    assert queue[..cut] == [queue[0]] + rest[..cut - 1];
    assert queue == [queue[0]] + rest;
    forall x, w | x in lv && w in Succ(g, x)
      ensures || (w in lv && lv[w] <= lv[x] + 1)
              || (w in rest[..cut - 1] && L <= lv[x] + 1)
              || (w in rest && L <= lv[x])
    {
      if w == queue[0] {
      } else if w in queue[..cut] {
        assert w in rest[..cut - 1];
      }
    }
  }

  /** Emitting queue[0]: the output and the level map grow together. */
  lemma VisitOrder(g: Graph, start: string, visited: set<string>, order: seq<string>,
                   queue: seq<string>, lv: map<string, nat>, L: nat, cut: nat, next: seq<string>)
    requires BfsOrder(start, visited, order, queue, L, cut) && BfsLevels(g, start, visited, order, lv, L)
    requires BfsQueue(g, start, queue, L, cut) && 0 < cut && queue[0] !in visited
    ensures BfsOrder(start, visited + {queue[0]}, order + [queue[0]], next, L, cut - 1)
    ensures BfsLevels(g, start, visited + {queue[0]}, order + [queue[0]], lv[queue[0] := L], L)
  {
    var c := queue[0];
    var lv' := lv[c := L];
    var order' := order + [c];
    assert Within(g, start, c, L);
    assert Distinct(order') by {
      DistinctConcat(order, [c]);
    }
    forall i, j | 0 <= i < j < |order'| && order'[i] in lv' && order'[j] in lv'
      ensures lv'[order'[i]] <= lv'[order'[j]]
    {
      assert order'[i] == order[i];
      assert order[i] in order;
      if j < |order| {
        assert order'[j] == order[j];
        assert order[j] in order;
      }
    }
  }

  /** Emitting queue[0]: its unvisited targets join the queue one level further. */
  lemma VisitQueue(g: Graph, start: string, U: set<string>, visited: set<string>,
                   queue: seq<string>, L: nat, cut: nat, next: seq<string>)
    requires BfsQueue(g, start, queue, L, cut) && BfsDomain(U, visited, queue) && Closed(g, U)
    requires 0 < cut
    requires next == queue[1..] + Unseen(Succ(g, queue[0]), visited + {queue[0]})
    ensures BfsQueue(g, start, next, L, cut - 1)
    ensures BfsDomain(U, visited + {queue[0]}, next)
  {
    var c := queue[0];
    var rest := queue[1..];
    var added := Unseen(Succ(g, c), visited + {c});
    assert Within(g, start, c, L);
    forall i | 0 <= i < cut - 1
      ensures Within(g, start, next[i], L)
    {
      assert next[i] == queue[i + 1];
    }
    forall i | cut - 1 <= i < |next|
      ensures Within(g, start, next[i], L + 1)
    {
      if i < |rest| {
        assert next[i] == queue[i + 1];
      } else {
        assert next[i] == added[i - |rest|];
        assert next[i] in added;
        WithinStep(g, start, c, next[i], L);
      }
    }
    forall w | w in next
      ensures w in U
    {
      if w in rest {
        assert w in queue;
      }
    }
  }

  /** Emitting queue[0] at level L: L is its exact walk distance. */
  lemma VisitExact(g: Graph, start: string, visited: set<string>, order: seq<string>,
                   queue: seq<string>, lv: map<string, nat>, L: nat, cut: nat)
    requires BfsOrder(start, visited, order, queue, L, cut) && lv.Keys == visited
    requires BfsExact(g, start, lv) && BfsEdges(g, lv, queue, L, cut)
    requires 0 < cut && queue[0] !in visited
    ensures BfsExact(g, start, lv[queue[0] := L])
  {
    var c := queue[0];
    var lv' := lv[c := L];
    forall x, m | x in lv' && Within(g, start, x, m)
      ensures lv'[x] <= m
    {
      if x == c {
        FrontierBound(g, start, visited, order, queue, lv, L, cut, c, m);
      }
    }
  }

  /** Emitting queue[0]: one edge out of a visited name is still accounted for. */
  lemma VisitEdge(g: Graph, lv: map<string, nat>, queue: seq<string>, L: nat, cut: nat, next: seq<string>,
                  x: string, w: string)
    requires 0 < cut <= |queue| && queue[0] !in lv && (forall y :: y in lv ==> lv[y] <= L)
    requires next == queue[1..] + Unseen(Succ(g, queue[0]), lv.Keys + {queue[0]})
    requires x in lv[queue[0] := L] && w in Succ(g, x)
    requires x in lv ==>
      || (w in lv && lv[w] <= lv[x] + 1)
      || (w in queue[..cut] && L <= lv[x] + 1)
      || (w in queue && L <= lv[x])
    ensures var lv' := lv[queue[0] := L];
      || (w in lv' && lv'[w] <= lv'[x] + 1)
      || (w in next[..cut - 1] && L <= lv'[x] + 1)
      || (w in next && L <= lv'[x])
  {
    var c := queue[0];
    var rest := queue[1..];
    var lv' := lv[c := L];
    if x == c {
      if w !in lv' {
        assert w in Unseen(Succ(g, c), lv.Keys + {c});
      }
    } else if w in lv {
    } else if w == c {
    } else if w in queue[..cut] && L <= lv[x] + 1 {
      assert queue[..cut] == [c] + rest[..cut - 1];
      assert next[..cut - 1] == rest[..cut - 1];
      assert w in next[..cut - 1];
    } else {
      assert queue == [c] + rest;
      assert w in rest;
    }
  }

  /** Emitting queue[0]: every edge out of a visited name is still accounted for. */
  lemma VisitEdges(g: Graph, visited: set<string>, queue: seq<string>, lv: map<string, nat>, L: nat, cut: nat, next: seq<string>)
    requires BfsEdges(g, lv, queue, L, cut) && lv.Keys == visited
    requires (forall x :: x in lv ==> lv[x] <= L)
    requires 0 < cut && queue[0] !in visited
    requires next == queue[1..] + Unseen(Succ(g, queue[0]), visited + {queue[0]})
    ensures BfsEdges(g, lv[queue[0] := L], next, L, cut - 1)
  {
    var lv' := lv[queue[0] := L];
    forall x, w | x in lv' && w in Succ(g, x)
      ensures || (w in lv' && lv'[w] <= lv'[x] + 1)
              || (w in next[..cut - 1] && L <= lv'[x] + 1)
              || (w in next && L <= lv'[x])
    {
      VisitEdge(g, lv, queue, L, cut, next, x, w);
    }
  }

  /** A dequeued name not yet visited is emitted at the current level and its unvisited targets are enqueued. */
  lemma BfsVisit(g: Graph, start: string, U: set<string>, visited: set<string>, order: seq<string>,
                 queue: seq<string>, lv: map<string, nat>, L: nat, cut: nat, next: seq<string>)
    requires BfsInv(g, start, U, visited, order, queue, lv, L, cut) && Closed(g, U)
    requires 0 < cut && queue[0] !in visited
    requires next == queue[1..] + Unseen(Succ(g, queue[0]), visited + {queue[0]})
    ensures BfsInv(g, start, U, visited + {queue[0]}, order + [queue[0]], next, lv[queue[0] := L], L, cut - 1)
  {
    VisitOrder(g, start, visited, order, queue, lv, L, cut, next);
    VisitQueue(g, start, U, visited, queue, L, cut, next);
    VisitExact(g, start, visited, order, queue, lv, L, cut);
    VisitEdges(g, visited, queue, lv, L, cut, next);
  }

  /** bfs starts with only start queued, at level 0. */
  lemma BfsStart(g: Graph, start: string)
    ensures BfsInv(g, start, Verts(g) + {start}, {}, [], [start], map[], 0, 1)
  {
    WithinRefl(g, start);
  }

  /** Once the queue is empty, the output is everything reachable, by non-decreasing distance. */
  lemma BfsDone(g: Graph, start: string, U: set<string>, visited: set<string>, order: seq<string>,
                lv: map<string, nat>, L: nat, cut: nat)
    requires BfsInv(g, start, U, visited, order, [], lv, L, cut)
    ensures |order| > 0 && order[0] == start
    ensures Distinct(order)
    ensures forall x :: x in order <==> Reach(g, start, x)
    ensures forall i, j, m :: 0 <= i < j < |order| && Within(g, start, order[j], m) ==> Within(g, start, order[i], m)
    ensures Succ(g, start) == [] ==> order == [start]
  {
    assert Closed(g, visited);
    assert start in visited;
    forall x | Reach(g, start, x)
      ensures x in order
    {
      ClosedReach(g, visited, start, x);
    }
    forall x | x in order
      ensures Reach(g, start, x)
    {
      WithinReach(g, start, x, lv[x]);
    }
    forall i, j, m | 0 <= i < j < |order| && Within(g, start, order[j], m)
      ensures Within(g, start, order[i], m)
    {
      assert order[i] in order && order[j] in order;
      WithinMono(g, start, order[i], lv[order[i]], m);
    }
    if Succ(g, start) == [] {
      forall i | 0 <= i < |order|
        ensures order[i] == start
      {
        assert order[i] in order;
        SinkReach(g, start, order[i]);
      }
      assert |order| == 1 by {
        if |order| > 1 {
          DistinctAt(order, 0, 1);
          assert false;
        }
      }
    }
  }

  /** The bfs loop's emitting branch: the front name is unvisited, so it is emitted and its unvisited targets are enqueued. */
  method BfsEmit(g: Graph, start: string, ghost U: set<string>, visited: set<string>, order: seq<string>,
                 queue: seq<string>, ghost lv: map<string, nat>, ghost L: nat, ghost cut: nat)
    returns (visited': set<string>, order': seq<string>, queue': seq<string>, ghost lv': map<string, nat>)
    requires BfsInv(g, start, U, visited, order, queue, lv, L, cut) && Closed(g, U)
    requires 0 < cut && queue[0] !in visited
    ensures BfsInv(g, start, U, visited', order', queue', lv', L, cut - 1)
    ensures visited' == visited + {queue[0]} && order' == order + [queue[0]]
    ensures |U - visited'| < |U - visited|
  {
    var current := queue[0];
    var next := EnqueueUnseen(queue[1..], Succ(g, current), visited + {current});
    BfsVisit(g, start, U, visited, order, queue, lv, L, cut, next);
    assert current in U;
    assert U - visited == (U - (visited + {current})) + {current};
    visited', order', queue' := visited + {current}, order + [current], next;
    lv' := lv[current := L];
  }

  /**
   * One round of the bfs loop: the front name is dequeued; when already
   * visited it is dropped, otherwise it is emitted. Either the visited set
   * grows or the queue shrinks.
   */
  method BfsRound(g: Graph, start: string, ghost U: set<string>, visited: set<string>, order: seq<string>,
                  queue: seq<string>, ghost lv: map<string, nat>, ghost L: nat, ghost cut: nat)
    returns (visited': set<string>, order': seq<string>, queue': seq<string>,
             ghost lv': map<string, nat>, ghost L': nat, ghost cut': nat)
    requires BfsInv(g, start, U, visited, order, queue, lv, L, cut) && Closed(g, U) && queue != []
    ensures BfsInv(g, start, U, visited', order', queue', lv', L', cut')
    ensures |U - visited'| < |U - visited| || (visited' == visited && |queue'| < |queue|)
  {
    L', cut' := BfsLevelFor(g, start, U, visited, order, queue, lv, L, cut);
    if queue[0] in visited {
      BfsSkip(g, start, U, visited, order, queue, lv, L', cut');
      visited', order', queue', lv' := visited, order, queue[1..], lv;
      cut' := cut' - 1;
    } else {
      visited', order', queue', lv' := BfsEmit(g, start, U, visited, order, queue, lv, L', cut');
      cut' := cut' - 1;
    }
  }

  /**
   * bfs(start): the names bfs prints. The output starts at start, holds
   * every reachable name once, and runs by non-decreasing walk distance.
   */
  method Bfs(g: Graph, start: string) returns (order: seq<string>)
    ensures |order| > 0 && order[0] == start
    ensures Distinct(order)
    ensures forall x :: x in order <==> Reach(g, start, x)
    ensures forall i, j, m :: 0 <= i < j < |order| && Within(g, start, order[j], m) ==> Within(g, start, order[i], m)
    ensures Succ(g, start) == [] ==> order == [start]
  {
    ghost var U := Verts(g) + {start};
    VertsClosed(g, start);
    var visited: set<string> := {};
    var queue := [start];
    order := [];
    ghost var lv: map<string, nat> := map[];
    ghost var L: nat := 0;
    ghost var cut: nat := 1;
    BfsStart(g, start);
    while queue != []
      invariant BfsInv(g, start, U, visited, order, queue, lv, L, cut)
      decreases |U - visited|, |queue|
    {
      visited, order, queue, lv, L, cut := BfsRound(g, start, U, visited, order, queue, lv, L, cut);
    }
    BfsDone(g, start, U, visited, order, lv, L, cut);
  }

  /** The graph Graph.main builds: Task A leads to Task B and Task C, and Task B to Task D. */
  function ExampleGraph(): Graph {
    AddEdge(AddEdge(AddEdge(map[], "Task A", "Task B"), "Task A", "Task C"), "Task B", "Task D")
  }

  /** dfsHelper on an unvisited name without edges emits just that name. */
  lemma DfsLeaf(g: Graph, U: set<string>, v: string, visited: set<string>)
    requires Closed(g, U) && v in U && visited <= U && v !in visited && Succ(g, v) == []
    ensures Dfs(g, U, v, visited) == Walk([v], visited + {v})
  {
    assert DfsList(g, U, Succ(g, v), visited + {v}) == Walk([], visited + {v});
  }

  /** dfsHelper on an unvisited name whose one edge leads to an unvisited name without edges. */
  lemma DfsChain(g: Graph, U: set<string>, v: string, w: string, visited: set<string>)
    requires Closed(g, U) && v in U && w in U && visited <= U && v !in visited && w !in visited && v != w
    requires Succ(g, v) == [w] && Succ(g, w) == []
    ensures Dfs(g, U, v, visited) == Walk([v, w], visited + {v, w})
  {
    DfsLeaf(g, U, w, visited + {v});
    assert DfsList(g, U, [], visited + {v} + {w}) == Walk([], visited + {v, w});
    assert DfsList(g, U, Succ(g, v), visited + {v}) == Walk([w], visited + {v, w});
  }

  /** Edges a->b, a->c, b->d: dfs from a goes down through b to d before c. */
  lemma DfsDeepFirst(g: Graph, U: set<string>, a: string, b: string, c: string, d: string)
    requires Closed(g, U) && a in U && b in U && c in U && d in U
    requires a != b && a != c && a != d && b != c && b != d && c != d
    requires Succ(g, a) == [b, c] && Succ(g, b) == [d] && Succ(g, c) == [] && Succ(g, d) == []
    ensures Dfs(g, U, a, {}).order == [a, b, d, c]
  {
    var vA := {a};
    var vD := vA + {b, d};
    DfsChain(g, U, b, d, vA);
    DfsLeaf(g, U, c, vD);
    assert DfsList(g, U, [], vD + {c}) == Walk([], vD + {c});
    assert DfsList(g, U, [c], vD) == Walk([c], vD + {c});
    assert Succ(g, a)[1..] == [c];
    assert DfsList(g, U, Succ(g, a), vA) == Walk([b, d, c], vD + {c});
    assert {} + {a} == vA;
    assert Dfs(g, U, a, {}) == Walk([a, b, d, c], vD + {c});
  }

  /** On that graph dfs goes down through Task B to Task D before Task C. */
  lemma DfsExample()
    ensures DfsFrom(ExampleGraph(), "Task A") == ["Task A", "Task B", "Task D", "Task C"]
  {
    var g := ExampleGraph();
    var A, B, C, D := "Task A", "Task B", "Task C", "Task D";
    assert Succ(g, A) == [B, C];
    assert Succ(g, B) == [D];
    assert Succ(g, C) == [] && Succ(g, D) == [];
    var U := Verts(g) + {A};
    VertsClosed(g, A);
    assert B in U && C in U && D in U;
    DfsDeepFirst(g, U, A, B, C, D);
  }
}

=== FILE: main_scenario.dfy ===
/**
 * The run Main.java performs on a TaskManager: two users, three tasks for
 * Alice, the priority listing, and one undo. Dates are written as yyyymmdd
 * numbers, which order them as the calendar does.
 *
 * The steps are proved for any three tasks with the field values handed
 * in, and then applied to Main's values.
 */
module MainScenario {
  import opened Wrappers
  import opened Tasks
  import opened Nodes
  import Users
  import Rankings
  import DueDateTree
  import TaskStack
  import opened TaskManagers
  import TaskQueries

  /** The id, name, priority and due date a task is created with. */
  datatype Fields = Fields(id: int, name: string, priority: int, due: Date)

  const Design: Fields := Fields(101, "Design Module", 8, 20250515)
  const Implement: Fields := Fields(102, "Implement Module", 6, 20250520)
  const Test: Fields := Fields(103, "Test Module", 9, 20250525)

  /** A task object with these fields, whatever its link. */
  predicate Holds(t: Task, f: Fields) {
    t.id == f.id && t.name == f.name && t.priority == f.priority && t.dueDate == Some(f.due)
  }

  /** Three distinct task objects with the given fields. */
  predicate HasTasks(a: Arena, h1: Handle, h2: Handle, h3: Handle, f1: Fields, f2: Fields, f3: Fields) {
    && h1 in a && h2 in a && h3 in a && h1 != h2 && h2 != h3 && h1 != h3
    && Holds(a[h1], f1) && Holds(a[h2], f2) && Holds(a[h3], f3)
  }

  /** Exactly the two users with ids 1 and 2. */
  predicate HasUsers(m: Manager, u1: Users.User, u2: Users.User) {
    m.userIds == {1, 2} && m.users == map[1 := u1, 2 := u2]
  }

  /** Changing links only keeps the three objects' fields. */
  lemma HasTasksRelinked(a: Arena, b: Arena, h1: Handle, h2: Handle, h3: Handle, f1: Fields, f2: Fields, f3: Fields)
    requires HasTasks(a, h1, h2, h3, f1, f2, f3) && SameRecords(a, b)
    ensures HasTasks(b, h1, h2, h3, f1, f2, f3)
  {
    assert b[h1].(next := a[h1].next) == a[h1];
    assert b[h2].(next := a[h2].next) == a[h2];
    assert b[h3].(next := a[h3].next) == a[h3];
  }

  /** Main's state once Alice and Bob are registered and the three tasks exist. */
  method Setup() returns (m: Manager, h1: Handle, h2: Handle, h3: Handle)
    ensures Valid(m) && HasTasks(m.arena, h1, h2, h3, Design, Implement, Test)
    ensures HasUsers(m, Users.User(1, "Alice", []), Users.User(2, "Bob", []))
    ensures m.undo == TaskStack.Empty && m.redo == TaskStack.Empty && m.ranking == multiset{}
    ensures m.history.nodes == [] && m.schedule.items == [] && m.tree == DueDateTree.Leaf
  {
    var m1 := RegisterUser(New(), 1, "Alice").0;
    var m2 := RegisterUser(m1, 2, "Bob").0;
    assert m2.users == map[1 := Users.User(1, "Alice", []), 2 := Users.User(2, "Bob", [])];
    var c1 := CreateTask(m2, Design.id, Design.name, Design.priority, Design.due);
    var c2 := CreateTask(c1.0, Implement.id, Implement.name, Implement.priority, Implement.due);
    var c3 := CreateTask(c2.0, Test.id, Test.name, Test.priority, Test.due);
    m, h1, h2, h3 := c3.0, c1.1, c2.1, c3.1;
  }

  /**
   * addTaskToUser(1, h) with users 1 and 2 registered: user 1 gets h at the
   * end of the list, user 2 is untouched, objects keep their fields, h is
   * pushed, and h's id, name and date are recorded.
   */
  method AddToFirst(m: Manager, h: Handle, f: Fields, u1: Users.User, u2: Users.User) returns (r: Manager)
    requires Valid(m) && HasUsers(m, u1, u2) && h in m.arena && Holds(m.arena[h], f)
    ensures Valid(r) && HasUsers(r, Users.AddTask(u1, h), u2) && SameRecords(m.arena, r.arena)
    ensures r.undo.head == Some(h) && r.undo.size == m.undo.size + 1 && r.arena[h].next == m.undo.head
    ensures r.redo == TaskStack.Empty && r.ranking == m.ranking + multiset{h}
    ensures r.history.nodes == [Node(f.id, f.name)] + m.history.nodes
    ensures r.schedule.items == m.schedule.items + [Scheduled(f.id, f.name, "Scheduled")]
    ensures DueDateTree.Pairs(r.tree) == DueDateTree.Pairs(m.tree) + multiset{(f.name, f.due)}
  {
    r := AddTaskToUser(m, 1, h).0;
    assert Added(m, r, 1, h);
    assert r.users == map[1 := Users.AddTask(u1, h), 2 := u2];
  }

  /** Two additions to user 1, the second on top of the first, starting from nothing. */
  method AddTwo(m: Manager, h1: Handle, h2: Handle, h3: Handle, f1: Fields, f2: Fields, f3: Fields,
                u1: Users.User, u2: Users.User) returns (r: Manager)
    requires Valid(m) && HasTasks(m.arena, h1, h2, h3, f1, f2, f3) && HasUsers(m, u1, u2)
    requires m.undo == TaskStack.Empty && m.ranking == multiset{}
    requires m.history.nodes == [] && m.schedule.items == [] && m.tree == DueDateTree.Leaf
    ensures Valid(r) && HasTasks(r.arena, h1, h2, h3, f1, f2, f3)
    ensures HasUsers(r, u1.(tasks := u1.tasks + [h1, h2]), u2)
    ensures r.undo.head == Some(h2) && r.undo.size == 2
    ensures r.redo == TaskStack.Empty && r.ranking == multiset{h1, h2}
    ensures r.history.nodes == [Node(f2.id, f2.name), Node(f1.id, f1.name)]
    ensures r.schedule.items == [Scheduled(f1.id, f1.name, "Scheduled"), Scheduled(f2.id, f2.name, "Scheduled")]
    ensures DueDateTree.Pairs(r.tree) == multiset{(f1.name, f1.due), (f2.name, f2.due)}
  {
    var m1 := AddToFirst(m, h1, f1, u1, u2);
    HasTasksRelinked(m.arena, m1.arena, h1, h2, h3, f1, f2, f3);
    r := AddToFirst(m1, h2, f2, Users.AddTask(u1, h1), u2);
    HasTasksRelinked(m1.arena, r.arena, h1, h2, h3, f1, f2, f3);
    TwoAppended(u1, h1, h2);
    TwoAtFront(m.history.nodes, m1.history.nodes, r.history.nodes, Node(f1.id, f1.name), Node(f2.id, f2.name));
    TwoAtBack(m.schedule.items, m1.schedule.items, r.schedule.items,
              Scheduled(f1.id, f1.name, "Scheduled"), Scheduled(f2.id, f2.name, "Scheduled"));
    TwoIn(m.ranking, m1.ranking, r.ranking, h1, h2);
    TwoIn(DueDateTree.Pairs(m.tree), DueDateTree.Pairs(m1.tree), DueDateTree.Pairs(r.tree),
          (f1.name, f1.due), (f2.name, f2.due));
  }

  /** Three additions to user 1, each on top of the one before, starting from nothing. */
  method AddThree(m: Manager, h1: Handle, h2: Handle, h3: Handle, f1: Fields, f2: Fields, f3: Fields,
                  u1: Users.User, u2: Users.User) returns (r: Manager)
    requires Valid(m) && HasTasks(m.arena, h1, h2, h3, f1, f2, f3) && HasUsers(m, u1, u2)
    requires m.undo == TaskStack.Empty && m.ranking == multiset{}
    requires m.history.nodes == [] && m.schedule.items == [] && m.tree == DueDateTree.Leaf
    ensures Valid(r) && HasTasks(r.arena, h1, h2, h3, f1, f2, f3)
    ensures HasUsers(r, u1.(tasks := u1.tasks + [h1, h2, h3]), u2)
    ensures r.undo.head == Some(h3) && r.undo.size == 3 && r.arena[h3].next == Some(h2)
    ensures r.redo == TaskStack.Empty && r.ranking == multiset{h1, h2, h3}
    ensures r.history.nodes == [Node(f3.id, f3.name), Node(f2.id, f2.name), Node(f1.id, f1.name)]
    ensures r.schedule.items == [Scheduled(f1.id, f1.name, "Scheduled"), Scheduled(f2.id, f2.name, "Scheduled"),
                                 Scheduled(f3.id, f3.name, "Scheduled")]
    ensures DueDateTree.Pairs(r.tree) == multiset{(f1.name, f1.due), (f2.name, f2.due), (f3.name, f3.due)}
  {
    var m2 := AddTwo(m, h1, h2, h3, f1, f2, f3, u1, u2);
    var v2 := u1.(tasks := u1.tasks + [h1, h2]);
    r := AddToFirst(m2, h3, f3, v2, u2);
    HasTasksRelinked(m2.arena, r.arena, h1, h2, h3, f1, f2, f3);
    ThirdAppended(u1, h1, h2, h3);
    ThirdAtFront(m2.history.nodes, r.history.nodes, Node(f1.id, f1.name), Node(f2.id, f2.name), Node(f3.id, f3.name));
    ThirdAtBack(m2.schedule.items, r.schedule.items, Scheduled(f1.id, f1.name, "Scheduled"),
                Scheduled(f2.id, f2.name, "Scheduled"), Scheduled(f3.id, f3.name, "Scheduled"));
    ThirdIn(m2.ranking, r.ranking, h1, h2, h3);
    ThirdIn(DueDateTree.Pairs(m2.tree), DueDateTree.Pairs(r.tree), (f1.name, f1.due), (f2.name, f2.due), (f3.name, f3.due));
  }

  /** Two tasks appended to a user's list. */
  lemma TwoAppended(u: Users.User, h1: Handle, h2: Handle)
    ensures Users.AddTask(Users.AddTask(u, h1), h2) == u.(tasks := u.tasks + [h1, h2])
  {
    assert u.tasks + [h1] + [h2] == u.tasks + [h1, h2];
  }

  /** A third task appended to a user's list. */
  lemma ThirdAppended(u: Users.User, h1: Handle, h2: Handle, h3: Handle)
    ensures Users.AddTask(u.(tasks := u.tasks + [h1, h2]), h3) == u.(tasks := u.tasks + [h1, h2, h3])
  {
    assert u.tasks + [h1, h2] + [h3] == u.tasks + [h1, h2, h3];
  }

  /** Two elements put in front one by one, starting from nothing: the second one leads. */
  lemma TwoAtFront<T>(s0: seq<T>, s1: seq<T>, s2: seq<T>, a: T, b: T)
    requires s0 == [] && s1 == [a] + s0 && s2 == [b] + s1
    ensures s2 == [b, a]
  {
  }

  /** A third element put in front of two. */
  lemma ThirdAtFront<T>(s2: seq<T>, s3: seq<T>, a: T, b: T, c: T)
    requires s2 == [b, a] && s3 == [c] + s2
    ensures s3 == [c, b, a]
  {
  }

  /** Two elements appended one by one, starting from nothing: the first one leads. */
  lemma TwoAtBack<T>(s0: seq<T>, s1: seq<T>, s2: seq<T>, a: T, b: T)
    requires s0 == [] && s1 == s0 + [a] && s2 == s1 + [b]
    ensures s2 == [a, b]
  {
  }

  /** A third element appended to two. */
  lemma ThirdAtBack<T>(s2: seq<T>, s3: seq<T>, a: T, b: T, c: T)
    requires s2 == [a, b] && s3 == s2 + [c]
    ensures s3 == [a, b, c]
  {
  }

  /** Two elements added one by one to an empty multiset. */
  lemma TwoIn<T>(p0: multiset<T>, p1: multiset<T>, p2: multiset<T>, a: T, b: T)
    requires p0 == multiset{} && p1 == p0 + multiset{a} && p2 == p1 + multiset{b}
    ensures p2 == multiset{a, b}
  {
  }

  /** A third element added to two. */
  lemma ThirdIn<T>(p2: multiset<T>, p3: multiset<T>, a: T, b: T, c: T)
    requires p2 == multiset{a, b} && p3 == p2 + multiset{c}
    ensures p3 == multiset{a, b, c}
  {
  }

  /**
   * undoLastTask when the top task's id names no user: the task is popped
   * and dropped, so the users, the redo stack, the objects' fields and the
   * bookkeeping stay as they were, and the task below becomes the top.
   */
  method UndoDropped(m: Manager, h: Handle, u1: Users.User, u2: Users.User) returns (r: Manager)
    requires Valid(m) && HasUsers(m, u1, u2) && m.undo.head == Some(h) && m.arena[h].id !in {1, 2}
    ensures Valid(r) && HasUsers(r, u1, u2) && r.redo == m.redo && SameRecords(m.arena, r.arena)
    ensures r.undo.head == m.arena[h].next && r.undo.size == m.undo.size - 1
    ensures r.ranking == m.ranking && r.history == m.history && r.schedule == m.schedule && r.tree == m.tree
  {
    r := UndoLastTask(m);
    assert Undone(m, r, h);
  }

  /**
   * Main's task-manager steps. Before the undo, the priority listing is
   * Test (9), Design (8), Implement (6). The undo pops Test, whose id 103
   * names no user, so the task is dropped: Alice keeps all three tasks,
   * nothing goes on the redo stack, and Implement is the new top of the
   * undo stack. History, schedule and tree still hold all three tasks.
   */
  method RunMain() returns (m: Manager, h1: Handle, h2: Handle, h3: Handle, printed: seq<Handle>)
    ensures Valid(m) && HasTasks(m.arena, h1, h2, h3, Design, Implement, Test)
    ensures printed == [h3, h1, h2]
    ensures HasUsers(m, Users.User(1, "Alice", [h1, h2, h3]), Users.User(2, "Bob", []))
    ensures m.undo.head == Some(h2) && m.undo.size == 2 && m.redo.head == None
    ensures m.ranking == multiset{h1, h2, h3}
    ensures m.history.nodes == [Node(Test.id, Test.name), Node(Implement.id, Implement.name), Node(Design.id, Design.name)]
    ensures m.schedule.items == [Scheduled(Design.id, Design.name, "Scheduled"),
                                 Scheduled(Implement.id, Implement.name, "Scheduled"),
                                 Scheduled(Test.id, Test.name, "Scheduled")]
    ensures DueDateTree.Pairs(m.tree) == multiset{(Design.name, Design.due), (Implement.name, Implement.due), (Test.name, Test.due)}
  {
    var m0;
    m0, h1, h2, h3 := Setup();
    var alice, bob := Users.User(1, "Alice", []), Users.User(2, "Bob", []);
    var m3 := AddThree(m0, h1, h2, h3, Design, Implement, Test, alice, bob);
    assert [] + [h1, h2, h3] == [h1, h2, h3];
    assert alice.(tasks := alice.tasks + [h1, h2, h3]) == Users.User(1, "Alice", [h1, h2, h3]);
    var lines;
    printed, lines := TaskQueries.PrintPriorityTasks(m3);
    ListedByPriority(printed, m3.arena, h1, h2, h3);
    m := UndoDropped(m3, h3, Users.User(1, "Alice", [h1, h2, h3]), bob);
    HasTasksRelinked(m3.arena, m.arena, h1, h2, h3, Design, Implement, Test);
  }

  /**
   * Any listing of three tasks with priorities 8, 6 and 9, highest first,
   * lists the third, then the first, then the second.
   */
  lemma ListedByPriority(out: seq<Handle>, arena: Arena, h1: Handle, h2: Handle, h3: Handle)
    requires h1 in arena && h2 in arena && h3 in arena
    requires arena[h1].priority == 8 && arena[h2].priority == 6 && arena[h3].priority == 9
    requires multiset(out) == multiset{h1, h2, h3}
    requires forall i :: 0 <= i < |out| ==> out[i] in arena
    requires Rankings.Descending(Rankings.Priorities(out, arena))
    ensures out == [h3, h1, h2]
  {
    var x := [h3, h1, h2];
    assert multiset(x) == multiset{h1, h2, h3};
    assert Rankings.Priorities(x, arena) == [9, 8, 6];
    Rankings.DrainPrioritiesDetermined(out, x, arena);
    assert |out| == 3 by {
      assert |multiset(out)| == 3;
    }
    var p := Rankings.Priorities(out, arena);
    assert p == [9, 8, 6];
    OneOfThree(out, 0, h1, h2, h3);
    OneOfThree(out, 1, h1, h2, h3);
    OneOfThree(out, 2, h1, h2, h3);
    ByPriority(out[0], arena, h1, h2, h3);
    ByPriority(out[1], arena, h1, h2, h3);
    ByPriority(out[2], arena, h1, h2, h3);
    assert out == [out[0], out[1], out[2]];
  }

  /** Every entry of a rearrangement of three values is one of them. */
  lemma OneOfThree<T>(out: seq<T>, i: int, a: T, b: T, c: T)
    requires multiset(out) == multiset{a, b, c} && 0 <= i < |out|
    ensures out[i] == a || out[i] == b || out[i] == c
  {
    assert out[i] in multiset(out);
  }

  /** Among three tasks with priorities 8, 6 and 9, the priority tells which one a task is. */
  lemma ByPriority(o: Handle, arena: Arena, h1: Handle, h2: Handle, h3: Handle)
    requires h1 in arena && h2 in arena && h3 in arena
    requires arena[h1].priority == 8 && arena[h2].priority == 6 && arena[h3].priority == 9
    requires o == h1 || o == h2 || o == h3
    ensures arena[o].priority == 9 ==> o == h3
    ensures arena[o].priority == 8 ==> o == h1
    ensures arena[o].priority == 6 ==> o == h2
  {
  }
}

=== FILE: nodes.dfy ===
/**
 * The payload of data_structures/Node: an id and a name. The `next` link of
 * the Java object is not stored here; the list models hold nodes in order.
 */
module Nodes {

  datatype Node<E, T> = Node(id: E, name: T)
}

=== FILE: queue.dfy ===
/**
 * data_structures/QueueInterface: a FIFO of nodes linked both ways, with
 * `front` and `back` references.
 *
 * The queue is held as the sequence of its entries from front to back. The
 * links of the Java nodes are determined by positions: an entry's `next` is
 * the entry after it and its `prev` the entry before it, the front has no
 * `prev` and the back no `next`. A dequeued entry is handed out as a value,
 * so it keeps no link into the queue.
 */
module Queues {
  import opened Wrappers

  datatype Queue<T> = Queue(items: seq<T>)

  function Empty<T>(): Queue<T> {
    Queue([])
  }

  /** getFront / peek: the front entry, or null. */
  function Front<T>(q: Queue<T>): Option<T> {
    if q.items == [] then None else Some(q.items[0])
  }

  /** getBack: the back entry, or null. */
  function Back<T>(q: Queue<T>): Option<T> {
    if q.items == [] then None else Some(q.items[|q.items| - 1])
  }

  /** The position after i, or none for the back: the `next` link. */
  function NextOf<T>(q: Queue<T>, i: nat): Option<nat>
    requires i < |q.items|
  {
    if i + 1 < |q.items| then Some(i + 1) else None
  }

  /** The position before i, or none for the front: the `prev` link. */
  function PrevOf<T>(q: Queue<T>, i: nat): Option<nat>
    requires i < |q.items|
  {
    if i == 0 then None else Some(i - 1)
  }

  /**
   * enqueue: into an empty queue the entry becomes both front and back;
   * otherwise it is linked after the old back, becomes the back, and the
   * front is unchanged.
   */
  function Enqueue<T>(q: Queue<T>, x: T): (r: Queue<T>)
    ensures Back(r) == Some(x)
    ensures Front(r) == (if q.items == [] then Some(x) else Front(q))
    ensures |r.items| == |q.items| + 1 && r.items[..|q.items|] == q.items
    ensures q.items != [] ==> NextOf(r, |q.items| - 1) == Some(|q.items|) && PrevOf(r, |q.items|) == Some(|q.items| - 1)
  {
    Queue(q.items + [x])
  }

  datatype Dequeued<T> = Dequeued(queue: Queue<T>, removed: Option<T>)

  /**
   * dequeue: null and no change on an empty queue; otherwise the old front,
   * with the front advanced to the next entry (whose prev becomes null) and
   * the back cleared when the queue empties.
   */
  function Dequeue<T>(q: Queue<T>): (r: Dequeued<T>)
    ensures q.items == [] ==> r == Dequeued(q, None)
    ensures q.items != [] ==>
      && r.removed == Front(q)
      && |r.queue.items| == |q.items| - 1
      && Front(r.queue) == (if |q.items| > 1 then Some(q.items[1]) else None)
      && (|q.items| > 1 ==> PrevOf(r.queue, 0) == None && Back(r.queue) == Back(q))
      && (|q.items| == 1 ==> Back(r.queue) == None)
      && (forall i :: 0 <= i < |r.queue.items| ==> r.queue.items[i] == q.items[i + 1])
  {
    if q.items == [] then Dequeued(q, None) else Dequeued(Queue(q.items[1..]), Some(q.items[0]))
  }

  /**
   * peek and getFront are the same query: the entry dequeue would hand out
   * next, and null exactly when the queue is empty.
   */
  function Peek<T>(q: Queue<T>): (r: Option<T>)
    ensures r == Dequeue(q).removed
    ensures r.None? <==> q.items == []
  {
    Front(q)
  }

  /** isEmpty tests the front reference. */
  function IsEmpty<T>(q: Queue<T>): (b: bool)
    ensures b <==> Front(q) == None
    ensures b <==> Back(q) == None
  {
    q.items == []
  }

  /** clear: front and back become null. */
  function Clear<T>(q: Queue<T>): (r: Queue<T>)
    ensures IsEmpty(r) && Front(r) == None && Back(r) == None
  {
    Empty()
  }

  /** Dequeues until empty and lists what came out. */
  function DrainAll<T>(q: Queue<T>): seq<T>
    decreases |q.items|
  {
    var d := Dequeue(q);
    if d.removed.None? then [] else [d.removed.value] + DrainAll(d.queue)
  }

  /** Enqueues each element of xs in turn. */
  function EnqueueAll<T>(q: Queue<T>, xs: seq<T>): Queue<T>
    decreases |xs|
  {
    if xs == [] then q else EnqueueAll(Enqueue(q, xs[0]), xs[1..])
  }

  /** On a non-empty queue, enqueue and dequeue commute. */
  lemma EnqueueDequeueCommute<T>(q: Queue<T>, x: T)
    requires !IsEmpty(q)
    ensures Dequeue(Enqueue(q, x)).removed == Dequeue(q).removed
    ensures Dequeue(Enqueue(q, x)).queue == Enqueue(Dequeue(q).queue, x)
  {
    assert (q.items + [x])[1..] == q.items[1..] + [x];
  }

  /** Draining an empty queue yields nothing. */
  lemma DrainEmpty<T>(q: Queue<T>)
    requires q.items == []
    ensures DrainAll(q) == []
  {
  }

  /** Draining a non-empty queue yields its front, then the drain of the rest. */
  lemma DrainStep<T>(q: Queue<T>)
    requires q.items != []
    ensures DrainAll(q) == [q.items[0]] + DrainAll(Queue(q.items[1..]))
  {
  }

  /** Draining a queue yields its entries front first. */
  lemma {:induction false} DrainIsOrder<T>(q: Queue<T>)
    ensures DrainAll(q) == q.items
    decreases |q.items|
  {
    if q.items == [] {
      DrainEmpty(q);
    } else {
      DrainStep(q);
      DrainIsOrder(Queue(q.items[1..]));
      assert [q.items[0]] + q.items[1..] == q.items;
    }
  }

  /** Enqueueing each element of xs in turn appends xs at the back. */
  lemma {:induction false} EnqueueAllItems<T>(q: Queue<T>, xs: seq<T>)
    ensures EnqueueAll(q, xs).items == q.items + xs
    decreases |xs|
  {
    if xs != [] {
      EnqueueAllItems(Queue(q.items + [xs[0]]), xs[1..]);
      assert q.items + [xs[0]] + xs[1..] == q.items + xs;
    }
  }

  /** FIFO: entries enqueued into a queue come out after its entries, in the order they went in. */
  lemma Fifo<T>(q: Queue<T>, xs: seq<T>)
    ensures DrainAll(EnqueueAll(q, xs)) == q.items + xs
  {
    EnqueueAllItems(q, xs);
    DrainIsOrder(EnqueueAll(q, xs));
  }
}

=== FILE: ranking.dfy ===
/**
 * The task ranking of managers/TaskManager: a java.util.PriorityQueue of
 * Task objects under a reversed priority comparator, so that polling yields
 * a task of highest priority first.
 *
 * The heap layout is not modelled. The ranking is the multiset of task
 * handles it holds; priorities are read through the arena at the time of
 * polling. Among tasks of equal priority the heap decides, and the model
 * leaves that choice open.
 */
module Rankings {
  import opened Tasks

  type Ranking = multiset<Handle>

  /** Every ranked task is a live object. */
  predicate RankedIn(q: Ranking, arena: Arena) {
    forall h :: h in q ==> h in arena
  }

  /** add(task): one more occurrence of that object, nothing else changes. */
  function Add(q: Ranking, h: Handle): (r: Ranking)
    ensures r[h] == q[h] + 1
    ensures forall k :: k != h ==> r[k] == q[k]
  {
    q + multiset{h}
  }

  /**
   * remove(task): Task has no equals, so the object itself is looked for;
   * one occurrence goes, and the answer is whether there was one.
   */
  function RemoveOne(q: Ranking, h: Handle): (r: (Ranking, bool))
    ensures r.1 <==> h in q
    ensures r.0[h] == if h in q then q[h] - 1 else 0
    ensures forall k :: k != h ==> r.0[k] == q[k]
  {
    if h in q then (q - multiset{h}, true) else (q, false)
  }

  /** Removing a ranked task and adding it back restores the ranking. */
  lemma RemoveThenAdd(q: Ranking, h: Handle)
    requires h in q
    ensures Add(RemoveOne(q, h).0, h) == q
  {
  }

  /** The priorities of a sequence of tasks, position by position. */
  function Priorities(s: seq<Handle>, arena: Arena): (p: seq<int>)
    requires forall i :: 0 <= i < |s| ==> s[i] in arena
    ensures |p| == |s| && forall i :: 0 <= i < |s| ==> p[i] == arena[s[i]].priority
  {
    seq(|s|, i requires 0 <= i < |s| => arena[s[i]].priority)
  }

  /** Non-increasing: an earlier entry is never smaller than a later one. */
  predicate Descending(p: seq<int>) {
    forall i, j :: 0 <= i < j < |p| ==> p[j] <= p[i]
  }

  /** h is ranked and no ranked task has a higher priority: a task poll may return. */
  predicate IsTop(q: Ranking, arena: Arena, h: Handle)
    requires RankedIn(q, arena)
  {
    h in q && forall k :: k in q ==> arena[k].priority <= arena[h].priority
  }

  /** A non-empty ranking has a task of highest priority. */
  lemma {:induction false} TopExists(q: Ranking, arena: Arena)
    requires RankedIn(q, arena) && q != multiset{}
    ensures exists h :: IsTop(q, arena, h)
    decreases |q|
  {
    var x :| x in q;
    var rest := q - multiset{x};
    assert q == rest + multiset{x};
    if rest == multiset{} {
      assert IsTop(q, arena, x);
    } else {
      TopExists(rest, arena);
      var m :| IsTop(rest, arena, m);
      if arena[m].priority <= arena[x].priority {
        assert IsTop(q, arena, x);
      } else {
        assert IsTop(q, arena, m);
      }
    }
  }

  /** poll: removes and returns a task of highest priority. */
  method Poll(q: Ranking, arena: Arena) returns (h: Handle, rest: Ranking)
    requires RankedIn(q, arena) && q != multiset{}
    ensures IsTop(q, arena, h)
    ensures rest + multiset{h} == q
  {
    TopExists(q, arena);
    h :| IsTop(q, arena, h);
    rest := q - multiset{h};
  }

  /**
   * printPriorityTasks' loop: polls a copy of the ranking until it is empty.
   * The tasks come out as a rearrangement of the ranking, highest priority
   * first; the ranking itself is a value and is left as it was.
   */
  method Drain(q: Ranking, arena: Arena) returns (out: seq<Handle>)
    requires RankedIn(q, arena)
    ensures multiset(out) == q
    ensures forall i :: 0 <= i < |out| ==> out[i] in arena
    ensures Descending(Priorities(out, arena))
  {
    out := [];
    var temp := q;
    while temp != multiset{}
      invariant DrainInv(q, arena, out, temp)
      decreases |temp|
    {
      var h, rest := Poll(temp, arena);
      DrainStep(q, arena, out, temp, h, rest);
      out := out + [h];
      temp := rest;
    }
  }

  /**
   * Midway through a drain: out and the rest make up the ranking, out is
   * non-increasing and nothing left outranks anything already out.
   */
  predicate DrainInv(q: Ranking, arena: Arena, out: seq<Handle>, temp: Ranking) {
    && multiset(out) + temp == q && RankedIn(temp, arena)
    && (forall i :: 0 <= i < |out| ==> out[i] in arena)
    && Descending(Priorities(out, arena))
    && (forall i, k :: 0 <= i < |out| && k in temp ==> arena[k].priority <= arena[out[i]].priority)
  }

  /** Polling a top task and appending it keeps the drain invariant. */
  lemma DrainStep(q: Ranking, arena: Arena, out: seq<Handle>, temp: Ranking, h: Handle, rest: Ranking)
    requires DrainInv(q, arena, out, temp)
    requires IsTop(temp, arena, h) && rest + multiset{h} == temp
    ensures DrainInv(q, arena, out + [h], rest)
  {
    var out' := out + [h];
    assert multiset(out') == multiset(out) + multiset{h};
    var p, p' := Priorities(out, arena), Priorities(out', arena);
    forall i, j | 0 <= i < j < |p'|
      ensures p'[j] <= p'[i]
    {
      if j < |out| {
        assert p'[i] == p[i] && p'[j] == p[j];
      }
    }
    forall i, k | 0 <= i < |out'| && k in rest
      ensures arena[k].priority <= arena[out'[i]].priority
    {
      assert k in temp;
    }
  }

  /** The tail of a non-increasing sequence is non-increasing and bounded by the head. */
  lemma DescendingTail(x: seq<int>)
    requires Descending(x) && x != []
    ensures Descending(x[1..])
    ensures forall v :: v in multiset(x) ==> v <= x[0]
  {
    forall v | v in multiset(x)
      ensures v <= x[0]
    {
      var i :| 0 <= i < |x| && x[i] == v;
    }
  }

  /** Dropping the first element drops one occurrence of it. */
  lemma DropHead<T>(x: seq<T>)
    requires x != []
    ensures multiset(x[1..]) == multiset(x) - multiset{x[0]}
  {
    assert x == [x[0]] + x[1..];
  }

  /** Dropping the element at j drops one occurrence of it. */
  lemma DropAt<T>(x: seq<T>, j: int)
    requires 0 <= j < |x|
    ensures multiset(x[..j] + x[j + 1..]) == multiset(x) - multiset{x[j]}
  {
    assert x == x[..j] + [x[j]] + x[j + 1..];
  }

  /** Two non-increasing sequences with the same elements are the same sequence. */
  lemma {:induction false} DescendingUnique(x: seq<int>, y: seq<int>)
    requires Descending(x) && Descending(y) && multiset(x) == multiset(y)
    ensures x == y
    decreases |x|
  {
    if x == [] {
      assert |multiset(y)| == 0;
    } else {
      assert y != [] by {
        assert x[0] in multiset(y);
      }
      SameHead(x, y);
      DropHead(x);
      DropHead(y);
      DescendingUnique(x[1..], y[1..]);
      assert x == [x[0]] + x[1..];
      assert y == [y[0]] + y[1..];
    }
  }

  /** Two non-empty non-increasing sequences with the same elements start alike, and so do their tails. */
  lemma SameHead(x: seq<int>, y: seq<int>)
    requires Descending(x) && Descending(y) && multiset(x) == multiset(y) && x != [] && y != []
    ensures x[0] == y[0]
    ensures Descending(x[1..]) && Descending(y[1..])
  {
    DescendingTail(x);
    DescendingTail(y);
    assert x[0] in multiset(y) && y[0] in multiset(x);
  }

  /** Taking a task out of a sequence takes its priority out of the priorities. */
  lemma PrioritiesDrop(s: seq<Handle>, arena: Arena, j: int)
    requires forall i :: 0 <= i < |s| ==> s[i] in arena
    requires 0 <= j < |s|
    ensures var p := Priorities(s, arena);
      Priorities(s[..j] + s[j + 1..], arena) == p[..j] + p[j + 1..]
  {
  }

  /** Equal remainders after dropping one equal element on each side give equal wholes. */
  lemma CombineDrop(pa: seq<int>, pb: seq<int>, j: int)
    requires pa != [] && 0 <= j < |pb| && pa[0] == pb[j]
    requires multiset(pa[1..]) == multiset(pb[..j] + pb[j + 1..])
    ensures multiset(pa) == multiset(pb)
  {
    assert pa == [pa[0]] + pa[1..];
    assert pb == pb[..j] + [pb[j]] + pb[j + 1..];
    assert multiset(pb) == multiset(pb[..j]) + multiset{pb[j]} + multiset(pb[j + 1..]);
  }

  /** Rearranging tasks rearranges their priorities. */
  lemma {:induction false} PrioritiesPermute(a: seq<Handle>, b: seq<Handle>, arena: Arena)
    requires forall i :: 0 <= i < |a| ==> a[i] in arena
    requires forall i :: 0 <= i < |b| ==> b[i] in arena
    requires multiset(a) == multiset(b)
    ensures multiset(Priorities(a, arena)) == multiset(Priorities(b, arena))
    decreases |a|
  {
    if a == [] {
      assert b == [] by {
        assert |multiset(b)| == 0;
      }
    } else {
      assert a[0] in multiset(b);
      var j :| 0 <= j < |b| && b[j] == a[0];
      var a', b' := a[1..], b[..j] + b[j + 1..];
      DropHead(a);
      DropAt(b, j);
      PrioritiesPermute(a', b', arena);
      assert a' == a[..0] + a[0 + 1..];
      PrioritiesDrop(a, arena, 0);
      PrioritiesDrop(b, arena, j);
      var pa, pb := Priorities(a, arena), Priorities(b, arena);
      assert pa[..0] + pa[0 + 1..] == pa[1..];
      CombineDrop(pa, pb, j);
    }
  }

  /**
   * Whatever the heap does with ties, every drain of the same ranking lists
   * the same priorities in the same order.
   */
  lemma DrainPrioritiesDetermined(a: seq<Handle>, b: seq<Handle>, arena: Arena)
    requires forall i :: 0 <= i < |a| ==> a[i] in arena
    requires forall i :: 0 <= i < |b| ==> b[i] in arena
    requires multiset(a) == multiset(b)
    requires Descending(Priorities(a, arena)) && Descending(Priorities(b, arena))
    ensures Priorities(a, arena) == Priorities(b, arena)
  {
    PrioritiesPermute(a, b, arena);
    DescendingUnique(Priorities(a, arena), Priorities(b, arena));
  }
}

=== FILE: singly_linked_list.dfy ===
/**
 * data_structures/SinglyLinkedList: a chain of Node objects from `head`,
 * with a separate size counter.
 *
 * The chain is held as the sequence of its nodes from the head; a node's
 * `next` is the node after it. A node taken off the list is handed out as a
 * value, so it is detached. `setHead` and `printList` are not modelled.
 */
module SinglyLinkedLists {
  import opened Wrappers
  import opened Nodes

  datatype SList<E, T> = SList(nodes: seq<Node<E, T>>, size: int)

  /** new SinglyLinkedList(): no head, size 0. */
  function Empty<E, T>(): SList<E, T> {
    SList([], 0)
  }

  /** The size counter agrees with the number of nodes reachable from the head. */
  predicate Valid<E, T>(l: SList<E, T>) {
    l.size == |l.nodes|
  }

  /** isEmpty tests the counter. */
  function IsEmpty<E, T>(l: SList<E, T>): bool {
    l.size == 0
  }

  /** On a valid list, the counter test and the chain test agree. */
  lemma IsEmptyIffNoNodes<E, T>(l: SList<E, T>)
    requires Valid(l)
    ensures IsEmpty(l) <==> l.nodes == []
    ensures IsEmpty(l) <==> GetFirst(l).None?
  {
  }

  /** clear: no head, size 0. */
  function Clear<E, T>(l: SList<E, T>): (r: SList<E, T>)
    ensures Valid(r) && IsEmpty(r) && r.nodes == []
  {
    Empty()
  }

  /** getFirst: the head, or null. */
  function GetFirst<E, T>(l: SList<E, T>): (r: Option<Node<E, T>>)
    ensures r.None? <==> l.nodes == []
  {
    if l.nodes == [] then None else Some(l.nodes[0])
  }

  /** The final node of the chain, or null. */
  function Last<E, T>(l: SList<E, T>): Option<Node<E, T>> {
    if l.nodes == [] then None else Some(l.nodes[|l.nodes| - 1])
  }

  /** The `next` link of the node at position i: the node after it, or null for the last one. */
  function NextOf<E, T>(l: SList<E, T>, i: int): Option<Node<E, T>>
    requires 0 <= i < |l.nodes|
  {
    if i + 1 < |l.nodes| then Some(l.nodes[i + 1]) else None
  }

  /**
   * getLast: walks the `next` links from the head until a node has no
   * successor. Each step follows a link that is present, so the walk stops
   * at the final node of the chain.
   */
  method GetLast<E, T>(l: SList<E, T>) returns (r: Option<Node<E, T>>)
    ensures r == Last(l)
    ensures r.None? <==> l.nodes == []
  {
    if l.nodes == [] {
      return None;
    }
    var curr := 0;
    while NextOf(l, curr).Some?
      invariant 0 <= curr < |l.nodes|
      invariant forall j :: 0 <= j < curr ==> NextOf(l, j) == Some(l.nodes[j + 1])
      decreases |l.nodes| - curr
    {
      curr := curr + 1;
    }
    r := Some(l.nodes[curr]);
  }

  datatype Removed<E, T> = Removed(list: SList<E, T>, node: Option<Node<E, T>>)

  /**
   * removeFirst: null and no change on an empty list; otherwise the old head,
   * detached, with the list continuing from its successor and the counter
   * one lower.
   */
  function RemoveFirst<E, T>(l: SList<E, T>): (r: Removed<E, T>)
    requires Valid(l)
    ensures Valid(r.list)
    ensures l.nodes == [] ==> r == Removed(l, None)
    ensures l.nodes != [] ==>
      && r.node == Some(l.nodes[0])
      && r.list.nodes == l.nodes[1..]
      && r.list.size == l.size - 1
  {
    if IsEmpty(l) then Removed(l, None)
    else Removed(SList(l.nodes[1..], l.size - 1), Some(l.nodes[0]))
  }

  /** addFirst: the node becomes the head, followed by the old chain; the counter grows by one. */
  function AddFirst<E, T>(l: SList<E, T>, n: Node<E, T>): (r: SList<E, T>)
    ensures GetFirst(r) == Some(n) && r.nodes[1..] == l.nodes
    ensures r.size == l.size + 1
    ensures Valid(l) ==> Valid(r)
  {
    SList([n] + l.nodes, l.size + 1)
  }

  /**
   * addLast: on an empty list, the same as addFirst; otherwise the node is
   * linked after the last node and the counter grows by one.
   */
  function AddLast<E, T>(l: SList<E, T>, n: Node<E, T>): (r: SList<E, T>)
    requires Valid(l)
    ensures Valid(r)
    ensures r.size == l.size + 1 && |r.nodes| == |l.nodes| + 1
    ensures Last(r) == Some(n) && r.nodes[..|l.nodes|] == l.nodes
  {
    if IsEmpty(l) then AddFirst(l, n) else SList(l.nodes + [n], l.size + 1)
  }

  /** addFirst followed by removeFirst hands back the node and restores the list. */
  lemma AddFirstThenRemoveFirst<E, T>(l: SList<E, T>, n: Node<E, T>)
    requires Valid(l)
    ensures RemoveFirst(AddFirst(l, n)) == Removed(l, Some(n))
  {
  }

  /** As a sequence, addLast appends: on an empty list this agrees with addFirst. */
  lemma AddLastAppends<E, T>(l: SList<E, T>, n: Node<E, T>)
    requires Valid(l)
    ensures AddLast(l, n).nodes == l.nodes + [n]
    ensures IsEmpty(l) ==> AddLast(l, n) == AddFirst(l, n)
  {
    var r := AddLast(l, n);
    assert r.nodes == r.nodes[..|l.nodes|] + [r.nodes[|l.nodes|]];
  }

  /** No node of the list carries this id. */
  predicate NoId<E(==), T>(nodes: seq<Node<E, T>>, id: E) {
    forall j :: 0 <= j < |nodes| ==> nodes[j].id != id
  }

  /**
   * removeById: with no node carrying the id, null and no change. Otherwise
   * the first node with that id, detached, the others in their order, and the
   * counter one lower.
   */
  method RemoveById<E(==), T>(l: SList<E, T>, id: E) returns (r: Removed<E, T>)
    requires Valid(l)
    ensures Valid(r.list)
    ensures r.node.None? <==> NoId(l.nodes, id)
    ensures r.node.None? ==> r.list == l
    ensures r.node.Some? ==> exists k :: RemovedAt(l, id, k, r)
  {
    if IsEmpty(l) {
      return Removed(l, None);
    }
    if l.nodes[0].id == id {
      r := RemoveFirst(l);
      FoundAt(l, id, 0, r);
      return;
    }
    var curr := ScanAfterHead(l.nodes, id);
    if curr + 1 < |l.nodes| {
      var k := curr + 1;
      r := Removed(SList(l.nodes[..k] + l.nodes[k + 1..], l.size - 1), Some(l.nodes[k]));
      FoundAt(l, id, k, r);
    } else {
      assert l.nodes[..curr + 1] == l.nodes;
      r := Removed(l, None);
    }
  }

  /**
   * Node k is the first carrying the id, and r hands it back with the list
   * closed over the gap and the counter one lower.
   */
  ghost predicate RemovedAt<E, T>(l: SList<E, T>, id: E, k: int, r: Removed<E, T>) {
    && 0 <= k < |l.nodes| && l.nodes[k].id == id && NoId(l.nodes[..k], id)
    && r.node == Some(l.nodes[k])
    && r.list.nodes == l.nodes[..k] + l.nodes[k + 1..]
    && r.list.size == l.size - 1
  }

  /** Removing the first node carrying the id gives a list whose counter still counts nodes. */
  lemma FoundAt<E, T>(l: SList<E, T>, id: E, k: int, r: Removed<E, T>)
    requires Valid(l) && 0 <= k < |l.nodes| && l.nodes[k].id == id && NoId(l.nodes[..k], id)
    requires r.node == Some(l.nodes[k]) && r.list.size == l.size - 1
    requires r.list.nodes == l.nodes[..k] + l.nodes[k + 1..]
    ensures Valid(r.list) && !NoId(l.nodes, id) && RemovedAt(l, id, k, r)
  {
    assert l.nodes[k].id == id;
  }

  /**
   * removeById's walk: from the head, which does not carry the id, moves on
   * while the next node exists and does not carry it.
   */
  method ScanAfterHead<E(==), T>(nodes: seq<Node<E, T>>, id: E) returns (curr: int)
    requires nodes != [] && nodes[0].id != id
    ensures 0 <= curr < |nodes| && NoId(nodes[..curr + 1], id)
    ensures curr + 1 < |nodes| ==> nodes[curr + 1].id == id
  {
    curr := 0;
    while curr + 1 < |nodes| && nodes[curr + 1].id != id
      invariant 0 <= curr < |nodes|
      invariant NoId(nodes[..curr + 1], id)
      decreases |nodes| - curr
    {
      assert nodes[..curr + 2] == nodes[..curr + 1] + [nodes[curr + 1]];
      curr := curr + 1;
    }
  }
}

=== FILE: task_manager.dfy ===
/**
 * managers/TaskManager: the orchestrator. It keeps a user registry (an id
 * set and an id-to-user map) and six structures in step: an undo stack and
 * a redo stack of tasks, a priority ranking, an arrival history (most
 * recent first), a first-in first-out schedule and a due-date tree.
 *
 * Task objects live in an arena and are shared by handle between the user
 * lists, the stacks and the ranking; the stacks thread through each task's
 * `next` link, and editTask changes tasks in place. A fresh object takes
 * the next unused handle.
 *
 * Every task that reaches the manager carries a due date. This is a scope
 * choice: the tree insert places a dateless task into an empty tree or an
 * empty slot, and only fails when it compares a missing date against a
 * node's date, by which point addTaskToUser has already updated the user,
 * both stacks, the history, the ranking and the schedule. The unused
 * `categories` and `recurringTasks` fields are not part of this model.
 */
module TaskManagers {
  import opened Wrappers
  import opened Tasks
  import opened Nodes
  import TaskStack
  import Users
  import Queues
  import SinglyLinkedLists
  import DueDateTree
  import Rankings

  /** A schedule entry: the QueueNode's id, name and status. */
  datatype Scheduled = Scheduled(id: int, name: string, status: string)

  datatype Manager = Manager(
    userIds: set<int>,
    users: map<int, Users.User>,
    arena: Arena,
    nextHandle: Handle,
    undo: TaskStack.Stack,
    redo: TaskStack.Stack,
    ranking: Rankings.Ranking,
    history: SinglyLinkedLists.SList<int, string>,
    schedule: Queues.Queue<Scheduled>,
    tree: DueDateTree.Tree)

  /** A task link, if set, names a live object. */
  predicate LinkIn(o: Option<Handle>, arena: Arena) {
    o.Some? ==> o.value in arena
  }

  /**
   * The manager's invariant: the id set is the map's key set and each user
   * is filed under its own id; every handle in use is live; every live task
   * has a due date and a live link; the history's counter is right and the
   * tree is ordered by date.
   */
  predicate Valid(m: Manager) {
    && m.userIds == m.users.Keys
    && (forall id :: id in m.users ==> m.users[id].id == id && Users.TasksIn(m.users[id].tasks, m.arena))
    && (forall h :: h in m.arena ==> h < m.nextHandle && m.arena[h].dueDate.Some? && LinkIn(m.arena[h].next, m.arena))
    && TaskStack.TopIn(m.undo, m.arena) && TaskStack.TopIn(m.redo, m.arena)
    && Rankings.RankedIn(m.ranking, m.arena)
    && SinglyLinkedLists.Valid(m.history)
    && DueDateTree.IsBst(m.tree)
  }

  /** The same live objects with the same fields, links aside. */
  predicate SameRecords(a: Arena, b: Arena) {
    a.Keys == b.Keys && forall k :: k in a ==> b[k].(next := a[k].next) == a[k]
  }

  /** new TaskManager(): no users, no tasks, every structure empty. */
  function New(): (m: Manager)
    ensures Valid(m)
    ensures m.users == map[] && m.arena == map[]
    ensures m.undo.head == None && m.redo.head == None
    ensures m.ranking == multiset{} && m.history.nodes == [] && m.schedule.items == [] && m.tree == DueDateTree.Leaf
  {
    Manager({}, map[], map[], 0, TaskStack.Empty, TaskStack.Empty, multiset{},
            SinglyLinkedLists.Empty(), Queues.Empty(), DueDateTree.Leaf)
  }

  /** A new object with the given fields and no link, under a handle not in use. */
  function Alloc(m: Manager, t: Task): (r: (Manager, Handle))
    requires Valid(m) && t.dueDate.Some? && t.next == None
    ensures Valid(r.0)
    ensures r.1 !in m.arena && r.0.arena.Keys == m.arena.Keys + {r.1} && r.0.arena[r.1] == t
    ensures forall k :: k in m.arena ==> r.0.arena[k] == m.arena[k]
    ensures r.0 == m.(arena := r.0.arena, nextHandle := r.0.nextHandle)
  {
    var h := m.nextHandle;
    (m.(arena := m.arena[h := t], nextHandle := h + 1), h)
  }

  /** new Task(id, name, priority) followed by setDueDate(due). */
  function CreateTask(m: Manager, id: int, name: string, priority: int, due: Date): (r: (Manager, Handle))
    requires Valid(m)
    ensures Valid(r.0)
    ensures r.1 !in m.arena && r.0.arena.Keys == m.arena.Keys + {r.1}
    ensures r.0.arena[r.1] == Task(id, name, priority, Some(due), None)
    ensures forall k :: k in m.arena ==> r.0.arena[k] == m.arena[k]
    ensures r.0 == m.(arena := r.0.arena, nextHandle := r.0.nextHandle)
  {
    Alloc(m, SetDueDate(NewTask(id, name, priority), Some(due)))
  }

  // ---------------------------------------------------------------------------
  // registerUser

  /**
   * registerUser: an id already in the set is refused and nothing changes;
   * otherwise the id joins the set and a new user with that id and name and
   * no tasks is filed under it.
   */
  function RegisterUser(m: Manager, id: int, name: string): (r: (Manager, bool))
    requires Valid(m)
    ensures Valid(r.0)
    ensures r.1 <==> id !in m.userIds
    ensures !r.1 ==> r.0 == m
    ensures r.1 ==>
      && r.0.userIds == m.userIds + {id} && r.0.users.Keys == r.0.userIds
      && r.0.users[id] == Users.User(id, name, [])
      && (forall k :: k in m.users ==> r.0.users[k] == m.users[k])
      && r.0 == m.(userIds := r.0.userIds, users := r.0.users)
  {
    if id in m.userIds then (m, false)
    else (m.(userIds := m.userIds + {id}, users := m.users[id := Users.NewUser(id, name)]), true)
  }

  // ---------------------------------------------------------------------------
  // The four structures a new or redone task is entered into

  /**
   * The task's (id, name) heads the history, the task joins the ranking,
   * (id, name, "Scheduled") joins the back of the schedule and (name, due
   * date) joins the tree; the tree stays ordered.
   */
  predicate Recorded(m: Manager, r: Manager, h: Handle)
    requires h in m.arena && m.arena[h].dueDate.Some?
  {
    var t := m.arena[h];
    && r.history.nodes == [Node(t.id, t.name)] + m.history.nodes && r.history.size == m.history.size + 1
    && r.ranking == m.ranking + multiset{h}
    && r.schedule.items == m.schedule.items + [Scheduled(t.id, t.name, "Scheduled")]
    && DueDateTree.Pairs(r.tree) == DueDateTree.Pairs(m.tree) + multiset{(t.name, t.dueDate.value)}
    && DueDateTree.IsBst(r.tree)
  }

  /** History addFirst, ranking add, schedule enqueue and tree insert for task h. */
  function Record(m: Manager, h: Handle): (r: Manager)
    requires Valid(m) && h in m.arena
    ensures Valid(r)
    ensures Recorded(m, r, h)
    ensures r == m.(history := r.history, ranking := r.ranking, schedule := r.schedule, tree := r.tree)
  {
    var t := m.arena[h];
    DueDateTree.InsertBst(m.tree, t.name, t.dueDate.value);
    m.(history := SinglyLinkedLists.AddFirst(m.history, Node(t.id, t.name)),
       ranking := Rankings.Add(m.ranking, h),
       schedule := Queues.Enqueue(m.schedule, Scheduled(t.id, t.name, "Scheduled")),
       tree := DueDateTree.Insert(m.tree, t.name, t.dueDate.value))
  }

  // ---------------------------------------------------------------------------
  // addTaskToUser

  /**
   * The effect of a successful addTaskToUser: the task is appended to the
   * user's list, becomes the top of the undo stack (its link pointing at the
   * old top), the redo stack is new and empty, and the task is recorded in
   * history, ranking, schedule and tree. No other user and no other object
   * changes.
   */
  predicate Added(m: Manager, r: Manager, userId: int, h: Handle)
    requires userId in m.users && h in m.arena && m.arena[h].dueDate.Some?
  {
    && r.userIds == m.userIds && r.users.Keys == m.users.Keys
    && r.users[userId] == Users.AddTask(m.users[userId], h)
    && (forall k :: k in m.users && k != userId ==> r.users[k] == m.users[k])
    && r.undo == TaskStack.Stack(Some(h), m.undo.size + 1)
    && r.redo == TaskStack.Empty
    && SameRecords(m.arena, r.arena) && r.arena[h].next == m.undo.head
    && (forall k :: k in m.arena && k != h ==> r.arena[k] == m.arena[k])
    && Recorded(m, r, h)
    && r.nextHandle == m.nextHandle
  }

  /**
   * addTaskToUser: an unknown user id gives false and changes nothing;
   * otherwise the task is added everywhere and the answer is true.
   */
  function AddTaskToUser(m: Manager, userId: int, h: Handle): (r: (Manager, bool))
    requires Valid(m) && h in m.arena
    ensures Valid(r.0)
    ensures r.1 <==> userId in m.users
    ensures !r.1 ==> r.0 == m
    ensures r.1 ==> Added(m, r.0, userId, h)
  {
    if userId !in m.users then (m, false)
    else
      var p := TaskStack.Push(m.undo, m.arena, h);
      AppendPushValid(m, userId, h);
      Relink(m.arena, h, m.undo.head);
      assert p.arena == m.arena[h := SetNext(m.arena[h], m.undo.head)];
      var m1 := m.(users := m.users[userId := Users.AddTask(m.users[userId], h)],
                   arena := p.arena, undo := p.stack, redo := TaskStack.Empty);
      (Record(m1, h), true)
  }

  // ---------------------------------------------------------------------------
  // undoLastTask

  /**
   * The effect of undoLastTask when the undo stack has top h: h is popped.
   * The owner is looked up under h's own task id: when a user is filed under
   * that id, the tasks with that id leave that user's list and h goes on the
   * redo stack; otherwise h is dropped. History, ranking, schedule and tree
   * are never touched.
   */
  predicate Undone(m: Manager, r: Manager, h: Handle)
    requires Valid(m) && h in m.arena
  {
    var tid := m.arena[h].id;
    && SameRecords(m.arena, r.arena)
    && r.undo == TaskStack.Stack(m.arena[h].next, m.undo.size - 1)
    && (tid in m.users ==>
          && r.users == m.users[tid := Users.RemoveTask(m.users[tid], m.arena, tid).0]
          && r.redo == TaskStack.Stack(Some(h), m.redo.size + 1)
          && r.arena[h].next == m.redo.head)
    && (tid !in m.users ==> r.users == m.users && r.redo == m.redo && r.arena[h].next == None)
    && (forall k :: k in m.arena && k != h ==> r.arena[k] == m.arena[k])
    && r == m.(users := r.users, arena := r.arena, undo := r.undo, redo := r.redo)
  }

  /** The manager after undo pops h and drops it: h's link is cleared. */
  lemma UndoneDropped(m: Manager, h: Handle, r: Manager)
    requires Valid(m) && m.undo.head == Some(h) && m.arena[h].id !in m.users
    requires r == m.(arena := m.arena[h := SetNext(m.arena[h], None)],
                     undo := TaskStack.Stack(m.arena[h].next, m.undo.size - 1))
    ensures Valid(r) && Undone(m, r, h)
  {
    UpdateValid(m, h, SetNext(m.arena[h], None), m.ranking, m.tree);
    Relink(m.arena, h, None);
  }

  /**
   * The manager after undo pops h and moves it to the redo stack: h is
   * linked to the old redo top and the owner loses the tasks with h's id.
   */
  lemma UndoneOwned(m: Manager, h: Handle, r: Manager)
    requires Valid(m) && m.undo.head == Some(h) && m.arena[h].id in m.users
    requires var tid := m.arena[h].id;
      r == m.(users := m.users[tid := Users.RemoveTask(m.users[tid], m.arena, tid).0],
              arena := m.arena[h := SetNext(m.arena[h], m.redo.head)],
              undo := TaskStack.Stack(m.arena[h].next, m.undo.size - 1),
              redo := TaskStack.Stack(Some(h), m.redo.size + 1))
    ensures Valid(r) && Undone(m, r, h)
  {
    var tid := m.arena[h].id;
    var m1 := m.(arena := m.arena[h := SetNext(m.arena[h], m.redo.head)]);
    UpdateValid(m, h, SetNext(m.arena[h], m.redo.head), m.ranking, m.tree);
    Relink(m.arena, h, m.redo.head);
    forall id | id in r.users
      ensures r.users[id].id == id && Users.TasksIn(r.users[id].tasks, r.arena)
    {
      assert Users.TasksIn(m1.users[id].tasks, m1.arena);
    }
  }

  /** undoLastTask: a no-op on an empty undo stack. */
  function UndoLastTask(m: Manager): (r: Manager)
    requires Valid(m)
    ensures Valid(r)
    ensures m.undo.head.None? ==> r == m
    ensures m.undo.head.Some? ==> Undone(m, r, m.undo.head.value)
  {
    var p := TaskStack.Pop(m.undo, m.arena);
    match p.top
    case None => m
    case Some(h) =>
      var tid := m.arena[h].id;
      assert p.arena == m.arena[h := SetNext(m.arena[h], None)];
      var m1 := m.(undo := p.stack, arena := p.arena);
      if tid in m.users then
        var u := Users.RemoveTask(m.users[tid], m.arena, tid).0;
        var q := TaskStack.Push(m.redo, p.arena, h);
        assert q.arena == p.arena[h := SetNext(p.arena[h], m.redo.head)];
        UpdateTwice(m.arena, h, SetNext(m.arena[h], None), SetNext(m.arena[h], m.redo.head));
        var r := m1.(users := m.users[tid := u], redo := q.stack, arena := q.arena);
        UndoneOwned(m, h, r);
        r
      else
        UndoneDropped(m, h, m1);
        m1
  }

  // ---------------------------------------------------------------------------
  // redoLastTask

  /**
   * The effect of redoLastTask when the redo stack has top h: h is popped.
   * When a user is filed under h's task id, h is appended to that user's
   * list, pushed on the undo stack (the rest of the redo stack stays) and
   * recorded again in history, ranking, schedule and tree; otherwise h is
   * dropped and nothing else changes.
   */
  predicate Redone(m: Manager, r: Manager, h: Handle)
    requires Valid(m) && h in m.arena
  {
    var tid := m.arena[h].id;
    && SameRecords(m.arena, r.arena)
    && r.redo == TaskStack.Stack(m.arena[h].next, m.redo.size - 1)
    && (tid in m.users ==>
          && r.users == m.users[tid := Users.AddTask(m.users[tid], h)]
          && r.undo == TaskStack.Stack(Some(h), m.undo.size + 1)
          && r.arena[h].next == m.undo.head
          && Recorded(m, r, h))
    && (tid !in m.users ==>
          && r.users == m.users && r.undo == m.undo && r.arena[h].next == None
          && r.ranking == m.ranking && r.history == m.history && r.schedule == m.schedule && r.tree == m.tree)
    && (forall k :: k in m.arena && k != h ==> r.arena[k] == m.arena[k])
    && r.userIds == m.userIds && r.nextHandle == m.nextHandle
  }

  /** Setting one task's link keeps every record apart from links, and every other task whole. */
  lemma Relink(a: Arena, h: Handle, next: Option<Handle>)
    requires h in a
    ensures SameRecords(a, a[h := SetNext(a[h], next)])
    ensures forall k :: k in a && k != h ==> a[h := SetNext(a[h], next)][k] == a[k]
  {
  }

  /**
   * Appending a live task to a registered user's list and pushing it on the
   * undo stack keeps the invariant.
   */
  lemma AppendPushValid(m: Manager, tid: int, h: Handle)
    requires Valid(m) && h in m.arena && tid in m.users
    ensures var q := TaskStack.Push(m.undo, m.arena, h);
      Valid(m.(users := m.users[tid := Users.AddTask(m.users[tid], h)], undo := q.stack, arena := q.arena))
  {
    var q := TaskStack.Push(m.undo, m.arena, h);
    UpdateValid(m, h, SetNext(m.arena[h], m.undo.head), m.ranking, m.tree);
    assert q.arena == m.arena[h := SetNext(m.arena[h], m.undo.head)];
    var r := m.(users := m.users[tid := Users.AddTask(m.users[tid], h)], undo := q.stack, arena := q.arena);
    forall id | id in r.users
      ensures r.users[id].id == id && Users.TasksIn(r.users[id].tasks, r.arena)
    {
      assert Users.TasksIn(m.users[id].tasks, m.arena);
    }
  }

  /**
   * Redo's pop and push leave h linked to the old undo top, appended to its
   * owner's list and at the top of the undo stack; recording it then gives
   * the whole effect of a redo.
   */
  lemma RedoneFromParts(m: Manager, h: Handle, m2: Manager, r: Manager)
    requires Valid(m) && h in m.arena && m.arena[h].id in m.users
    requires m2 == m.(users := m.users[m.arena[h].id := Users.AddTask(m.users[m.arena[h].id], h)],
                      arena := m.arena[h := SetNext(m.arena[h], m.undo.head)],
                      undo := TaskStack.Stack(Some(h), m.undo.size + 1),
                      redo := TaskStack.Stack(m.arena[h].next, m.redo.size - 1))
    requires Recorded(m2, r, h)
    requires r == m2.(history := r.history, ranking := r.ranking, schedule := r.schedule, tree := r.tree)
    ensures Redone(m, r, h)
  {
    Relink(m.arena, h, m.undo.head);
  }

  /** Redo's pop and push keep the invariant. */
  lemma RedoPushedValid(m: Manager, h: Handle, m2: Manager)
    requires Valid(m) && m.redo.head == Some(h) && m.arena[h].id in m.users
    requires m2 == m.(users := m.users[m.arena[h].id := Users.AddTask(m.users[m.arena[h].id], h)],
                      arena := m.arena[h := SetNext(m.arena[h], m.undo.head)],
                      undo := TaskStack.Stack(Some(h), m.undo.size + 1),
                      redo := TaskStack.Stack(m.arena[h].next, m.redo.size - 1))
    ensures Valid(m2)
  {
    var m1 := m.(redo := TaskStack.Stack(m.arena[h].next, m.redo.size - 1));
    assert Valid(m1);
    AppendPushValid(m1, m.arena[h].id, h);
  }

  /** The task at the top of the redo stack, after the pop, when its id names a user. */
  function RedoTop(m: Manager, h: Handle): (r: Manager)
    requires Valid(m) && m.redo.head == Some(h) && m.arena[h].id in m.users
    ensures Valid(r)
    ensures Redone(m, r, h)
  {
    var tid := m.arena[h].id;
    var p := TaskStack.Pop(m.redo, m.arena);
    assert p.arena == m.arena[h := SetNext(m.arena[h], None)];
    var q := TaskStack.Push(m.undo, p.arena, h);
    assert q.arena == p.arena[h := SetNext(p.arena[h], m.undo.head)];
    UpdateTwice(m.arena, h, SetNext(m.arena[h], None), SetNext(m.arena[h], m.undo.head));
    var m2 := m.(users := m.users[tid := Users.AddTask(m.users[tid], h)], undo := q.stack, redo := p.stack, arena := q.arena);
    RedoPushedValid(m, h, m2);
    var r := Record(m2, h);
    RedoneFromParts(m, h, m2, r);
    r
  }

  /** redoLastTask: a no-op on an empty redo stack. */
  function RedoLastTask(m: Manager): (r: Manager)
    requires Valid(m)
    ensures Valid(r)
    ensures m.redo.head.None? ==> r == m
    ensures m.redo.head.Some? ==> Redone(m, r, m.redo.head.value)
  {
    match m.redo.head
    case None => m
    case Some(h) =>
      if m.arena[h].id in m.users then RedoTop(m, h)
      else
        var p := TaskStack.Pop(m.redo, m.arena);
        UpdateValid(m, h, SetNext(m.arena[h], None), m.ranking, m.tree);
        m.(redo := p.stack, arena := p.arena)
  }

  // ---------------------------------------------------------------------------
  // editTask

  /**
   * Replacing one live task's fields (keeping a due date and a live link),
   * the ranking (over live tasks) and the tree (ordered) keeps the invariant.
   */
  lemma UpdateValid(m: Manager, h: Handle, t: Task, ranking: Rankings.Ranking, tree: DueDateTree.Tree)
    requires Valid(m) && h in m.arena
    requires t.dueDate.Some? && LinkIn(t.next, m.arena)
    requires Rankings.RankedIn(ranking, m.arena) && DueDateTree.IsBst(tree)
    ensures Valid(m.(arena := m.arena[h := t], ranking := ranking, tree := tree))
  {
    var r := m.(arena := m.arena[h := t], ranking := ranking, tree := tree);
    assert r.arena.Keys == m.arena.Keys;
    forall id | id in r.users
      ensures Users.TasksIn(r.users[id].tasks, r.arena)
    {
      assert Users.TasksIn(m.users[id].tasks, m.arena);
    }
  }

  /**
   * after is before re-keyed from name n to the pair (n', d): when n is held,
   * the pair search finds first under n leaves; otherwise nothing leaves.
   * Either way (n', d) enters.
   */
  predicate Rekeys(before: DueDateTree.Tree, after: DueDateTree.Tree, n: string, n': string, d: Date) {
    && (n', d) in DueDateTree.Pairs(after)
    && (n !in DueDateTree.Names(before) ==> DueDateTree.Pairs(after) == DueDateTree.Pairs(before) + multiset{(n', d)})
    && (n in DueDateTree.Names(before) ==>
          var e := DueDateTree.SearchNode(before, n).value;
          && e in DueDateTree.Pairs(before) && e.0 == n
          && DueDateTree.Pairs(after) == DueDateTree.Pairs(before) - multiset{e} + multiset{(n', d)})
  }

  /** One re-keying step of editTask on the tree: remove by name n, then insert (n', d); the order is kept. */
  function Rekeyed(tree: DueDateTree.Tree, n: string, n': string, d: Date): (r: DueDateTree.Tree)
    ensures Rekeys(tree, r, n, n', d)
    ensures DueDateTree.IsBst(tree) ==> DueDateTree.IsBst(r)
  {
    var removed := DueDateTree.Remove(tree, n).0;
    assert DueDateTree.IsBst(tree) ==> DueDateTree.IsBst(DueDateTree.Insert(removed, n', d)) by {
      if DueDateTree.IsBst(tree) {
        DueDateTree.RemoveBst(tree, n);
        DueDateTree.InsertBst(removed, n', d);
      }
    }
    DueDateTree.Insert(removed, n', d)
  }

  /**
   * The name step: on a new name the task is renamed, and in the tree the
   * pair found under the old name gives way to (new name, due date).
   */
  function Rename(m: Manager, h: Handle, newName: Option<string>): (r: Manager)
    requires Valid(m) && h in m.arena
    ensures Valid(r)
    ensures newName.None? ==> r == m
    ensures newName.Some? ==>
      var t := m.arena[h];
      && r.arena == m.arena[h := SetName(t, newName.value)]
      && Rekeys(m.tree, r.tree, t.name, newName.value, t.dueDate.value)
      && r.tree == Rekeyed(m.tree, t.name, newName.value, t.dueDate.value)
      && r == m.(arena := r.arena, tree := r.tree)
  {
    match newName
    case None => m
    case Some(n) =>
      var t := m.arena[h];
      var tree := Rekeyed(m.tree, t.name, n, t.dueDate.value);
      UpdateValid(m, h, SetName(t, n), m.ranking, tree);
      m.(arena := m.arena[h := SetName(t, n)], tree := tree)
  }

  /** The priority step: unless the argument is -1 the task leaves the ranking, takes the priority and rejoins. */
  function Reprioritise(m: Manager, h: Handle, newPriority: int): (r: Manager)
    requires Valid(m) && h in m.arena
    ensures Valid(r)
    ensures newPriority == -1 ==> r == m
    ensures newPriority != -1 ==>
      && r.arena == m.arena[h := SetPriority(m.arena[h], newPriority)]
      && r.ranking == Rankings.Add(Rankings.RemoveOne(m.ranking, h).0, h)
      && r == m.(arena := r.arena, ranking := r.ranking)
  {
    if newPriority == -1 then m
    else
      UpdateValid(m, h, SetPriority(m.arena[h], newPriority), Rankings.Add(Rankings.RemoveOne(m.ranking, h).0, h), m.tree);
      m.(arena := m.arena[h := SetPriority(m.arena[h], newPriority)],
         ranking := Rankings.Add(Rankings.RemoveOne(m.ranking, h).0, h))
  }

  /**
   * The date step: on a new date the task takes it, and in the tree the
   * pair found under the task's name gives way to (name, new date).
   */
  function Redate(m: Manager, h: Handle, newDueDate: Option<Date>): (r: Manager)
    requires Valid(m) && h in m.arena
    ensures Valid(r)
    ensures newDueDate.None? ==> r == m
    ensures newDueDate.Some? ==>
      var t := m.arena[h];
      && r.arena == m.arena[h := SetDueDate(t, newDueDate)]
      && Rekeys(m.tree, r.tree, t.name, t.name, newDueDate.value)
      && r.tree == Rekeyed(m.tree, t.name, t.name, newDueDate.value)
      && r == m.(arena := r.arena, tree := r.tree)
  {
    match newDueDate
    case None => m
    case Some(d) =>
      var t := m.arena[h];
      var tree := Rekeyed(m.tree, t.name, t.name, d);
      UpdateValid(m, h, SetDueDate(t, Some(d)), m.ranking, tree);
      m.(arena := m.arena[h := SetDueDate(t, Some(d))], tree := tree)
  }

  /** The task editTask finds: the user's first task with that id. */
  function EditTarget(m: Manager, userId: int, taskId: int): (r: Option<Handle>)
    requires Valid(m)
    ensures r.Some? <==> userId in m.users && Users.HasId(m.users[userId].tasks, m.arena, taskId)
    ensures r.Some? ==> r.value in m.arena && m.arena[r.value].id == taskId
  {
    if userId !in m.users then None else Users.GetTaskById(m.users[userId].tasks, m.arena, taskId)
  }

  /**
   * The effect of a successful editTask on task h: a fresh snapshot object
   * with h's pre-edit id, name, priority and due date becomes the top of the
   * undo stack and the redo stack is new and empty; h takes the new name,
   * priority and date where given (null, -1 and null keep the old ones); the
   * ranking keeps its other tasks and holds h; the history gains one entry
   * with the post-edit name; the tree has gone through the two re-keying
   * steps; users and schedule are untouched.
   */
  ghost predicate Edited(m: Manager, r: Manager, h: Handle, newName: Option<string>, newPriority: int, newDueDate: Option<Date>)
    requires Valid(m) && h in m.arena
  {
    EditedObjects(m, r, h, newName, newPriority, newDueDate) && EditedStructures(m, r, h, newName, newPriority, newDueDate)
  }

  /** The objects and stacks part of Edited: the snapshot, the edited record, the stacks. */
  ghost predicate EditedObjects(m: Manager, r: Manager, h: Handle, newName: Option<string>, newPriority: int, newDueDate: Option<Date>)
    requires h in m.arena
  {
    var t := m.arena[h];
    && r.undo.head.Some? && r.undo.size == m.undo.size + 1
    && var s := r.undo.head.value;
    && s !in m.arena && r.arena.Keys == m.arena.Keys + {s}
    && r.arena[s] == Task(t.id, t.name, t.priority, t.dueDate, m.undo.head)
    && r.redo == TaskStack.Empty
    && r.arena[h] == EditedRecord(t, newName, newPriority, newDueDate)
    && (forall k :: k in m.arena && k != h ==> r.arena[k] == m.arena[k])
  }

  /** The bookkeeping part of Edited: users, schedule, history, ranking and tree. */
  ghost predicate EditedStructures(m: Manager, r: Manager, h: Handle, newName: Option<string>, newPriority: int, newDueDate: Option<Date>)
    requires h in m.arena && m.arena[h].dueDate.Some?
  {
    var t := m.arena[h];
    && r.users == m.users && r.userIds == m.userIds && r.schedule == m.schedule
    && r.history.nodes == [Node(t.id, newName.GetOr(t.name))] + m.history.nodes && r.history.size == m.history.size + 1
    && (newPriority == -1 ==> r.ranking == m.ranking)
    && (newPriority != -1 ==> h in r.ranking && (forall k :: k != h ==> r.ranking[k] == m.ranking[k]))
    && (h in m.ranking ==> r.ranking == m.ranking)
    && r.tree == TreeAfterEdit(m.tree, t, newName, newDueDate)
  }

  /**
   * The record editTask leaves in place of t: the new name, priority and due
   * date where given, the old ones where the argument is null, -1 or null.
   */
  function EditedRecord(t: Task, newName: Option<string>, newPriority: int, newDueDate: Option<Date>): Task {
    Task(t.id, newName.GetOr(t.name), if newPriority == -1 then t.priority else newPriority,
         if newDueDate.Some? then newDueDate else t.dueDate, t.next)
  }

  /**
   * The tree after editTask's two re-keying steps: on a new name the old
   * name is removed and the new name inserted with the old date; then on a
   * new date the post-edit name is removed and inserted again with the new
   * date.
   */
  function TreeAfterEdit(tree: DueDateTree.Tree, t: Task, newName: Option<string>, newDueDate: Option<Date>): DueDateTree.Tree
    requires t.dueDate.Some?
  {
    var renamed := if newName.Some? then Rekeyed(tree, t.name, newName.value, t.dueDate.value) else tree;
    var name := newName.GetOr(t.name);
    if newDueDate.Some? then Rekeyed(renamed, name, name, newDueDate.value) else renamed
  }

  /** The name step's tree followed by the date step's tree is the tree after both re-keying steps. */
  lemma TwoRekeyings(tree: DueDateTree.Tree, t: Task, newName: Option<string>, newDueDate: Option<Date>,
                     renamed: DueDateTree.Tree, redated: DueDateTree.Tree)
    requires t.dueDate.Some?
    requires newName.None? ==> renamed == tree
    requires newName.Some? ==> renamed == Rekeyed(tree, t.name, newName.value, t.dueDate.value)
    requires newDueDate.None? ==> redated == renamed
    requires newDueDate.Some? ==> redated == Rekeyed(renamed, newName.GetOr(t.name), newName.GetOr(t.name), newDueDate.value)
    ensures redated == TreeAfterEdit(tree, t, newName, newDueDate)
  {
  }

  /** A second update of the same key overrides the first. */
  lemma UpdateTwice(a: Arena, h: Handle, x: Task, y: Task)
    ensures a[h := x][h := y] == a[h := y]
  {
  }

  /**
   * A fresh task (under the next unused handle) with h's id, name, priority
   * and due date is the new top of the undo stack, linked to the old top;
   * the redo stack is empty; nothing else changes.
   */
  predicate SnapshotTaken(m: Manager, h: Handle, r: Manager)
    requires h in m.arena
  {
    var t := m.arena[h];
    && m.nextHandle !in m.arena
    && r.arena == m.arena[m.nextHandle := Task(t.id, t.name, t.priority, t.dueDate, m.undo.head)]
    && r.undo == TaskStack.Stack(Some(m.nextHandle), m.undo.size + 1) && r.redo == TaskStack.Empty
    && r == m.(arena := r.arena, nextHandle := r.nextHandle, undo := r.undo, redo := r.redo)
  }

  /**
   * The snapshot step: a fresh task with h's id, name, priority and due date
   * is pushed on the undo stack, and the redo stack is replaced by an empty one.
   */
  function Snapshot(m: Manager, h: Handle): (r: Manager)
    requires Valid(m) && h in m.arena
    ensures Valid(r)
    ensures SnapshotTaken(m, h, r)
  {
    var t := m.arena[h];
    var a := Alloc(m, SetDueDate(NewTask(t.id, t.name, t.priority), t.dueDate));
    var p := TaskStack.Push(a.0.undo, a.0.arena, a.1);
    UpdateValid(a.0, a.1, SetNext(a.0.arena[a.1], a.0.undo.head), a.0.ranking, a.0.tree);
    assert p.arena == a.0.arena[a.1 := SetNext(a.0.arena[a.1], a.0.undo.head)];
    a.0.(undo := p.stack, arena := p.arena, redo := TaskStack.Empty)
  }

  /**
   * h carries the edited record; the ranking is re-keyed on a priority
   * change; the tree goes through the re-keying steps; one history entry with the post-edit name is prepended; nothing else changes.
   */
  predicate EditApplied(m: Manager, h: Handle, newName: Option<string>, newPriority: int, newDueDate: Option<Date>, r: Manager)
    requires h in m.arena && m.arena[h].dueDate.Some?
  {
    && r.arena == m.arena[h := EditedRecord(m.arena[h], newName, newPriority, newDueDate)]
    && r.history.nodes == [Node(m.arena[h].id, newName.GetOr(m.arena[h].name))] + m.history.nodes
    && r.history.size == m.history.size + 1
    && (newPriority == -1 ==> r.ranking == m.ranking)
    && (newPriority != -1 ==> r.ranking == Rankings.Add(Rankings.RemoveOne(m.ranking, h).0, h))
    && r.tree == TreeAfterEdit(m.tree, m.arena[h], newName, newDueDate)
    && r == m.(arena := r.arena, ranking := r.ranking, tree := r.tree, history := r.history)
  }

  /**
   * The three field steps in the order editTask takes them, then one
   * history entry with the post-edit name.
   */
  function ApplyEdit(m: Manager, h: Handle, newName: Option<string>, newPriority: int, newDueDate: Option<Date>): (r: Manager)
    requires Valid(m) && h in m.arena
    ensures Valid(r)
    ensures EditApplied(m, h, newName, newPriority, newDueDate, r)
  {
    var m5 := EditFields(m, h, newName, newPriority, newDueDate);
    var t5 := m5.arena[h];
    m5.(history := SinglyLinkedLists.AddFirst(m5.history, Node(t5.id, t5.name)))
  }

  /** The three field steps: the record, the ranking and the tree change, nothing else. */
  function EditFields(m: Manager, h: Handle, newName: Option<string>, newPriority: int, newDueDate: Option<Date>): (r: Manager)
    requires Valid(m) && h in m.arena
    ensures Valid(r)
    ensures r.arena == m.arena[h := EditedRecord(m.arena[h], newName, newPriority, newDueDate)]
    ensures newPriority == -1 ==> r.ranking == m.ranking
    ensures newPriority != -1 ==> r.ranking == Rankings.Add(Rankings.RemoveOne(m.ranking, h).0, h)
    ensures r.tree == TreeAfterEdit(m.tree, m.arena[h], newName, newDueDate)
    ensures r == m.(arena := r.arena, ranking := r.ranking, tree := r.tree)
  {
    var t := m.arena[h];
    var t3 := t.(name := newName.GetOr(t.name));
    var t4 := t3.(priority := if newPriority == -1 then t.priority else newPriority);
    var m3 := Rename(m, h, newName);
    assert m3.arena == m.arena[h := t3] by {
      UpdateTwice(m.arena, h, t, t3);
    }
    var m4 := Reprioritise(m3, h, newPriority);
    assert m4.arena == m.arena[h := t4] by {
      UpdateTwice(m.arena, h, t3, t4);
    }
    var m5 := Redate(m4, h, newDueDate);
    TwoRekeyings(m.tree, t, newName, newDueDate, m3.tree, m5.tree);
    assert m5.arena == m.arena[h := EditedRecord(t, newName, newPriority, newDueDate)] by {
      UpdateTwice(m.arena, h, t4, EditedRecord(t, newName, newPriority, newDueDate));
    }
    m5
  }

  /** The snapshot step followed by the field steps has the effect editTask promises. */
  lemma EditedHolds(m: Manager, m2: Manager, r: Manager, h: Handle,
                    newName: Option<string>, newPriority: int, newDueDate: Option<Date>)
    requires Valid(m) && h in m.arena && SnapshotTaken(m, h, m2)
    requires h in m2.arena && m2.arena[h].dueDate.Some? && EditApplied(m2, h, newName, newPriority, newDueDate, r)
    ensures Edited(m, r, h, newName, newPriority, newDueDate)
  {
    assert m2.arena[h] == m.arena[h];
    EditedObjectsHold(m, m2, r, h, newName, newPriority, newDueDate);
    EditedStructuresHold(m, m2, r, h, newName, newPriority, newDueDate);
  }

  /** Adding a fresh key and then overwriting an old one: both new values are in place, every other key keeps its value. */
  lemma FreshThenUpdate(a: Arena, s: Handle, x: Task, h: Handle, y: Task)
    requires s !in a && h in a
    ensures var b := a[s := x][h := y];
      && b.Keys == a.Keys + {s} && b[s] == x && b[h] == y
      && (forall k :: k in a && k != h ==> b[k] == a[k])
  {
  }

  /** The objects and stacks part of EditedHolds. */
  lemma EditedObjectsHold(m: Manager, m2: Manager, r: Manager, h: Handle,
                          newName: Option<string>, newPriority: int, newDueDate: Option<Date>)
    requires h in m.arena && m.arena[h].dueDate.Some? && SnapshotTaken(m, h, m2)
    requires h in m2.arena && m2.arena[h] == m.arena[h] && EditApplied(m2, h, newName, newPriority, newDueDate, r)
    ensures EditedObjects(m, r, h, newName, newPriority, newDueDate)
  {
    var t := m.arena[h];
    var s := m.nextHandle;
    var snap := Task(t.id, t.name, t.priority, t.dueDate, m.undo.head);
    var rec := EditedRecord(t, newName, newPriority, newDueDate);
    assert r.undo == m2.undo && r.redo == m2.redo;
    assert r.arena == m.arena[s := snap][h := rec];
    FreshThenUpdate(m.arena, s, snap, h, rec);
  }

  /** The bookkeeping part of EditedHolds. */
  lemma EditedStructuresHold(m: Manager, m2: Manager, r: Manager, h: Handle,
                             newName: Option<string>, newPriority: int, newDueDate: Option<Date>)
    requires h in m.arena && m.arena[h].dueDate.Some? && SnapshotTaken(m, h, m2)
    requires h in m2.arena && m2.arena[h] == m.arena[h] && EditApplied(m2, h, newName, newPriority, newDueDate, r)
    ensures EditedStructures(m, r, h, newName, newPriority, newDueDate)
  {
    if newPriority != -1 && h in m.ranking {
      Rankings.RemoveThenAdd(m.ranking, h);
    }
  }

  /**
   * editTask: false with nothing changed when the user is unknown or has no
   * task with that id; otherwise the first such task is edited and the
   * answer is true.
   */
  function EditTask(m: Manager, userId: int, taskId: int, newName: Option<string>, newPriority: int, newDueDate: Option<Date>): (r: (Manager, bool))
    requires Valid(m)
    ensures Valid(r.0)
    ensures r.1 <==> userId in m.users && Users.HasId(m.users[userId].tasks, m.arena, taskId)
    ensures !r.1 ==> r.0 == m
    ensures r.1 ==> Edited(m, r.0, EditTarget(m, userId, taskId).value, newName, newPriority, newDueDate)
  {
    match EditTarget(m, userId, taskId)
    case None => (m, false)
    case Some(h) =>
      var m2 := Snapshot(m, h);
      var r := ApplyEdit(m2, h, newName, newPriority, newDueDate);
      EditedHolds(m, m2, r, h, newName, newPriority, newDueDate);
      (r, true)
  }
}

=== FILE: task_manager_lemmas.dfy ===
/**
 * How the operations of managers/TaskManager compose: what undo takes back
 * after an add and after an edit, what redo restores after an undo, and how
 * an edit re-keys the due-date tree.
 */
module TaskManagerLaws {
  import opened Wrappers
  import opened Tasks
  import opened Nodes
  import TaskStack
  import Users
  import DueDateTree
  import opened TaskManagers

  /** Two arenas that agree on every live object's id. */
  predicate SameIds(a: Arena, b: Arena) {
    a.Keys == b.Keys && forall k :: k in a ==> a[k].id == b[k].id
  }

  /** Deleting by id reads only ids, so arenas that agree on ids delete the same tasks. */
  lemma {:induction false} WithoutIdSameIds(ts: seq<Handle>, a: Arena, b: Arena, taskId: int)
    requires Users.TasksIn(ts, a) && SameIds(a, b)
    ensures Users.TasksIn(ts, b)
    ensures Users.WithoutId(ts, a, taskId) == Users.WithoutId(ts, b, taskId)
    decreases |ts|
  {
    if ts != [] {
      WithoutIdSameIds(ts[1..], a, b, taskId);
    }
  }

  /** A list with no task of that id is left whole by deleting that id. */
  lemma {:induction false} WithoutIdNone(ts: seq<Handle>, a: Arena, taskId: int)
    requires Users.TasksIn(ts, a) && !Users.HasId(ts, a, taskId)
    ensures Users.WithoutId(ts, a, taskId) == ts
    decreases |ts|
  {
    if ts != [] {
      assert a[ts[0]].id != taskId;
      assert !Users.HasId(ts[1..], a, taskId);
      WithoutIdNone(ts[1..], a, taskId);
      assert ts == [ts[0]] + ts[1..];
    }
  }

  /** A map that differs from b at most at k0 is b updated at k0. */
  lemma UpdateOne(a: map<int, Users.User>, b: map<int, Users.User>, k0: int)
    requires a.Keys == b.Keys && k0 in a
    requires forall k :: k in b && k != k0 ==> a[k] == b[k]
    ensures a == b[k0 := a[k0]]
  {
  }

  /** removeTask under arenas that agree on ids. */
  lemma RemoveTaskSameIds(u: Users.User, a: Arena, b: Arena, taskId: int)
    requires Users.TasksIn(u.tasks, a) && SameIds(a, b)
    ensures Users.TasksIn(u.tasks, b)
    ensures Users.RemoveTask(u, a, taskId).0 == Users.RemoveTask(u, b, taskId).0
  {
    WithoutIdSameIds(u.tasks, a, b, taskId);
  }

  /**
   * addTaskToUser then undoLastTask. The undo stack is back where it was,
   * but history, ranking, schedule and tree keep the added task. Undo looks
   * the owner up under the task's own id: when that is the user the task
   * was added to, the user loses every task with that id and the task goes
   * on the redo stack; when no user has that id, the task stays in the
   * user's list and is dropped.
   */
  lemma AddThenUndo(m: Manager, userId: int, h: Handle)
    requires Valid(m) && h in m.arena && userId in m.users
    ensures var a := AddTaskToUser(m, userId, h).0;
      var u := UndoLastTask(a);
      var tid := m.arena[h].id;
      && u.undo == m.undo
      && u.ranking == m.ranking + multiset{h}
      && u.history == a.history && u.schedule == a.schedule && u.tree == a.tree
      && (tid == userId ==>
            && u.users == m.users[userId := Users.RemoveTask(m.users[userId], m.arena, userId).0]
            && u.redo.head == Some(h) && u.redo.size == 1)
      && (tid !in m.users ==> u.users == a.users && u.users[userId] == Users.AddTask(m.users[userId], h) && u.redo == TaskStack.Empty)
  {
    var a := AddTaskToUser(m, userId, h).0;
    var u := UndoLastTask(a);
    AddedThenUndone(m, a, u, userId, h);
  }

  /** AddThenUndo, stated over the effects of the two calls. */
  lemma AddedThenUndone(m: Manager, a: Manager, u: Manager, userId: int, h: Handle)
    requires Valid(m) && h in m.arena && userId in m.users
    requires Added(m, a, userId, h) && Valid(a) && h in a.arena && Undone(a, u, h)
    ensures var tid := m.arena[h].id;
      && u.undo == m.undo
      && u.ranking == m.ranking + multiset{h}
      && u.history == a.history && u.schedule == a.schedule && u.tree == a.tree
      && (tid == userId ==>
            && u.users == m.users[userId := Users.RemoveTask(m.users[userId], m.arena, userId).0]
            && u.redo.head == Some(h) && u.redo.size == 1)
      && (tid !in m.users ==> u.users == a.users && u.users[userId] == Users.AddTask(m.users[userId], h) && u.redo == TaskStack.Empty)
  {
    var tid := m.arena[h].id;
    assert a.arena[h].id == tid;
    if tid == userId {
      assert SameIds(a.arena, m.arena);
      UpdateOne(a.users, m.users, userId);
      AddedThenUndoneOwner(m.users, a.users, u.users, m.arena, a.arena, userId, h);
    }
  }

  /** The owner's list after an add and its undo, when the task's id is the owner's. */
  lemma AddedThenUndoneOwner(mUsers: map<int, Users.User>, aUsers: map<int, Users.User>, uUsers: map<int, Users.User>,
                             ma: Arena, aa: Arena, userId: int, h: Handle)
    requires userId in mUsers && Users.TasksIn(mUsers[userId].tasks, ma)
    requires SameIds(aa, ma) && h in aa && aa[h].id == userId
    requires aUsers == mUsers[userId := Users.AddTask(mUsers[userId], h)]
    requires Users.TasksIn(aUsers[userId].tasks, aa)
    requires uUsers == aUsers[userId := Users.RemoveTask(aUsers[userId], aa, userId).0]
    ensures uUsers == mUsers[userId := Users.RemoveTask(mUsers[userId], ma, userId).0]
  {
    var mu := mUsers[userId];
    assert Users.TasksIn(mu.tasks, aa);
    Users.AddThenRemove(mu, aa, h);
    RemoveTaskSameIds(mu, aa, ma, userId);
  }

  /**
   * undoLastTask then redoLastTask, when the undone task's id names a user:
   * both stacks and every object are back as they were; that user's list
   * has lost the tasks with that id and regained the task at its end; the
   * ranking holds the task once more and the history has one more entry.
   */
  lemma UndoThenRedo(m: Manager)
    requires Valid(m) && m.undo.head.Some? && m.arena[m.undo.head.value].id in m.users
    ensures var h := m.undo.head.value;
      var tid := m.arena[h].id;
      var r := RedoLastTask(UndoLastTask(m));
      && r.undo == m.undo && r.redo == m.redo && r.arena == m.arena
      && r.users == m.users[tid := Users.AddTask(Users.RemoveTask(m.users[tid], m.arena, tid).0, h)]
      && r.ranking == m.ranking + multiset{h}
      && r.history.nodes == [Node(tid, m.arena[h].name)] + m.history.nodes
  {
    var h := m.undo.head.value;
    var u := UndoLastTask(m);
    assert u.redo.head == Some(h);
    UndoneThenRedone(m, u, RedoLastTask(u), h);
  }

  /** UndoThenRedo, stated over the effects of the two calls. */
  lemma UndoneThenRedone(m: Manager, u: Manager, r: Manager, h: Handle)
    requires Valid(m) && m.undo.head == Some(h) && m.arena[h].id in m.users
    requires Undone(m, u, h) && Valid(u) && h in u.arena && Redone(u, r, h)
    ensures var tid := m.arena[h].id;
      && r.undo == m.undo && r.redo == m.redo && r.arena == m.arena
      && r.users == m.users[tid := Users.AddTask(Users.RemoveTask(m.users[tid], m.arena, tid).0, h)]
      && r.ranking == m.ranking + multiset{h}
      && r.history.nodes == [Node(tid, m.arena[h].name)] + m.history.nodes
  {
    assert u.arena[h] == m.arena[h].(next := m.redo.head);
    assert r.arena[h] == m.arena[h];
    assert r.arena == m.arena;
  }

  /**
   * A task added to the user its id names, when that user had no task with
   * that id, is taken out by undo and put back by redo: users, stacks and
   * objects end as after the add, but the ranking now holds the task twice.
   * The state after the add is given by its effect, which AddTaskToUser
   * guarantees.
   */
  lemma AddUndoRedo(m: Manager, a: Manager, h: Handle)
    requires Valid(m) && h in m.arena && m.arena[h].id in m.users
    requires !Users.HasId(m.users[m.arena[h].id].tasks, m.arena, m.arena[h].id)
    requires Valid(a) && Added(m, a, m.arena[h].id, h)
    ensures var r := RedoLastTask(UndoLastTask(a));
      && r.users == a.users && r.undo == a.undo && r.redo == a.redo && r.arena == a.arena
      && r.ranking == m.ranking + multiset{h, h}
  {
    var tid := m.arena[h].id;
    assert a.undo.head == Some(h) && a.arena[h].id == tid;
    UndoThenRedo(a);
    AddedUser(m, a, h);
    var r := RedoLastTask(UndoLastTask(a));
    assert r.users == a.users[tid := a.users[tid]];
    UpdateOne(a.users, a.users, tid);
    assert r.ranking == a.ranking + multiset{h};
  }

  /** After the add, removing the task's id from its user's list gives back the list before the add. */
  lemma AddedUser(m: Manager, a: Manager, h: Handle)
    requires Valid(m) && h in m.arena && m.arena[h].id in m.users
    requires !Users.HasId(m.users[m.arena[h].id].tasks, m.arena, m.arena[h].id)
    requires Added(m, a, m.arena[h].id, h)
    ensures Users.TasksIn(a.users[m.arena[h].id].tasks, a.arena)
    ensures var tid := m.arena[h].id;
      a.users[tid] == Users.AddTask(Users.RemoveTask(a.users[tid], a.arena, tid).0, h)
    ensures a.ranking == m.ranking + multiset{h}
  {
    var tid := m.arena[h].id;
    var mu := m.users[tid];
    assert SameIds(m.arena, a.arena);
    Users.AddThenRemove(mu, a.arena, h);
    RemoveTaskSameIds(mu, m.arena, a.arena, tid);
    WithoutIdNone(mu.tasks, m.arena, tid);
    assert Users.RemoveTask(a.users[tid], a.arena, tid).0 == mu;
  }

  /**
   * editTask then undoLastTask: the snapshot is popped, so the undo stack is
   * back where it was, but the edited task keeps its new fields; undo never
   * copies the snapshot back.
   */
  lemma EditThenUndo(m: Manager, userId: int, taskId: int, newName: Option<string>, newPriority: int, newDueDate: Option<Date>)
    requires Valid(m) && userId in m.users && Users.HasId(m.users[userId].tasks, m.arena, taskId)
    ensures var h := EditTarget(m, userId, taskId).value;
      var e := EditTask(m, userId, taskId, newName, newPriority, newDueDate).0;
      var r := UndoLastTask(e);
      && r.undo == m.undo
      && h in r.arena && r.arena[h] == EditedRecord(m.arena[h], newName, newPriority, newDueDate)
  {
    var h := EditTarget(m, userId, taskId).value;
    var e := EditTask(m, userId, taskId, newName, newPriority, newDueDate).0;
    assert Edited(m, e, h, newName, newPriority, newDueDate);
    var s := e.undo.head.value;
    assert s != h && e.arena[s].next == m.undo.head;
    var r := UndoLastTask(e);
    assert Undone(e, r, s);
  }

  /**
   * Re-keying from a name whose only pairs are (n, d) to (n', d') takes one
   * (n, d) out of the pairs and puts (n', d') in.
   */
  lemma Rekey(t: DueDateTree.Tree, n: string, d: Date, n': string, d': Date)
    requires (n, d) in DueDateTree.Pairs(t)
    requires forall e :: e in DueDateTree.Pairs(t) && e.0 == n ==> e == (n, d)
    ensures DueDateTree.Pairs(Rekeyed(t, n, n', d')) == DueDateTree.Pairs(t) - multiset{(n, d)} + multiset{(n', d')}
  {
    DueDateTree.PairNamed(t, (n, d));
  }

  /**
   * editTask's effect on the tree, when the task's pair is in the tree, no
   * other pair carries its name and none carries the new name: a new name
   * or a new date replaces the old pair with one pair under the post-edit
   * name and date; with neither the tree is unchanged.
   */
  lemma EditRekeysTree(m: Manager, userId: int, taskId: int, newName: Option<string>, newPriority: int, newDueDate: Option<Date>)
    requires Valid(m) && userId in m.users && Users.HasId(m.users[userId].tasks, m.arena, taskId)
    requires var t := m.arena[EditTarget(m, userId, taskId).value];
      && (t.name, t.dueDate.value) in DueDateTree.Pairs(m.tree)
      && forall e :: e in DueDateTree.Pairs(m.tree) && (e.0 == t.name || e.0 == newName.GetOr(t.name)) ==> e == (t.name, t.dueDate.value)
    ensures var t := m.arena[EditTarget(m, userId, taskId).value];
      var r := EditTask(m, userId, taskId, newName, newPriority, newDueDate).0;
      var d' := if newDueDate.Some? then newDueDate.value else t.dueDate.value;
      && (newName.None? && newDueDate.None? ==> r.tree == m.tree)
      && (newName.Some? || newDueDate.Some? ==>
            DueDateTree.Pairs(r.tree) == DueDateTree.Pairs(m.tree) - multiset{(t.name, t.dueDate.value)}
                                          + multiset{(newName.GetOr(t.name), d')})
  {
    var h := EditTarget(m, userId, taskId).value;
    assert Edited(m, EditTask(m, userId, taskId, newName, newPriority, newDueDate).0, h, newName, newPriority, newDueDate);
    TreeAfterEditPairs(m.tree, m.arena[h], newName, newDueDate);
  }

  /**
   * The two re-keying steps, when the task's pair is in the tree and no
   * other pair carries its old or its new name, replace that pair with the
   * post-edit one; with no new name and no new date they do nothing.
   */
  lemma TreeAfterEditPairs(tree: DueDateTree.Tree, t: Task, newName: Option<string>, newDueDate: Option<Date>)
    requires t.dueDate.Some?
    requires (t.name, t.dueDate.value) in DueDateTree.Pairs(tree)
    requires forall e :: e in DueDateTree.Pairs(tree) && (e.0 == t.name || e.0 == newName.GetOr(t.name)) ==> e == (t.name, t.dueDate.value)
    ensures var r := TreeAfterEdit(tree, t, newName, newDueDate);
      var d' := if newDueDate.Some? then newDueDate.value else t.dueDate.value;
      && (newName.None? && newDueDate.None? ==> r == tree)
      && (newName.Some? || newDueDate.Some? ==>
            DueDateTree.Pairs(r) == DueDateTree.Pairs(tree) - multiset{(t.name, t.dueDate.value)}
                                    + multiset{(newName.GetOr(t.name), d')})
  {
    var d := t.dueDate.value;
    var p := DueDateTree.Pairs(tree);
    match newName
    case None =>
      if newDueDate.Some? {
        Rekey(tree, t.name, d, t.name, newDueDate.value);
      }
    case Some(n) =>
      var renamed := Rekeyed(tree, t.name, n, d);
      RenameStep(tree, t.name, d, n);
      if newDueDate.Some? {
        Rekey(renamed, n, d, n, newDueDate.value);
        Cancel(p - multiset{(t.name, d)}, (n, d), (n, newDueDate.value));
      }
  }

  /**
   * The name step, when every pair named n or n' is (n, d): one (n, d)
   * gives way to (n', d), after which every pair named n' is (n', d).
   */
  lemma RenameStep(t: DueDateTree.Tree, n: string, d: Date, n': string)
    requires (n, d) in DueDateTree.Pairs(t)
    requires forall e :: e in DueDateTree.Pairs(t) && (e.0 == n || e.0 == n') ==> e == (n, d)
    ensures var r := Rekeyed(t, n, n', d);
      && DueDateTree.Pairs(r) == DueDateTree.Pairs(t) - multiset{(n, d)} + multiset{(n', d)}
      && (n', d) in DueDateTree.Pairs(r)
      && forall e :: e in DueDateTree.Pairs(r) && e.0 == n' ==> e == (n', d)
  {
    Rekey(t, n, d, n', d);
    var p := DueDateTree.Pairs(t);
    forall e | e in p - multiset{(n, d)} + multiset{(n', d)} && e.0 == n'
      ensures e == (n', d)
    {
    }
  }

  /**
   * Whatever names the tree holds, editTask's re-keying steps leave the
   * post-edit pair in the tree, keep its size when the task's name was held,
   * and bring in no pair other than the post-edit name under the old or the
   * new date.
   */
  lemma TreeAfterEditBounds(tree: DueDateTree.Tree, t: Task, newName: Option<string>, newDueDate: Option<Date>)
    requires t.dueDate.Some?
    ensures newName.Some? || newDueDate.Some? ==>
      (newName.GetOr(t.name), newDueDate.GetOr(t.dueDate.value)) in DueDateTree.Pairs(TreeAfterEdit(tree, t, newName, newDueDate))
    ensures t.name in DueDateTree.Names(tree) ==>
      |DueDateTree.Pairs(TreeAfterEdit(tree, t, newName, newDueDate))| == |DueDateTree.Pairs(tree)|
    ensures forall e :: e in DueDateTree.Pairs(TreeAfterEdit(tree, t, newName, newDueDate)) ==>
      e in DueDateTree.Pairs(tree) || (e.0 == newName.GetOr(t.name) && (e.1 == t.dueDate.value || e.1 == newDueDate.GetOr(t.dueDate.value)))
  {
    TreeAfterEditHoldsPost(tree, t, newName, newDueDate);
    TreeAfterEditKeepsSize(tree, t, newName, newDueDate);
    TreeAfterEditAddsOnlyPost(tree, t, newName, newDueDate);
  }

  /** The post-edit pair is in the tree after a new name or a new date. */
  lemma TreeAfterEditHoldsPost(tree: DueDateTree.Tree, t: Task, newName: Option<string>, newDueDate: Option<Date>)
    requires t.dueDate.Some?
    ensures newName.Some? || newDueDate.Some? ==>
      (newName.GetOr(t.name), newDueDate.GetOr(t.dueDate.value)) in DueDateTree.Pairs(TreeAfterEdit(tree, t, newName, newDueDate))
  {
    var d := t.dueDate.value;
    var post := newName.GetOr(t.name);
    var renamed := if newName.Some? then Rekeyed(tree, t.name, post, d) else tree;
    var r := TreeAfterEdit(tree, t, newName, newDueDate);
    if newName.Some? {
      RekeyedBounds(tree, t.name, post, d);
      DueDateTree.PairNamed(renamed, (post, d));
    }
    if newDueDate.Some? {
      assert r == Rekeyed(renamed, post, post, newDueDate.value);
      RekeyedBounds(renamed, post, post, newDueDate.value);
    } else {
      assert r == renamed;
    }
  }

  /** When the task's name is held, the re-keying steps keep the number of pairs. */
  lemma TreeAfterEditKeepsSize(tree: DueDateTree.Tree, t: Task, newName: Option<string>, newDueDate: Option<Date>)
    requires t.dueDate.Some?
    ensures t.name in DueDateTree.Names(tree) ==>
      |DueDateTree.Pairs(TreeAfterEdit(tree, t, newName, newDueDate))| == |DueDateTree.Pairs(tree)|
  {
    var d := t.dueDate.value;
    var post := newName.GetOr(t.name);
    var renamed := if newName.Some? then Rekeyed(tree, t.name, post, d) else tree;
    var r := TreeAfterEdit(tree, t, newName, newDueDate);
    if newName.Some? {
      RekeyedBounds(tree, t.name, post, d);
      DueDateTree.PairNamed(renamed, (post, d));
    }
    if newDueDate.Some? {
      assert r == Rekeyed(renamed, post, post, newDueDate.value);
      RekeyedBounds(renamed, post, post, newDueDate.value);
    } else {
      assert r == renamed;
    }
  }

  /** The only pairs the re-keying steps bring in carry the post-edit name and the old or the new date. */
  lemma TreeAfterEditAddsOnlyPost(tree: DueDateTree.Tree, t: Task, newName: Option<string>, newDueDate: Option<Date>)
    requires t.dueDate.Some?
    ensures forall e :: e in DueDateTree.Pairs(TreeAfterEdit(tree, t, newName, newDueDate)) ==>
      e in DueDateTree.Pairs(tree) || (e.0 == newName.GetOr(t.name) && (e.1 == t.dueDate.value || e.1 == newDueDate.GetOr(t.dueDate.value)))
  {
    var d := t.dueDate.value;
    var post := newName.GetOr(t.name);
    var d' := newDueDate.GetOr(d);
    var renamed := if newName.Some? then Rekeyed(tree, t.name, post, d) else tree;
    var r := TreeAfterEdit(tree, t, newName, newDueDate);
    RekeyedBounds(tree, t.name, post, d);
    RekeyedBounds(renamed, post, post, d');
    forall e | e in DueDateTree.Pairs(r)
      ensures e in DueDateTree.Pairs(tree) || (e.0 == post && (e.1 == d || e.1 == d'))
    {
      if newDueDate.Some? {
        assert e in DueDateTree.Pairs(renamed) || e == (post, d');
      } else {
        assert e in DueDateTree.Pairs(renamed);
      }
    }
  }

  /** One re-keying step keeps the size when the name was held, and brings in no pair but (n', d). */
  lemma RekeyedBounds(tree: DueDateTree.Tree, n: string, n': string, d: Date)
    ensures var r := Rekeyed(tree, n, n', d);
      && (n in DueDateTree.Names(tree) ==> |DueDateTree.Pairs(r)| == |DueDateTree.Pairs(tree)|)
      && (forall e :: e in DueDateTree.Pairs(r) ==> e in DueDateTree.Pairs(tree) || e == (n', d))
  {
  }

  /**
   * editTask's two re-keying steps with BTree's remove as written: the name
   * step and then the date step, each a remove by name followed by an insert.
   */
  function TreeAfterEditAsWritten(tree: DueDateTree.Tree, t: Task, newName: Option<string>, newDueDate: Option<Date>): (r: DueDateTree.Tree)
    requires t.dueDate.Some?
    ensures newName.None? && newDueDate.None? ==> r == tree
  {
    var renamed := if newName.Some? then DueDateTree.Insert(DueDateTree.RemoveTaskAsWritten(tree, t.name).0, newName.value, t.dueDate.value) else tree;
    var name := newName.GetOr(t.name);
    if newDueDate.Some? then DueDateTree.Insert(DueDateTree.RemoveTaskAsWritten(renamed, name).0, name, newDueDate.value) else renamed
  }

  /** Re-keying a tree with one pair per name to a name it does not hold (or the same name) keeps one pair per name. */
  lemma RekeyKeepsOnePair(tree: DueDateTree.Tree, n: string, n': string, d: Date)
    requires DueDateTree.OnePairPerName(DueDateTree.Pairs(tree))
    requires n' == n || n' !in DueDateTree.Names(tree)
    ensures DueDateTree.OnePairPerName(DueDateTree.Pairs(Rekeyed(tree, n, n', d)))
  {
    var p := DueDateTree.Pairs(tree);
    if n in DueDateTree.Names(tree) {
      var e := DueDateTree.SearchNode(tree, n).value;
      forall f | f in p && f != e
        ensures f.0 != n'
      {
        DueDateTree.PairNamed(tree, f);
      }
      DueDateTree.OnePairPerNameSwap(p, e, (n', d));
    } else {
      forall f | f in p
        ensures f.0 != n'
      {
        DueDateTree.PairNamed(tree, f);
      }
      DueDateTree.OnePairPerNameAdd(p, (n', d));
    }
  }

  /**
   * When every name in the tree carries one pair and the new name is not
   * another task's, the re-keying steps with remove as written build the
   * same tree as the model's.
   */
  lemma EditTreeAsWrittenAgrees(tree: DueDateTree.Tree, t: Task, newName: Option<string>, newDueDate: Option<Date>)
    requires t.dueDate.Some?
    requires DueDateTree.OnePairPerName(DueDateTree.Pairs(tree))
    requires newName.Some? ==> newName.value == t.name || newName.value !in DueDateTree.Names(tree)
    ensures TreeAfterEditAsWritten(tree, t, newName, newDueDate) == TreeAfterEdit(tree, t, newName, newDueDate)
  {
    DueDateTree.OnePairPerNameUnique(tree);
    DueDateTree.RemoveTaskAsWrittenUnique(tree, t.name);
    if newName.Some? && newDueDate.Some? {
      var n := newName.value;
      var renamed := Rekeyed(tree, t.name, n, t.dueDate.value);
      RekeyKeepsOnePair(tree, t.name, n, t.dueDate.value);
      DueDateTree.OnePairPerNameUnique(renamed);
      DueDateTree.RemoveTaskAsWrittenUnique(renamed, n);
    }
  }

  /**
   * With two tasks named "X", due on days 1 and 7, renaming the first to
   * "Y" keeps ("X", 7) in the model's tree, while the steps as written lose it.
   */
  lemma EditTreeAsWrittenDiffers()
    ensures var t := Task(3, "X", 0, Some(1), None);
      && ("X", 7) in DueDateTree.Pairs(TreeAfterEdit(DueDateTree.TwoNamedX, t, Some("Y"), None))
      && ("X", 7) !in DueDateTree.Pairs(TreeAfterEditAsWritten(DueDateTree.TwoNamedX, t, Some("Y"), None))
  {
    RenameFirstXKeepsX7();
    RenameFirstXAsWrittenLosesX7();
  }

  /** The model's half: renaming the task due on day 1 re-keys only the pair search finds first. */
  lemma RenameFirstXKeepsX7()
    ensures ("X", 7) in DueDateTree.Pairs(TreeAfterEdit(DueDateTree.TwoNamedX, Task(3, "X", 0, Some(1), None), Some("Y"), None))
  {
    DueDateTree.RemoveDeletesFirstFound();
    var x7 := DueDateTree.Node(DueDateTree.Leaf, "X", 7, DueDateTree.Leaf);
    var model := DueDateTree.Node(DueDateTree.Node(DueDateTree.Leaf, "L", 3, DueDateTree.Leaf), "R", 5, x7);
    assert Rekeyed(DueDateTree.TwoNamedX, "X", "Y", 1) == DueDateTree.Insert(model, "Y", 1);
    assert ("X", 7) in DueDateTree.Pairs(model);
  }

  /** The as-written half: the same rename loses the other task's pair. */
  lemma RenameFirstXAsWrittenLosesX7()
    ensures ("X", 7) !in DueDateTree.Pairs(TreeAfterEditAsWritten(DueDateTree.TwoNamedX, Task(3, "X", 0, Some(1), None), Some("Y"), None))
  {
    DueDateTree.RemoveAsWrittenDeletesTwo();
    var written := DueDateTree.Node(DueDateTree.Node(DueDateTree.Leaf, "L", 3, DueDateTree.Leaf), "R", 5, DueDateTree.Leaf);
    assert DueDateTree.Pairs(written) == multiset{("L", 3), ("R", 5)};
  }

  /** Adding x and then taking it out again, before adding y, leaves just y added. */
  lemma Cancel<T>(a: multiset<T>, x: T, y: T)
    ensures a + multiset{x} - multiset{x} + multiset{y} == a + multiset{y}
  {
  }
}

=== FILE: task_queries.dfy ===
/**
 * The read-only queries of managers/TaskManager: getTotalTasks,
 * getTasksByPriority, getTasksInDateRange and printPriorityTasks.
 *
 * The first three walk the user map's values, whose order HashMap leaves
 * unspecified; here that order is a parameter, any sequence listing each
 * registered id once. The contracts speak of counts and multiplicities, and
 * the lemmas show those do not depend on the order chosen. The queries take
 * the manager as a value and hand back no new state, so they change nothing.
 */
module TaskQueries {
  import opened Wrappers
  import opened Tasks
  import Users
  import Rankings
  import opened TaskManagers

  /**
   * order lists each id of keys exactly once: one possible iteration order of
   * the user map. The length conjunct follows from the others and is kept to
   * spare the proofs a counting argument.
   */
  predicate Enumerates(order: seq<int>, keys: set<int>) {
    && |order| == |keys|
    && (forall i :: 0 <= i < |order| ==> order[i] in keys)
    && (forall k :: k in keys ==> k in order)
    && (forall i, j :: 0 <= i < j < |order| ==> order[i] != order[j])
  }

  /** The users' task lists, one after another in the given order of user ids. */
  function AllTasks(users: map<int, Users.User>, order: seq<int>): (s: seq<Handle>)
    requires forall i :: 0 <= i < |order| ==> order[i] in users
    ensures order != [] ==> s == users[order[0]].tasks + AllTasks(users, order[1..])
  {
    if order == [] then [] else users[order[0]].tasks + AllTasks(users, order[1..])
  }

  /** Walking two runs of ids one after the other walks their tasks one after the other. */
  lemma {:induction false} AllTasksAppend(users: map<int, Users.User>, a: seq<int>, b: seq<int>)
    requires forall i :: 0 <= i < |a| ==> a[i] in users
    requires forall i :: 0 <= i < |b| ==> b[i] in users
    ensures forall i :: 0 <= i < |a + b| ==> (a + b)[i] in users
    ensures AllTasks(users, a + b) == AllTasks(users, a) + AllTasks(users, b)
    decreases |a|
  {
    assert forall i :: 0 <= i < |a + b| ==> (a + b)[i] in users by {
      forall i | 0 <= i < |a + b|
        ensures (a + b)[i] in users
      {
        if i >= |a| {
          assert (a + b)[i] == b[i - |a|];
        }
      }
    }
    if a == [] {
      assert a + b == b;
    } else {
      assert (a + b)[1..] == a[1..] + b;
      AllTasksAppend(users, a[1..], b);
    }
  }

  /** Every listed task of valid manager state is live. */
  lemma {:induction false} AllTasksIn(m: Manager, order: seq<int>)
    requires Valid(m) && forall i :: 0 <= i < |order| ==> order[i] in m.users
    ensures Users.TasksIn(AllTasks(m.users, order), m.arena)
    decreases |order|
  {
    if order != [] {
      AllTasksIn(m, order[1..]);
      var a, b := m.users[order[0]].tasks, AllTasks(m.users, order[1..]);
      assert m.users[order[0]].id == order[0] && Users.TasksIn(a, m.arena);
      forall i | 0 <= i < |a + b|
        ensures (a + b)[i] in m.arena
      {
        if i >= |a| {
          assert (a + b)[i] == b[i - |a|];
        }
      }
    }
  }

  /** Dropping one id from an enumeration enumerates the remaining ids. */
  lemma DropEnumerated(order: seq<int>, keys: set<int>, j: int)
    requires Enumerates(order, keys) && 0 <= j < |order|
    ensures Enumerates(order[..j] + order[j + 1..], keys - {order[j]})
  {
    var o := order[..j] + order[j + 1..];
    assert forall i :: 0 <= i < |o| ==> o[i] == order[if i < j then i else i + 1];
    forall k | k in keys - {order[j]}
      ensures k in o
    {
      var i :| 0 <= i < |order| && order[i] == k;
      assert o[if i < j then i else i - 1] == k;
    }
  }

  /** The walk around one position: the ids before it, its user's list, and the ids after it. */
  lemma AllTasksSplit(users: map<int, Users.User>, o: seq<int>, j: int, before: seq<int>, after: seq<int>)
    requires forall i :: 0 <= i < |o| ==> o[i] in users
    requires 0 <= j < |o| && before == o[..j] && after == o[j + 1..]
    ensures forall i :: 0 <= i < |before| ==> before[i] in users
    ensures forall i :: 0 <= i < |after| ==> after[i] in users
    ensures AllTasks(users, o) == AllTasks(users, before) + users[o[j]].tasks + AllTasks(users, after)
  {
    assert forall i :: 0 <= i < |after| ==> after[i] == o[j + 1 + i];
    assert o == before + [o[j]] + after;
    AllTasksAppend(users, before, [o[j]]);
    AllTasksAppend(users, before + [o[j]], after);
    assert AllTasks(users, [o[j]]) == users[o[j]].tasks;
  }

  /** The walk around one id, counted: what comes before it and after it, plus its list. */
  lemma AllTasksAround(users: map<int, Users.User>, o: seq<int>, j: int)
    requires forall i :: 0 <= i < |o| ==> o[i] in users
    requires 0 <= j < |o|
    ensures multiset(AllTasks(users, o)) ==
      multiset(AllTasks(users, o[..j] + o[j + 1..])) + multiset(users[o[j]].tasks)
  {
    AllTasksSplit(users, o, j, o[..j], o[j + 1..]);
    AllTasksAppend(users, o[..j], o[j + 1..]);
  }

  /**
   * Any two iteration orders of the same users walk the same tasks, each as
   * often, so no count below depends on the order HashMap happens to use.
   */
  lemma {:induction false} AllTasksPermutation(users: map<int, Users.User>, o1: seq<int>, o2: seq<int>, keys: set<int>)
    requires keys <= users.Keys && Enumerates(o1, keys) && Enumerates(o2, keys)
    ensures multiset(AllTasks(users, o1)) == multiset(AllTasks(users, o2))
    decreases |o1|
  {
    if o1 == [] {
      assert o2 == [];
    } else {
      var k := o1[0];
      var j :| 0 <= j < |o2| && o2[j] == k;
      DropEnumerated(o1, keys, 0);
      DropEnumerated(o2, keys, j);
      assert o1[..0] + o1[0 + 1..] == o1[1..];
      AllTasksPermutation(users, o1[1..], o2[..j] + o2[j + 1..], keys - {k});
      AllTasksAround(users, o1, 0);
      AllTasksAround(users, o2, j);
    }
  }

  /** An id that does not occur in the order does not matter to the walk. */
  lemma {:induction false} AllTasksFrame(users: map<int, Users.User>, k: int, u: Users.User, order: seq<int>)
    requires forall i :: 0 <= i < |order| ==> order[i] in users && order[i] != k
    ensures AllTasks(users[k := u], order) == AllTasks(users, order)
    decreases |order|
  {
    if order != [] {
      AllTasksFrame(users, k, u, order[1..]);
    }
  }

  /** In an enumeration, the ids before and after position j are other ids. */
  lemma OthersAround(order: seq<int>, keys: set<int>, j: int, before: seq<int>, after: seq<int>)
    requires Enumerates(order, keys) && 0 <= j < |order| && before == order[..j] && after == order[j + 1..]
    ensures forall i :: 0 <= i < |before| ==> before[i] in keys && before[i] != order[j]
    ensures forall i :: 0 <= i < |after| ==> after[i] in keys && after[i] != order[j]
  {
    assert forall i :: 0 <= i < |after| ==> after[i] == order[j + 1 + i];
  }

  /** Replacing one user's list changes the walk's length by the difference of the two lists. */
  lemma AllTasksUpdate(users: map<int, Users.User>, k: int, u: Users.User, order: seq<int>)
    requires k in users && Enumerates(order, users.Keys)
    ensures |AllTasks(users[k := u], order)| + |users[k].tasks| == |AllTasks(users, order)| + |u.tasks|
  {
    var j :| 0 <= j < |order| && order[j] == k;
    var users' := users[k := u];
    var before, after := order[..j], order[j + 1..];
    OthersAround(order, users.Keys, j, before, after);
    AllTasksFrame(users, k, u, before);
    AllTasksFrame(users, k, u, after);
    AllTasksSplit(users, order, j, before, after);
    AllTasksSplit(users', order, j, before, after);
  }

  // ---------------------------------------------------------------------------
  // getTotalTasks

  /** getTotalTasks: the users' list lengths added up in the given order. */
  method GetTotalTasks(m: Manager, order: seq<int>) returns (total: int)
    requires Valid(m) && Enumerates(order, m.users.Keys)
    ensures total == |AllTasks(m.users, order)|
  {
    total := 0;
    var i := 0;
    while i < |order|
      invariant 0 <= i <= |order|
      invariant total == |AllTasks(m.users, order[..i])|
    {
      assert order[..i + 1] == order[..i] + [order[i]];
      AllTasksAppend(m.users, order[..i], [order[i]]);
      total := total + |m.users[order[i]].tasks|;
      i := i + 1;
    }
    assert order[..i] == order;
  }

  /** The total does not depend on the iteration order. */
  lemma TotalIndependentOfOrder(m: Manager, o1: seq<int>, o2: seq<int>)
    requires Enumerates(o1, m.users.Keys) && Enumerates(o2, m.users.Keys)
    ensures |AllTasks(m.users, o1)| == |AllTasks(m.users, o2)|
  {
    AllTasksPermutation(m.users, o1, o2, m.users.Keys);
    assert |multiset(AllTasks(m.users, o1))| == |multiset(AllTasks(m.users, o2))|;
  }

  /** A successful addTaskToUser raises the total by exactly one. */
  lemma AddRaisesTotal(m: Manager, userId: int, h: Handle, order: seq<int>)
    requires Valid(m) && h in m.arena && userId in m.users && Enumerates(order, m.users.Keys)
    ensures var r := AddTaskToUser(m, userId, h).0;
      Enumerates(order, r.users.Keys) && |AllTasks(r.users, order)| == |AllTasks(m.users, order)| + 1
  {
    var r := AddTaskToUser(m, userId, h).0;
    assert r.users == m.users[userId := Users.AddTask(m.users[userId], h)];
    AllTasksUpdate(m.users, userId, Users.AddTask(m.users[userId], h), order);
  }

  /**
   * An undo whose owner lookup succeeds lowers the total by the number of
   * tasks carrying the undone task's id in that user's list; a failed lookup
   * leaves it alone.
   */
  lemma UndoLowersTotal(m: Manager, order: seq<int>)
    requires Valid(m) && m.undo.head.Some? && Enumerates(order, m.users.Keys)
    ensures var h := m.undo.head.value;
      var tid := m.arena[h].id;
      var r := UndoLastTask(m);
      && Enumerates(order, r.users.Keys)
      && |AllTasks(r.users, order)| ==
           |AllTasks(m.users, order)| - (if tid in m.users then |Users.WithId(m.users[tid].tasks, m.arena, tid)| else 0)
  {
    var h := m.undo.head.value;
    var tid := m.arena[h].id;
    if tid in m.users {
      var u := Users.RemoveTask(m.users[tid], m.arena, tid).0;
      AllTasksUpdate(m.users, tid, u, order);
      assert |u.tasks| + |Users.WithId(m.users[tid].tasks, m.arena, tid)| == |m.users[tid].tasks| by {
        assert |multiset(u.tasks) + multiset(Users.WithId(m.users[tid].tasks, m.arena, tid))| == |multiset(m.users[tid].tasks)|;
      }
    }
  }

  // ---------------------------------------------------------------------------
  // getTasksByPriority

  /** dist holds, for each priority in ps, how often it occurs there, and nothing else. */
  ghost predicate Tally(dist: map<int, int>, ps: seq<int>) {
    forall p :: (p in dist <==> p in multiset(ps)) && (p in dist ==> dist[p] == multiset(ps)[p])
  }

  /** Counting one more priority keeps the tally. */
  lemma TallyStep(dist: map<int, int>, ps: seq<int>, p: int)
    requires Tally(dist, ps)
    ensures Tally(dist[p := (if p in dist then dist[p] else 0) + 1], ps + [p])
  {
    assert multiset(ps + [p]) == multiset(ps) + multiset{p};
  }

  /**
   * getTasksByPriority: for every priority, the number of walked tasks that
   * carry it; a priority no task carries has no entry.
   */
  method GetTasksByPriority(m: Manager, order: seq<int>) returns (dist: map<int, int>)
    requires Valid(m) && Enumerates(order, m.users.Keys)
    ensures Users.TasksIn(AllTasks(m.users, order), m.arena)
    ensures Tally(dist, Rankings.Priorities(AllTasks(m.users, order), m.arena))
  {
    AllTasksIn(m, order);
    dist := CountPriorities(AllTasks(m.users, order), m.arena);
  }

  /** The loop of getTasksByPriority over the walked tasks. */
  method CountPriorities(all: seq<Handle>, arena: Arena) returns (dist: map<int, int>)
    requires Users.TasksIn(all, arena)
    ensures Tally(dist, Rankings.Priorities(all, arena))
  {
    ghost var prios := Rankings.Priorities(all, arena);
    dist := map[];
    var i := 0;
    while i < |all|
      invariant 0 <= i <= |all|
      invariant Tally(dist, prios[..i])
    {
      var p := arena[all[i]].priority;
      assert prios[..i + 1] == prios[..i] + [p];
      TallyStep(dist, prios[..i], p);
      dist := dist[p := (if p in dist then dist[p] else 0) + 1];
      i := i + 1;
    }
    assert prios[..i] == prios;
  }

  /** How many tasks carry each priority does not depend on the iteration order. */
  lemma PriorityCountsIndependentOfOrder(m: Manager, o1: seq<int>, o2: seq<int>)
    requires Valid(m) && Enumerates(o1, m.users.Keys) && Enumerates(o2, m.users.Keys)
    ensures Users.TasksIn(AllTasks(m.users, o1), m.arena) && Users.TasksIn(AllTasks(m.users, o2), m.arena)
    ensures multiset(Rankings.Priorities(AllTasks(m.users, o1), m.arena))
         == multiset(Rankings.Priorities(AllTasks(m.users, o2), m.arena))
  {
    AllTasksIn(m, o1);
    AllTasksIn(m, o2);
    AllTasksPermutation(m.users, o1, o2, m.users.Keys);
    Rankings.PrioritiesPermute(AllTasks(m.users, o1), AllTasks(m.users, o2), m.arena);
  }

  // ---------------------------------------------------------------------------
  // getTasksInDateRange

  /** A due date is set, not before start and not after end. */
  predicate InRange(t: Task, start: Date, end: Date) {
    t.dueDate.Some? && start <= t.dueDate.value <= end
  }

  /** r holds exactly the tasks of s that are in range, each as often as in s. */
  ghost predicate Selects(r: seq<Handle>, s: seq<Handle>, arena: Arena, start: Date, end: Date) {
    && (forall i :: 0 <= i < |r| ==> r[i] in arena && InRange(arena[r[i]], start, end))
    && (forall h :: multiset(r)[h] == (if h in arena && InRange(arena[h], start, end) then multiset(s)[h] else 0))
    && Users.IsSubsequence(r, s)
  }

  /** Looking at one more task in front: it is taken when in range and passed over otherwise. */
  lemma SelectsStep(r: seq<Handle>, s: seq<Handle>, x: Handle, arena: Arena, start: Date, end: Date)
    requires Selects(r, s, arena, start, end) && x in arena
    ensures Selects(if InRange(arena[x], start, end) then [x] + r else r, [x] + s, arena, start, end)
  {
    if InRange(arena[x], start, end) {
      SelectsTake(r, s, x, arena, start, end);
    } else {
      SelectsSkip(r, s, x, arena, start, end);
    }
  }

  /** A task in range in front is taken. */
  lemma SelectsTake(r: seq<Handle>, s: seq<Handle>, x: Handle, arena: Arena, start: Date, end: Date)
    requires Selects(r, s, arena, start, end) && x in arena && InRange(arena[x], start, end)
    ensures Selects([x] + r, [x] + s, arena, start, end)
  {
    var r', s' := [x] + r, [x] + s;
    assert forall i :: 0 < i < |r'| ==> r'[i] == r[i - 1];
    assert multiset(s') == multiset{x} + multiset(s);
    assert multiset(r') == multiset{x} + multiset(r);
    assert r'[1..] == r && s'[1..] == s;
  }

  /** A task out of range in front is passed over. */
  lemma SelectsSkip(r: seq<Handle>, s: seq<Handle>, x: Handle, arena: Arena, start: Date, end: Date)
    requires Selects(r, s, arena, start, end) && x in arena && !InRange(arena[x], start, end)
    ensures Selects(r, [x] + s, arena, start, end)
  {
    assert multiset([x] + s) == multiset{x} + multiset(s);
    Users.SubsequenceOfTail(r, [x] + s);
    assert ([x] + s)[1..] == s;
  }

  /**
   * getTasksInDateRange: exactly the walked tasks with a due date in
   * [start, end], each as often as it is walked, in walking order. The list
   * is built here from the back, which gives the same list as appending
   * from the front.
   */
  method GetTasksInDateRange(m: Manager, order: seq<int>, start: Date, end: Date) returns (r: seq<Handle>)
    requires Valid(m) && Enumerates(order, m.users.Keys)
    ensures Selects(r, AllTasks(m.users, order), m.arena, start, end)
  {
    AllTasksIn(m, order);
    r := SelectInRange(AllTasks(m.users, order), m.arena, start, end);
  }

  /** The loop of getTasksInDateRange over the walked tasks. */
  method SelectInRange(all: seq<Handle>, arena: Arena, start: Date, end: Date) returns (r: seq<Handle>)
    requires Users.TasksIn(all, arena)
    ensures Selects(r, all, arena, start, end)
  {
    r := [];
    var i := |all|;
    assert all[i..] == [];
    while i > 0
      invariant 0 <= i <= |all|
      invariant Selects(r, all[i..], arena, start, end)
    {
      i := i - 1;
      assert all[i..] == [all[i]] + all[i + 1..];
      SelectsStep(r, all[i + 1..], all[i], arena, start, end);
      if InRange(arena[all[i]], start, end) {
        r := [all[i]] + r;
      }
    }
    assert all[0..] == all;
  }

  // ---------------------------------------------------------------------------
  // printPriorityTasks

  /**
   * printPriorityTasks: polls a copy of the ranking, so every ranked task is
   * printed once per occurrence, highest priority first, and the ranking
   * itself stays as it was. Each line is the task's details text.
   */
  method PrintPriorityTasks(m: Manager) returns (order: seq<Handle>, lines: seq<string>)
    requires Valid(m)
    ensures multiset(order) == m.ranking
    ensures forall i :: 0 <= i < |order| ==> order[i] in m.arena
    ensures Rankings.Descending(Rankings.Priorities(order, m.arena))
    ensures |lines| == |order| && forall i :: 0 <= i < |order| ==> lines[i] == Details(m.arena[order[i]])
  {
    order := Rankings.Drain(m.ranking, m.arena);
    lines := seq(|order|, i requires 0 <= i < |order| => Details(m.arena[order[i]]));
  }
}

=== FILE: task_stack.dfy ===
/**
 * data_structures/Stack, as used for the undo and redo stacks: a LIFO of
 * Task objects threaded through each task's intrusive `next` link, with a
 * separate size counter.
 *
 * The stack itself holds only the top handle and the counter; the chain
 * below the top lives in the arena. `Spells(arena, head, s)` says that the
 * chain starting at `head` lists exactly the handles of `s`, top first.
 */
module TaskStack {
  import opened Wrappers
  import opened Tasks

  datatype Stack = Stack(head: Option<Handle>, size: int)

  /** new Stack<Task>(): no top, size 0. */
  const Empty: Stack := Stack(None, 0)

  /** The top task, if any, is a live object. */
  predicate TopIn(st: Stack, arena: Arena) {
    st.head.Some? ==> st.head.value in arena
  }

  datatype PushResult = PushResult(stack: Stack, arena: Arena)

  datatype PopResult = PopResult(stack: Stack, arena: Arena, top: Option<Handle>)

  /** push: the task becomes the top, its link points at the old top, size grows by one. */
  function Push(st: Stack, arena: Arena, h: Handle): (r: PushResult)
    requires h in arena
    ensures r.stack.head == Some(h) && r.stack.size == st.size + 1
    ensures r.arena.Keys == arena.Keys
    ensures r.arena[h].next == st.head && r.arena[h].(next := arena[h].next) == arena[h]
    ensures forall k :: k in arena && k != h ==> r.arena[k] == arena[k]
  {
    PushResult(Stack(Some(h), st.size + 1), arena[h := SetNext(arena[h], st.head)])
  }

  /**
   * pop: on an empty stack returns null and changes nothing; otherwise
   * returns the top, makes the top's link the new top, clears the popped
   * task's link and decrements size.
   */
  function Pop(st: Stack, arena: Arena): (r: PopResult)
    requires TopIn(st, arena)
    ensures st.head.None? ==> r == PopResult(st, arena, None)
    ensures st.head.Some? ==>
      var h := st.head.value;
      && r.top == Some(h)
      && r.stack.head == arena[h].next
      && r.stack.size == st.size - 1
      && r.arena.Keys == arena.Keys
      && r.arena[h].next == None && r.arena[h].(next := arena[h].next) == arena[h]
      && (forall k :: k in arena && k != h ==> r.arena[k] == arena[k])
  {
    match st.head
    case None => PopResult(st, arena, None)
    case Some(h) =>
      PopResult(Stack(arena[h].next, st.size - 1), arena[h := SetNext(arena[h], None)], Some(h))
  }

  /** peek: the top, nothing changes. */
  function Peek(st: Stack): (r: Option<Handle>)
    ensures r == st.head
  {
    st.head
  }

  /** isEmpty tests the counter, not the top. */
  function IsEmpty(st: Stack): bool {
    st.size == 0
  }

  // ---------------------------------------------------------------------------
  // The chain of links as a sequence

  /** Following `next` from `head` visits exactly s, and the last link is null. */
  predicate Spells(arena: Arena, head: Option<Handle>, s: seq<Handle>) {
    && head == (if |s| == 0 then None else Some(s[0]))
    && (forall i :: 0 <= i < |s| ==> s[i] in arena)
    && (forall i :: 0 <= i < |s| ==> arena[s[i]].next == (if i + 1 < |s| then Some(s[i + 1]) else None))
  }

  /** The link of the i-th task on a chain: the next task, or null for the last. */
  lemma LinkAt(arena: Arena, head: Option<Handle>, s: seq<Handle>, i: int)
    requires Spells(arena, head, s)
    requires 0 <= i < |s|
    ensures s[i] in arena
    ensures arena[s[i]].next == (if i + 1 < |s| then Some(s[i + 1]) else None)
  {
  }

  /** The stack holds s, top first, and its counter is the chain's length. */
  predicate Holds(st: Stack, arena: Arena, s: seq<Handle>) {
    Spells(arena, st.head, s) && st.size == |s|
  }

  predicate Distinct(s: seq<Handle>) {
    forall i, j :: 0 <= i < j < |s| ==> s[i] != s[j]
  }

  lemma {:induction false} NoRepeatFrom(arena: Arena, head: Option<Handle>, s: seq<Handle>, i: nat, j: nat)
    requires Spells(arena, head, s)
    requires i < j < |s|
    ensures s[i] != s[j]
    decreases |s| - j
  {
    if s[i] == s[j] {
      if j + 1 < |s| {
        LinkAt(arena, head, s, i);
        LinkAt(arena, head, s, j);
        NoRepeatFrom(arena, head, s, i + 1, j + 1);
      } else {
        LinkAt(arena, head, s, i);
        LinkAt(arena, head, s, j);
      }
    }
  }

  /** A null-terminated chain never visits a task twice. */
  lemma SpellsDistinct(arena: Arena, head: Option<Handle>, s: seq<Handle>)
    requires Spells(arena, head, s)
    ensures Distinct(s)
  {
    forall i, j | 0 <= i < j < |s|
      ensures s[i] != s[j]
    {
      NoRepeatFrom(arena, head, s, i, j);
    }
  }

  /** The chain from a given top is determined by the arena. */
  lemma {:induction false} SpellsUnique(arena: Arena, head: Option<Handle>, s1: seq<Handle>, s2: seq<Handle>)
    requires Spells(arena, head, s1) && Spells(arena, head, s2)
    ensures s1 == s2
  {
    var n := if |s1| < |s2| then |s1| else |s2|;
    var k := 0;
    while k < n
      invariant 0 <= k <= n
      invariant s1[..k] == s2[..k]
      invariant k < n ==> s1[k] == s2[k]
    {
      if k + 1 < n {
        LinkAt(arena, head, s1, k);
        LinkAt(arena, head, s2, k);
      }
      assert s1[..k + 1] == s1[..k] + [s1[k]];
      assert s2[..k + 1] == s2[..k] + [s2[k]];
      k := k + 1;
    }
    if |s1| != |s2| && n > 0 {
      LinkAt(arena, head, s1, n - 1);
      LinkAt(arena, head, s2, n - 1);
    }
    assert s1 == s1[..n] && s2 == s2[..n];
  }

  /** Below its first task, a chain is the chain of the first task's link. */
  lemma SpellsTail(arena: Arena, head: Option<Handle>, s: seq<Handle>)
    requires Spells(arena, head, s)
    requires |s| > 0
    ensures Spells(arena, arena[s[0]].next, s[1..])
  {
    LinkAt(arena, head, s, 0);
    forall i | 0 <= i < |s[1..]|
      ensures arena[s[1..][i]].next == (if i + 1 < |s[1..]| then Some(s[1..][i + 1]) else None)
    {
      LinkAt(arena, head, s, i + 1);
    }
  }

  /** Updating a task that is not on the chain leaves the chain intact. */
  lemma SpellsFrame(arena: Arena, head: Option<Handle>, s: seq<Handle>, k: Handle, t: Task)
    requires Spells(arena, head, s)
    requires k !in s
    ensures Spells(arena[k := t], head, s)
  {
  }

  /** Pushing a task that is not already on the stack puts it in front of the sequence. */
  lemma PushHolds(st: Stack, arena: Arena, s: seq<Handle>, h: Handle)
    requires Holds(st, arena, s)
    requires h in arena && h !in s
    ensures Holds(Push(st, arena, h).stack, Push(st, arena, h).arena, [h] + s)
  {
    var r := Push(st, arena, h);
    var s' := [h] + s;
    forall i | 0 <= i < |s'|
      ensures r.arena[s'[i]].next == (if i + 1 < |s'| then Some(s'[i + 1]) else None)
    {
      if i > 0 {
        assert s'[i] == s[i - 1] && s[i - 1] != h;
        LinkAt(arena, st.head, s, i - 1);
      }
    }
    assert Spells(r.arena, r.stack.head, s');
  }

  /** Popping a non-empty stack returns the first element and leaves the rest. */
  lemma PopHolds(st: Stack, arena: Arena, s: seq<Handle>)
    requires Holds(st, arena, s)
    requires |s| > 0
    ensures Pop(st, arena).top == Some(s[0])
    ensures Holds(Pop(st, arena).stack, Pop(st, arena).arena, s[1..])
  {
    SpellsDistinct(arena, st.head, s);
    SpellsTail(arena, st.head, s);
    var r := Pop(st, arena);
    assert s[0] !in s[1..] by {
      forall i | 0 <= i < |s[1..]|
        ensures s[1..][i] != s[0]
      {
        assert s[1..][i] == s[i + 1];
      }
    }
    SpellsFrame(arena, r.stack.head, s[1..], s[0], r.arena[s[0]]);
  }

  /** Popping an empty stack keeps it empty. */
  lemma PopEmptyHolds(st: Stack, arena: Arena)
    requires Holds(st, arena, [])
    ensures Pop(st, arena).top == None && Holds(Pop(st, arena).stack, Pop(st, arena).arena, [])
  {
  }

  /** While push and pop are the only operations, isEmpty is exactly "no top". */
  lemma IsEmptyIffNoTop(st: Stack, arena: Arena, s: seq<Handle>)
    requires Holds(st, arena, s)
    ensures IsEmpty(st) <==> st.head == None
    ensures IsEmpty(st) <==> s == []
  {
  }

  /** LIFO: a push followed by a pop returns the pushed task and restores top and size. */
  lemma PushThenPop(st: Stack, arena: Arena, h: Handle)
    requires h in arena
    ensures var p := Push(st, arena, h);
      var r := Pop(p.stack, p.arena);
      && r.top == Some(h)
      && r.stack == st
      && r.arena == arena[h := SetNext(arena[h], None)]
  {
  }
}

=== FILE: tasks.dfy ===
/**
 * The Task record (tasks/Task.java) and the arena of live Task objects.
 *
 * Java shares Task objects by reference between a user's list, the undo and
 * redo stacks and the ranking, and mutates them in place. The model gives
 * every object a Handle and keeps the objects in an Arena; sharing is
 * sharing of handles, mutation is an arena update.
 */
module Tasks {
  import opened Wrappers

  /** A reference to a Task object. */
  type Handle = nat

  /** A due date as a day number: the system only compares dates. */
  type Date = int

  /**
   * The fields of a Task object. `next` is the intrusive link threaded by
   * the undo/redo stacks.
   */
  datatype Task = Task(id: int, name: string, priority: int, dueDate: Option<Date>, next: Option<Handle>)

  type Arena = map<Handle, Task>

  /** new Task(id, name, priority): the due date and the link start out null. */
  function NewTask(id: int, name: string, priority: int): (t: Task)
    ensures t.id == id && t.name == name && t.priority == priority
    ensures t.dueDate == None && t.next == None
  {
    Task(id, name, priority, None, None)
  }

  function SetId(t: Task, id: int): (r: Task)
    ensures r.id == id && r.(id := t.id) == t
  {
    t.(id := id)
  }

  function SetName(t: Task, name: string): (r: Task)
    ensures r.name == name && r.(name := t.name) == t
  {
    t.(name := name)
  }

  /** Any integer is accepted: the range 1..10 is checked by the console only. */
  function SetPriority(t: Task, priority: int): (r: Task)
    ensures r.priority == priority && r.(priority := t.priority) == t
  {
    t.(priority := priority)
  }

  function SetDueDate(t: Task, dueDate: Option<Date>): (r: Task)
    ensures r.dueDate == dueDate && r.(dueDate := t.dueDate) == t
  {
    t.(dueDate := dueDate)
  }

  function SetNext(t: Task, next: Option<Handle>): (r: Task)
    ensures r.next == next && r.(next := t.next) == t
  {
    t.(next := next)
  }

  /** getNext returns what setNext stored last, whatever other setters ran after it. */
  lemma NextSurvivesOtherSetters(t: Task, n: Option<Handle>, id: int, name: string, p: int, d: Option<Date>)
    ensures SetNext(t, n).next == n
    ensures SetDueDate(SetPriority(SetName(SetId(SetNext(t, n), id), name), p), d).next == n
  {
  }

  // ---------------------------------------------------------------------------
  // Decimal text, as Java's string concatenation renders an int.

  predicate IsDigit(c: char) {
    '0' <= c <= '9'
  }

  predicate AllDigits(s: string) {
    forall i :: 0 <= i < |s| ==> IsDigit(s[i])
  }

  function DigitChar(d: nat): (c: char)
    requires d < 10
    ensures IsDigit(c) && (c as int) - ('0' as int) == d
  {
    ((('0' as int) + d) as char)
  }

  /** The decimal digits of n, most significant first, without leading zeros. */
  function NatToString(n: nat): (s: string)
    ensures |s| > 0 && AllDigits(s)
    decreases n
  {
    if n < 10 then [DigitChar(n)] else NatToString(n / 10) + [DigitChar(n % 10)]
  }

  function IntToString(n: int): string {
    if n < 0 then "-" + NatToString(-n) else NatToString(n)
  }

  /** The number a string of decimal digits denotes. */
  function DigitsValue(s: string): nat
    requires AllDigits(s)
  {
    if s == [] then 0
    else DigitsValue(s[..|s| - 1]) * 10 + ((s[|s| - 1] as int) - ('0' as int))
  }

  /** The longest prefix of s made of digits. */
  function LeadingDigits(s: string): (d: string)
    ensures d <= s && AllDigits(d)
    ensures |d| < |s| ==> !IsDigit(s[|d|])
  {
    if s == [] || !IsDigit(s[0]) then [] else [s[0]] + LeadingDigits(s[1..])
  }

  /** Reads an optionally signed decimal number at the front of s. */
  function ParseLeadingInt(s: string): int {
    if |s| > 0 && s[0] == '-' then 0 - (DigitsValue(LeadingDigits(s[1..])) as int)
    else DigitsValue(LeadingDigits(s))
  }

  lemma {:induction false} NatToStringValue(n: nat)
    ensures DigitsValue(NatToString(n)) == n
    decreases n
  {
    var s := NatToString(n);
    if n >= 10 {
      NatToStringValue(n / 10);
      assert s[..|s| - 1] == NatToString(n / 10);
    }
  }

  lemma {:induction false} LeadingDigitsOfDigits(d: string, rest: string)
    requires AllDigits(d)
    requires rest == [] || !IsDigit(rest[0])
    ensures LeadingDigits(d + rest) == d
    decreases |d|
  {
    if d != [] {
      assert (d + rest)[1..] == d[1..] + rest;
      LeadingDigitsOfDigits(d[1..], rest);
    } else {
      assert d + rest == rest;
    }
  }

  /** Printing an int and reading it back yields the same int, whatever non-digit text follows. */
  lemma IntToStringRoundTrip(n: int, rest: string)
    requires rest == [] || !IsDigit(rest[0])
    ensures ParseLeadingInt(IntToString(n) + rest) == n
  {
    if n < 0 {
      var d := NatToString(-n);
      assert ("-" + d + rest)[1..] == d + rest;
      LeadingDigitsOfDigits(d, rest);
      NatToStringValue(-n);
    } else {
      var d := NatToString(n);
      LeadingDigitsOfDigits(d, rest);
      NatToStringValue(n);
    }
  }

  // ---------------------------------------------------------------------------
  // getDetails

  /** The part of getDetails that every task has. */
  function Header(t: Task): string {
    "::ID::" + IntToString(t.id) + "::Name::" + t.name + "::Priority::" + IntToString(t.priority)
  }

  /**
   * getDetails: the header, followed by the due date only when one is set.
   * Date.toString's calendar text is rendered here as the day number.
   */
  function Details(t: Task): (r: string)
    ensures Header(t) <= r
    ensures t.dueDate.None? <==> |r| == |Header(t)|
    ensures t.dueDate.Some? ==> "::DueDate::" <= r[|Header(t)|..]
  {
    Header(t) + (if t.dueDate.Some? then "::DueDate::" + IntToString(t.dueDate.value) else "")
  }

  /** The id can be read back from the details text, after the "::ID::" marker. */
  lemma DetailsIdRoundTrip(t: Task)
    ensures Details(t)[..6] == "::ID::"
    ensures ParseLeadingInt(Details(t)[6..]) == t.id
  {
    var rest := "::Name::" + t.name + "::Priority::" + IntToString(t.priority)
      + (if t.dueDate.Some? then "::DueDate::" + IntToString(t.dueDate.value) else "");
    assert Details(t) == "::ID::" + (IntToString(t.id) + rest);
    assert Details(t)[6..] == IntToString(t.id) + rest;
    IntToStringRoundTrip(t.id, rest);
  }
}

=== FILE: users.dfy ===
/**
 * user/User.java: an id, a name and an ordered list of the user's tasks.
 * The list holds task handles; ids are read through the arena.
 */
module Users {
  import opened Wrappers
  import opened Tasks

  datatype User = User(id: int, name: string, tasks: seq<Handle>)

  /** Every task on the list is a live object. */
  predicate TasksIn(ts: seq<Handle>, arena: Arena) {
    forall i :: 0 <= i < |ts| ==> ts[i] in arena
  }

  /** new User(id, name): the given id and name, no tasks. */
  function NewUser(id: int, name: string): (u: User)
    ensures u.id == id && u.name == name && |u.tasks| == 0
  {
    User(id, name, [])
  }

  function SetId(u: User, id: int): (r: User)
    ensures r.id == id && r.(id := u.id) == u
  {
    u.(id := id)
  }

  function SetName(u: User, name: string): (r: User)
    ensures r.name == name && r.(name := u.name) == u
  {
    u.(name := name)
  }

  /** addTask: the task goes at the end; the tasks already there keep their places. */
  function AddTask(u: User, h: Handle): (r: User)
    ensures r.id == u.id && r.name == u.name
    ensures |r.tasks| == |u.tasks| + 1 && r.tasks[..|u.tasks|] == u.tasks && r.tasks[|u.tasks|] == h
  {
    u.(tasks := u.tasks + [h])
  }

  /** Some task on the list has this id. */
  predicate HasId(ts: seq<Handle>, arena: Arena, taskId: int)
    requires TasksIn(ts, arena)
  {
    exists i :: 0 <= i < |ts| && arena[ts[i]].id == taskId
  }

  /** xs can be obtained from ys by deleting elements. */
  predicate IsSubsequence<T(==)>(xs: seq<T>, ys: seq<T>)
    decreases |ys|
  {
    if xs == [] then true
    else if ys == [] then false
    else if xs[0] == ys[0] then IsSubsequence(xs[1..], ys[1..])
    else IsSubsequence(xs, ys[1..])
  }

  /** The tasks of ts that carry this id, in order. */
  function WithId(ts: seq<Handle>, arena: Arena, taskId: int): (r: seq<Handle>)
    requires TasksIn(ts, arena)
    ensures TasksIn(r, arena)
    ensures forall i :: 0 <= i < |r| ==> arena[r[i]].id == taskId
  {
    if ts == [] then []
    else if arena[ts[0]].id == taskId then [ts[0]] + WithId(ts[1..], arena, taskId)
    else WithId(ts[1..], arena, taskId)
  }

  /** The tasks of ts that do not carry this id, in order. */
  function WithoutId(ts: seq<Handle>, arena: Arena, taskId: int): (r: seq<Handle>)
    requires TasksIn(ts, arena)
    ensures TasksIn(r, arena)
    ensures forall i :: 0 <= i < |r| ==> arena[r[i]].id != taskId
  {
    if ts == [] then []
    else if arena[ts[0]].id == taskId then WithoutId(ts[1..], arena, taskId)
    else [ts[0]] + WithoutId(ts[1..], arena, taskId)
  }

  /** Deleting by id keeps the remaining tasks in their order. */
  lemma {:induction false} WithoutIdSubsequence(ts: seq<Handle>, arena: Arena, taskId: int)
    requires TasksIn(ts, arena)
    ensures IsSubsequence(WithoutId(ts, arena, taskId), ts)
  {
    if ts != [] {
      WithoutIdSubsequence(ts[1..], arena, taskId);
      var kept := WithoutId(ts, arena, taskId);
      if arena[ts[0]].id == taskId {
        SubsequenceOfTail(kept, ts);
      } else {
        assert kept[0] == ts[0] && kept[1..] == WithoutId(ts[1..], arena, taskId);
      }
    }
  }

  /** A subsequence of the tail is a subsequence of the whole. */
  lemma {:induction false} SubsequenceOfTail<T>(xs: seq<T>, ys: seq<T>)
    requires ys != [] && IsSubsequence(xs, ys[1..])
    ensures IsSubsequence(xs, ys)
    decreases |ys|, 0
  {
    if xs != [] && xs[0] == ys[0] {
      DropFirst(xs, ys[1..]);
    }
  }

  /** Dropping the first element of a subsequence leaves a subsequence. */
  lemma {:induction false} DropFirst<T>(xs: seq<T>, ys: seq<T>)
    requires xs != [] && IsSubsequence(xs, ys)
    ensures IsSubsequence(xs[1..], ys)
    decreases |ys|, 1
  {
    if xs[0] == ys[0] {
      SubsequenceOfTail(xs[1..], ys);
    } else {
      DropFirst(xs, ys[1..]);
      SubsequenceOfTail(xs[1..], ys);
    }
  }

  /** What is kept and what is deleted make up the whole list, as a multiset. */
  lemma {:induction false} WithoutIdPartition(ts: seq<Handle>, arena: Arena, taskId: int)
    requires TasksIn(ts, arena)
    ensures multiset(WithoutId(ts, arena, taskId)) + multiset(WithId(ts, arena, taskId)) == multiset(ts)
  {
    if ts != [] {
      WithoutIdPartition(ts[1..], arena, taskId);
      assert ts == [ts[0]] + ts[1..];
    }
  }

  /** Deleting by id shortens the list exactly when some task has that id. */
  lemma {:induction false} WithoutIdShrinks(ts: seq<Handle>, arena: Arena, taskId: int)
    requires TasksIn(ts, arena)
    ensures |WithoutId(ts, arena, taskId)| <= |ts|
    ensures |WithoutId(ts, arena, taskId)| == |ts| <==> !HasId(ts, arena, taskId)
  {
    if ts != [] {
      var tl := ts[1..];
      WithoutIdShrinks(tl, arena, taskId);
      if arena[ts[0]].id != taskId {
        if HasId(tl, arena, taskId) {
          var i :| 0 <= i < |tl| && arena[tl[i]].id == taskId;
          assert arena[ts[i + 1]].id == taskId;
        }
        if HasId(ts, arena, taskId) {
          var i :| 0 <= i < |ts| && arena[ts[i]].id == taskId;
          assert i > 0 && arena[tl[i - 1]].id == taskId;
        }
      }
    }
  }

  /** removeTask: deletes every task with that id; true iff at least one was deleted. */
  function RemoveTask(u: User, arena: Arena, taskId: int): (r: (User, bool))
    requires TasksIn(u.tasks, arena)
    ensures r.0.id == u.id && r.0.name == u.name
    ensures TasksIn(r.0.tasks, arena)
    ensures forall i :: 0 <= i < |r.0.tasks| ==> arena[r.0.tasks[i]].id != taskId
    ensures IsSubsequence(r.0.tasks, u.tasks)
    ensures multiset(r.0.tasks) + multiset(WithId(u.tasks, arena, taskId)) == multiset(u.tasks)
    ensures r.1 <==> HasId(u.tasks, arena, taskId)
  {
    var kept := WithoutId(u.tasks, arena, taskId);
    WithoutIdSubsequence(u.tasks, arena, taskId);
    WithoutIdPartition(u.tasks, arena, taskId);
    WithoutIdShrinks(u.tasks, arena, taskId);
    (u.(tasks := kept), |kept| != |u.tasks|)
  }

  /** getTaskById: the first task with that id, or null. */
  function GetTaskById(ts: seq<Handle>, arena: Arena, taskId: int): (r: Option<Handle>)
    requires TasksIn(ts, arena)
    ensures r.None? <==> !HasId(ts, arena, taskId)
    ensures r.Some? ==> exists i :: && 0 <= i < |ts| && ts[i] == r.value && arena[ts[i]].id == taskId
                                    && forall j :: 0 <= j < i ==> arena[ts[j]].id != taskId
  {
    if ts == [] then None
    else if arena[ts[0]].id == taskId then Some(ts[0])
    else
      var r := GetTaskById(ts[1..], arena, taskId);
      assert HasId(ts, arena, taskId) ==> HasId(ts[1..], arena, taskId) by {
        if HasId(ts, arena, taskId) {
          var i :| 0 <= i < |ts| && arena[ts[i]].id == taskId;
          assert arena[ts[1..][i - 1]].id == taskId;
        }
      }
      if r.Some? then
        var i :| && 0 <= i < |ts[1..]| && ts[1..][i] == r.value && arena[ts[1..][i]].id == taskId
                 && forall j :: 0 <= j < i ==> arena[ts[1..][j]].id != taskId;
        assert ts[i + 1] == r.value && arena[ts[i + 1]].id == taskId;
        assert forall j :: 0 <= j < i + 1 ==> arena[ts[j]].id != taskId by {
          forall j | 0 <= j < i + 1
            ensures arena[ts[j]].id != taskId
          {
            if j > 0 {
              assert ts[j] == ts[1..][j - 1];
            }
          }
        }
        r
      else
        r
  }

  /** Deleting by id distributes over concatenation, so the kept tasks stay in order. */
  lemma {:induction false} WithoutIdAppend(a: seq<Handle>, b: seq<Handle>, arena: Arena, taskId: int)
    requires TasksIn(a, arena) && TasksIn(b, arena)
    ensures TasksIn(a + b, arena)
    ensures WithoutId(a + b, arena, taskId) == WithoutId(a, arena, taskId) + WithoutId(b, arena, taskId)
    decreases |a|
  {
    assert TasksIn(a + b, arena);
    if a == [] {
      assert a + b == b;
    } else {
      assert (a + b)[1..] == a[1..] + b;
      WithoutIdAppend(a[1..], b, arena, taskId);
    }
  }

  /** After removeTask(id) no task with that id is found. */
  lemma RemoveThenGet(u: User, arena: Arena, taskId: int)
    requires TasksIn(u.tasks, arena)
    ensures GetTaskById(RemoveTask(u, arena, taskId).0.tasks, arena, taskId) == None
  {
  }

  /** Adding a task and then removing its id leaves the list as removing the id alone would. */
  lemma AddThenRemove(u: User, arena: Arena, h: Handle)
    requires TasksIn(u.tasks, arena) && h in arena
    ensures TasksIn(AddTask(u, h).tasks, arena)
    ensures RemoveTask(AddTask(u, h), arena, arena[h].id) == (RemoveTask(u, arena, arena[h].id).0, true)
  {
    var taskId := arena[h].id;
    var added := AddTask(u, h).tasks;
    assert added == u.tasks + [h];
    WithoutIdAppend(u.tasks, [h], arena, taskId);
    assert WithoutId([h], arena, taskId) == [] by {
      assert [h][1..] == [];
    }
    assert WithoutId(added, arena, taskId) == WithoutId(u.tasks, arena, taskId);
    assert HasId(added, arena, taskId) by {
      assert added[|u.tasks|] == h;
    }
  }
}

=== FILE: wrappers.dfy ===
/** Optional values, standing in for Java references that may be null. */
module Wrappers {

  datatype Option<+T> = None | Some(value: T) {

    /** Returns the value held in Some, or the default when None. */
    function GetOr(default: T): T {
      match this
      case Some(v) => v
      case None => default
    }
  }
}
